=== FILE: README.md ===
# sweetSpot cake shop, modelled in Dafny

sweetSpot is an Android app for a cake shop, written in Kotlin. Customers browse the catalogue, put cakes
of a chosen size in a cart, pick a collection slot, pay by card or Google Pay, and look back at their order
history. Administrators add, edit and retire cakes and look at the sales figures. Firebase holds every
record and runs sign-in.

This project models the logic that sits around those remote calls. Each view model and each screen with
state of its own is a `class`. Its fields are the source's `LiveData`, `StateFlow` or remembered variables,
and its methods are the handlers and callbacks. Each method states its whole new state, tied to the pure
functions that specify it. Pure expressions (`filter`, `sortedBy`, `when` cascades, price look-ups) are
functions with the lemmas that say what they mean. Every Firebase, Storage, Google Pay and Auth call is
replaced by a parameter that says how the call ended: `TaskOutcome`, `SignInOutcome`, `DocumentRead`,
`WriteOutcome`, `SaveOutcome`, or an `Option` for an upload's URL. A method then runs the callback that
outcome triggers.

The project has one module per source file, plus a few shared modules:

- `Wrappers`: `Option`.
- `Text`: blank, digit and case-insensitive containment.
- `Numerals`: Kotlin's `toInt`, `toString` and price parsing and printing, in cents.
- `Seqs`: filter, subsequence and distinct.
- `Sorting`: a stable sort by a key, the model of `sortedBy` and `sortedByDescending`.
- `Calendar`: dates, times and the `yyyy-MM-dd` and `HH:mm` formats.
- `Grouping`: the group-and-sum loops behind the sales figures.

The main properties proved are:

- The cart keeps one line per (cake, size) with a positive quantity. Each operation changes only the line
  it names, and the total is the sum of the line totals.
- A collection time for another day is accepted exactly when it lies strictly between 10:00 and 21:00. For
  today, the screen as written also needs the time to be after `now + 30 min`, which wraps past midnight
  (see Findings). The corrected picker keeps only times today more than thirty minutes ahead.
- The checkout form is valid exactly when every field passes its filter. The cart is cleared only after
  the order has been saved. The saved order copies each line's unit price.
- The order history holds exactly the orders in the chosen date range, sorted by the chosen key, with ties
  in their original order.
- The sales figures give each cake, day, month or year one entry, whose value is the sum over the orders
  that fall under it. The lists are sorted.
- The catalogue views are filters, sorts and distinct lists with the meaning their names promise.
- The add and edit forms accept exactly the inputs their checks describe. Each error message names the
  failing field.
- The sign-in, sign-up and password screens move the shared session through the states `AuthViewModel`
  promises. The register screen's email scan agrees with the regular expression it stands for.

Prices are whole cents (`int`), where the app uses `Double`. Times of day are nanoseconds since midnight,
so that comparisons with the current time are exact. Dates are (year, month, day) triples.

## Model

| member | source | states |
|---|---|---|
| Auth.RoleState | main/java/com/example/sweetspot/AuthViewModel.kt:66-74 | the state after the role read is Authenticated exactly when the read succeeds, with the document's role (null when it has none); a failed read gives Error with its message or "Failed to retrieve role" |
| Auth.AuthViewModel.constructor | main/java/com/example/sweetspot/AuthViewModel.kt:32-34 | a new view model runs the session check: Unauthenticated without a restored user, Authenticated with no role with one; nothing cached |
| Auth.AuthViewModel.RefreshUserEmail | main/java/com/example/sweetspot/AuthViewModel.kt:36-41 | with a signed-in user the cached email becomes that user's email; without one nothing changes |
| Auth.AuthViewModel.CheckAuthStatus | main/java/com/example/sweetspot/AuthViewModel.kt:43-50 | the state is Unauthenticated exactly when no user is signed in, otherwise Authenticated with no role; nothing else changes |
| Auth.AuthViewModel.Login | main/java/com/example/sweetspot/AuthViewModel.kt:52-80 | a blank email or password sets only the blank-field error; otherwise Loading, then on sign-in the user and email are taken and the role read decides the state, and on failure the exception's message or "Login failed" |
| Auth.AuthViewModel.Register | main/java/com/example/sweetspot/AuthViewModel.kt:82-113 | any blank field sets "All fields are required" and writes nothing; otherwise Loading, then a created account writes users/<uid> with the four fields and role "user" and becomes Authenticated("user") once the write succeeds, or an Error with the write's or the creation's message |
| Auth.AuthViewModel.GetUserDetails | main/java/com/example/sweetspot/AuthViewModel.kt:115-131 | without a user nothing happens; a successful read caches and reports the name and phone, "" where absent, so a missing document (which has no fields) gives two empty strings; a failed read sets "Failed to retrieve user details" and leaves the cache |
| Auth.AuthViewModel.UpdateUserDetails | main/java/com/example/sweetspot/AuthViewModel.kt:133-152 | without a user nothing happens; otherwise the name and phone are written to the user's document and cached with the Success state only when the write succeeds, else the update-failed Error |
| Auth.AuthViewModel.SignOut | main/java/com/example/sweetspot/AuthViewModel.kt:154-160 | afterwards no user is signed in, the state is Unauthenticated and the email, name and phone are all cleared |
| Auth.SignOutThenCheck | main/java/com/example/sweetspot/AuthViewModel.kt:43-50 | a session check after signing out agrees with the sign-out: Unauthenticated with no user |
| Auth.RegisterThenCheck | main/java/com/example/sweetspot/AuthViewModel.kt:82-113 | a registration whose creation and write succeed ends Authenticated with role "user" and writes exactly the fields entered with that role |
| Login.RoleDestination | main/java/com/example/sweetspot/pages/LoginPage.kt:246-250 | "admin" leads to adminHome and "user" to userHome, each exactly for that role; any other role shows "Invalid role. Please contact support." |
| Login.ReadOutcome | main/java/com/example/sweetspot/pages/LoginPage.kt:236-257 | the screen navigates exactly when the read succeeds, the document exists and its role (default "user") is admin or user; a failed read shows its message after "Error retrieving user data: ", a missing document its own message |
| Login.MissingRoleReadsDifferently | main/java/com/example/sweetspot/pages/LoginPage.kt:240 | for a document without a role the screen defaults to the user home, while the view model's login reports a session with no role |
| Login.ReadOutcomeAgreesWithRole | main/java/com/example/sweetspot/pages/LoginPage.kt:246-250 | for a document with a role, the screen's home and the view model's Authenticated role name the same role, in both directions |
| Login.LoginPage.constructor | main/java/com/example/sweetspot/pages/LoginPage.kt:39-42 | the screen starts with empty fields, no message and no email sent |
| Login.LoginPage.OnEmailChange | main/java/com/example/sweetspot/pages/LoginPage.kt:96-99 | typing an email sets it and clears the message |
| Login.LoginPage.OnPasswordChange | main/java/com/example/sweetspot/pages/LoginPage.kt:124 | typing a password sets it and leaves the message as it was |
| Login.LoginPage.HandleLogin | main/java/com/example/sweetspot/pages/LoginPage.kt:215-265 | blank fields set the lower-case blank message; a failed sign-in shows its message or "Login failed"; a sign-in refreshes the email, saves the document's name and phone ("No Name"/"No Number" when absent) when it exists, and navigates or shows the error the read leads to |
| Login.LoginPage.OnLoginClicked | main/java/com/example/sweetspot/pages/LoginPage.kt:161-175 | the button's own blank check comes first with its own message and touches no session; otherwise it behaves as the sign-in handler |
| Login.LoginPage.HandleForgotPassword | main/java/com/example/sweetspot/pages/LoginPage.kt:267-287 | a blank email asks for one; a sent reset email clears the message and toasts "Password reset email sent to <email>."; a failure shows its message or "Failed to send reset email."; the email is recorded as the last one sent |
| Login.LoginPage.OnForgotPasswordClicked | main/java/com/example/sweetspot/pages/LoginPage.kt:195-205 | a blank email shows the button's own message and records nothing; otherwise the request is made and the email recorded |
| Login.AdminSignInEndsInSuccess | main/java/com/example/sweetspot/pages/LoginPage.kt:238-250 | an admin signing in from the screen reaches adminHome, yet the shared view model ends in the details-updated Success, not Authenticated |
| Register.LocalPartLength | main/java/com/example/sweetspot/pages/RegisterPage.kt:43 | the length of the longest prefix of characters from `[A-Za-z0-9+_.-]`: all of them are in the class and the next is not |
| Register.EmailMatchesIff | main/java/com/example/sweetspot/pages/RegisterPage.kt:43 | the scan accepts an address exactly when `^[A-Za-z0-9+_.-]+@(.+)$` matches it at some '@' |
| Register.EmailMatchNotBlank | main/java/com/example/sweetspot/pages/RegisterPage.kt:187 | an address the pattern matches is not blank, so the blank test never decides on its own |
| Register.RegistrationError | main/java/com/example/sweetspot/pages/RegisterPage.kt:180-195 | the form passes exactly when the name and password are not blank, the phone is ten UTF-16 units long (`length`), the email matches and the passwords agree; each of the five messages is given exactly when its check is the first to fail, in the `when`'s order (name, phone, email, password, confirmation) |
| Register.AcceptedFormPassesRegister | main/java/com/example/sweetspot/pages/RegisterPage.kt:196-202 | a form the screen sends always passes `register`'s own all-fields guard |
| Register.ShortAddressMatches | main/java/com/example/sweetspot/pages/RegisterPage.kt:43 | "a@b.c" is accepted by the pattern |
| Register.PhoneNotCheckedForDigits | main/java/com/example/sweetspot/pages/RegisterPage.kt:184-186 | the phone check is on length only: ten letters pass |
| Register.RegisterPage.constructor | main/java/com/example/sweetspot/pages/RegisterPage.kt:36-41 | the screen starts with all five fields empty and no message |
| Register.RegisterPage.OnSignUpClicked | main/java/com/example/sweetspot/pages/RegisterPage.kt:180-211 | a failing check sets its message and touches no session; otherwise `register` runs and the success toast and the login route follow whatever its outcome |
| Register.ToastDespiteFailedCreation | main/java/com/example/sweetspot/pages/RegisterPage.kt:196-211 | for every form the screen accepts, a failed account creation still shows "Registration successful! Please log in." while the view model holds the creation error |
| Register.PhoneLengthInUtf16Units | main/java/com/example/sweetspot/pages/RegisterPage.kt:184 | `length` counts UTF-16 units: five emoji pass the phone check and ten are refused |
| Register.SampleFormAccepted | main/java/com/example/sweetspot/pages/RegisterPage.kt:180-196 | a complete form with a ten-digit phone, "a@b.c" and matching passwords reaches `register` |
| ResetPassword.PasswordPairError | main/java/com/example/sweetspot/pages/ResetPasswordPage.kt:96-99 | the pair passes exactly when the password is not blank and equals the confirmation; the empty-fields message is given exactly when either is blank, and "Passwords do not match" exactly when both are non-blank and differ |
| ResetPassword.PasswordResult | main/java/com/example/sweetspot/pages/ResetPasswordPage.kt:143-164 | success exactly when a user is signed in and both the update and the reload succeed, and an error exactly when not: no user, the update's message or "Failed to change password", or "Failed to reload user data" |
| ResetPassword.UpdatePassword | main/java/com/example/sweetspot/pages/ResetPasswordPage.kt:138-165 | reports the result above, asks for the new password only for a signed-in user, and refreshes the view model's email only on success |
| ResetPassword.ResetPasswordPage.constructor | main/java/com/example/sweetspot/pages/ResetPasswordPage.kt:37-40 | the screen starts with empty fields and no message |
| ResetPassword.ResetPasswordPage.OnChangePasswordClicked | main/java/com/example/sweetspot/pages/ResetPasswordPage.kt:95-123 | a failing field check shows its message and calls nothing; success toasts "Password changed successfully" and goes to userProfile; a failure shows the error under the form and in a toast |
| ResetPassword.FailureAlwaysExplained | main/java/com/example/sweetspot/pages/ResetPasswordPage.kt:115 | every failure of the update carries its own message, so "Unknown error occurred" appears only when Firebase's own message is that text |
| Theme.ThemeViewModel.constructor | main/java/com/example/sweetspot/ThemeViewModel.kt:8 | the app starts in the dark theme |
| Theme.ThemeViewModel.ToggleTheme | main/java/com/example/sweetspot/ThemeViewModel.kt:11-13 | toggling flips the theme |
| Theme.ToggleTwice | main/java/com/example/sweetspot/ThemeViewModel.kt:11-13 | two toggles give back the theme the user had |
| Theme.FreshToggles | main/java/com/example/sweetspot/ThemeViewModel.kt:7-14 | from a fresh start one toggle gives the light theme and a second the dark one again |
| CakeStore.WriteState | main/java/com/example/sweetspot/CakeViewModel.kt:206-212 | a write's success sets its Success text; a failure sets Error with the exception's message, or the default when it has none |
| CakeStore.StoragePath | main/java/com/example/sweetspot/CakeViewModel.kt:166 | an image is stored at "cakes/" followed by its name |
| CakeStore.CachedImageUrl | main/java/com/example/sweetspot/CakeViewModel.kt:132 | the cached image URL is that of the first cached cake with the id, and "" when the list is null or has no such cake |
| CakeStore.FirstImageUrl | main/java/com/example/sweetspot/CakeViewModel.kt:132 | `find { it.id == cakeId }?.imageUrl.orEmpty()` is the first match's URL, or "" |
| CakeStore.CakesOf | main/java/com/example/sweetspot/CakeViewModel.kt:35-37 | `mapNotNull` gives at most one cake per document |
| CakeStore.CakesOfAllParsed | main/java/com/example/sweetspot/CakeViewModel.kt:35-37 | when every document deserialises, the list is their cakes in order, each carrying its document id |
| CakeStore.CakesOfSkipsUnreadable | main/java/com/example/sweetspot/CakeViewModel.kt:35-37 | a document that does not deserialise adds nothing |
| CakeStore.FavoriteDocId | main/java/com/example/sweetspot/CakeViewModel.kt:248 | the favourites document is named user id, '_', cake id |
| CakeStore.FavoriteDocIdInjective | main/java/com/example/sweetspot/CakeViewModel.kt:248 | for user ids without '_', the document name identifies one user and one cake |
| CakeStore.ApplyFavoriteWrite | main/java/com/example/sweetspot/CakeViewModel.kt:262-266 | `delete` removes the document and `set` creates it |
| CakeStore.CakeViewModel.constructor | main/java/com/example/sweetspot/CakeViewModel.kt:22-28 | no state, no list, and an empty favourites map |
| CakeStore.CakeViewModel.FetchCakes | main/java/com/example/sweetspot/CakeViewModel.kt:30-44 | the list becomes the fetched cakes, or empty when the query fails; nothing else changes |
| CakeStore.CakeViewModel.AddCake | main/java/com/example/sweetspot/CakeViewModel.kt:80-108 | a blank name, description or category, or a price of zero or less, gives the error alone, with no Loading, upload or save; otherwise Loading, then an upload failure's error, or a save of the cake with `orders` 0, not deleted, and the uploaded URL or "" without an image, ending in the write's state |
| CakeStore.CakeViewModel.UpdateCake | main/java/com/example/sweetspot/CakeViewModel.kt:110-135 | no validation; Loading first; a new image is uploaded as name + ".png", and without one the cached cake's URL (or "") is kept; the write's outcome sets the final state |
| CakeStore.CakeViewModel.SoftDeleteCake | main/java/com/example/sweetspot/CakeViewModel.kt:148-158 | the state reports the write; a success refetches the list, a failure keeps it |
| CakeStore.CakeViewModel.ResetState | main/java/com/example/sweetspot/CakeViewModel.kt:160-162 | the state becomes Idle and nothing else changes |
| CakeStore.CakeViewModel.ObserveFavoriteStatus | main/java/com/example/sweetspot/CakeViewModel.kt:246-252 | the map entry of the cake id (not the user) becomes whether the document exists, false for a null snapshot |
| CakeStore.CakeViewModel.GetFavoriteStatus | main/java/com/example/sweetspot/CakeViewModel.kt:254-256 | a cake is favourite exactly when it was observed as one; never observed is false |
| CakeStore.CakeViewModel.ToggleFavoriteStatus | main/java/com/example/sweetspot/CakeViewModel.kt:258-267 | a favourite's document is deleted; otherwise {userId, cakeId} is written to it |
| CakeStore.ToggleFlipsObservedStatus | main/java/com/example/sweetspot/CakeViewModel.kt:246-267 | when the map agrees with the collection, the toggle's write flips what the listener reports next |
| AddCake.AddRequest | main/java/com/example/sweetspot/pages/AddCakePage.kt:201-216 | `addCake` is called exactly when name and description are non-blank, all three prices parse and a category is chosen, with the parsed prices and image name name + ".png" |
| AddCake.NonPositivePriceRefusedDownstream | main/java/com/example/sweetspot/pages/AddCakePage.kt:205 | a price of zero or less passes the page and is refused by `addCake` |
| AddCake.ZeroPricePassesForm | main/java/com/example/sweetspot/pages/AddCakePage.kt:205 | a zero price passes the page's test |
| AddCake.AddCakePage.constructor | main/java/com/example/sweetspot/pages/AddCakePage.kt:37-44 | the form opens empty, with the category placeholder and no image |
| AddCake.AddCakePage.OnAddClicked | main/java/com/example/sweetspot/pages/AddCakePage.kt:199-220 | a form that fails the test shows "Please fill in all fields" and calls nothing; otherwise `addCake` runs with the form's values |
| AddCake.AddCakePage.OnCakeState | main/java/com/example/sweetspot/pages/AddCakePage.kt:228-255 | Success shows its message, resets the state to Idle, empties the form and returns to product management; Error shows its message only; other states do nothing |
| EditCake.LoadedPricesValid | main/java/com/example/sweetspot/pages/EditCakePage.kt:65-67 | a stored positive price, shown with `toString()`, passes the price check and parses back to itself |
| EditCake.EditCakePage.constructor | main/java/com/example/sweetspot/pages/EditCakePage.kt:35-48 | empty fields, the category placeholder, no image and no errors |
| EditCake.EditCakePage.LoadFromCakeAsWritten | main/java/com/example/sweetspot/pages/EditCakePage.kt:62-70 | while the cake is non-null the form takes its values and clears the image, each time `EditCakePage`'s body runs |
| EditCake.EditCakePage.LoadFromCake | main/java/com/example/sweetspot/pages/EditCakePage.kt:62-70 | the intended load: the cake is copied in when it arrives or changes, and the form is kept otherwise |
| EditCake.EditCakePage.CopyCake | main/java/com/example/sweetspot/pages/EditCakePage.kt:63-69 | the form shows the cake, prices as `toString()` prints them, and no new image |
| EditCake.EditCakePage.OnNameChange | main/java/com/example/sweetspot/pages/EditCakePage.kt:130 | the name field takes the typed value and nothing else changes |
| EditCake.EditCakePage.OnImagePicked | main/java/com/example/sweetspot/pages/EditCakePage.kt:56-60 | the picked image is stored and nothing else changes |
| EditCake.EditCakePage.RunChecks | main/java/com/example/sweetspot/pages/EditCakePage.kt:233-257 | all six checks run; each failing field gets its own message, a passing field keeps its old message, and the result is true exactly when all pass (prices parsing to more than zero) |
| EditCake.EditCakePage.OnSaveClicked | main/java/com/example/sweetspot/pages/EditCakePage.kt:227-274 | `updateCake` is called with the parsed prices, followed by the way to product management, exactly when every check passes; otherwise the view model is untouched |
| EditCake.EditLostAsWritten | main/java/com/example/sweetspot/pages/EditCakePage.kt:62-70 | as written, once the cake is loaded a typed name and a picked image are lost the next time `EditCakePage`'s own body runs, e.g. when the navigation host calls it again |
| EditCake.EditKeptOnRecompose | main/java/com/example/sweetspot/pages/EditCakePage.kt:62-70 | with the intended load the same edits survive |
| Calendar.MonthLength | main/java/com/example/sweetspot/SalesAnalyticsViewModel.kt:72 | `lengthOfMonth` is between 28 and 31 days |
| Calendar.TimeOf | main/java/com/example/sweetspot/pages/OrderDetailsPage.kt:102 | `LocalTime.of(hour, minute)` has that hour and that minute |
| Calendar.PlusMinutes | main/java/com/example/sweetspot/pages/OrderDetailsPage.kt:105 | `plusMinutes` adds the minutes within the day, and wraps past midnight by exactly one day |
| Calendar.YearText | main/java/com/example/sweetspot/pages/PaymentOptionsPage.kt:504 | the `yyyy` field of a year from 1 to 9999 is four digits |
| Calendar.FormatDate | main/java/com/example/sweetspot/pages/PaymentOptionsPage.kt:507 | a `yyyy-MM-dd` date of a year from 1 to 9999 is ten characters |
| Calendar.FormatTime | main/java/com/example/sweetspot/pages/PaymentOptionsPage.kt:508 | an `HH:mm` time is five characters with ':' in the middle |
| Calendar.ParseDate | main/java/com/example/sweetspot/SalesAnalyticsViewModel.kt:85 | `LocalDate.parse` with `yyyy-MM-dd` only succeeds on ten characters with '-' at positions 4 and 7 |
| Calendar.ParseFormatDate | main/java/com/example/sweetspot/SalesAnalyticsViewModel.kt:73-85 | parsing a date the same formatter printed gives the date back |
| Calendar.FormatDateFields | main/java/com/example/sweetspot/SalesAnalyticsViewModel.kt:113-141 | on a printed date, `substring(0, 4).toInt()` is the year and `substring(5, 7).toInt()` the month |
| Cakes.Cake.GetPrice | main/java/com/example/sweetspot/models/Cake.kt:15-22 | "8 inch" gives the medium price, "10 inch" the large one, and every other size string, "6 inch" included, the small one |
| Cart.PriceForSize | main/java/com/example/sweetspot/CartViewModel.kt:112-119 | the cart's `priceForSize` agrees with `Cake.getPrice` for every size string |
| Cart.FindLine | main/java/com/example/sweetspot/CartViewModel.kt:31 | the line found is the first whose cake name and size match the key; `None` exactly when no line matches |
| Cart.WithQuantity | main/java/com/example/sweetspot/CartViewModel.kt:33-39 | same length; every line equal to the target gets the new quantity, every other line is kept |
| Cart.RemoveFirst | main/java/com/example/sweetspot/CartViewModel.kt:46-50 | an absent line leaves the list as it is; a present one shortens it by exactly one |
| Cart.AddToExistingLine | main/java/com/example/sweetspot/CartViewModel.kt:29-39 | with one line per key, adding to a key that has a line raises that line's quantity by the amount, keeps its own cake record, and leaves every other line as it was |
| Cart.AddToExistingTotal | main/java/com/example/sweetspot/CartViewModel.kt:29-39 | ... and raises the total by that line's size price times the amount added |
| Cart.TotalRaiseLine | main/java/com/example/sweetspot/CartViewModel.kt:74-78 | raising one line's quantity by `d`, and nothing else, raises `getTotalPrice` by `d` times that line's size price |
| Cart.LineTotalRaised | main/java/com/example/sweetspot/CartViewModel.kt:75-77 | raising a line's quantity by `d` raises its price by `d` times its size price |
| Cart.AddNewLine | main/java/com/example/sweetspot/CartViewModel.kt:40-42 | adding a key with no line appends one line at the end and raises the total by its size price times the quantity |
| Cart.AddedKeepsInvariants | main/java/com/example/sweetspot/CartViewModel.kt:29-44 | adding keeps one line per key, and keeps every quantity positive when the amount added is positive |
| Cart.RemoveFirstSplits | main/java/com/example/sweetspot/CartViewModel.kt:46-50 | removing deletes exactly the first equal line and keeps the others in their order |
| Cart.RemoveFirstMultiset | main/java/com/example/sweetspot/CartViewModel.kt:46-50 | removing takes away one copy of the line and nothing else |
| Cart.RemoveFirstKeepsInvariants | main/java/com/example/sweetspot/CartViewModel.kt:46-50 | removing keeps one line per key and positive quantities, and lowers the total by exactly the removed line's price |
| Cart.DropOneKeeps | main/java/com/example/sweetspot/CartViewModel.kt:46-50 | cutting one position out keeps one line per key and positive quantities |
| Cart.UpdatedChanges | main/java/com/example/sweetspot/CartViewModel.kt:52-64 | zero or less changes nothing; a positive quantity rewrites the quantity of the lines equal to the target and nothing else; keys, cakes, uniqueness and positivity are kept |
| Cart.OnlyLineEqual | main/java/com/example/sweetspot/CartViewModel.kt:55-61 | with one line per key, the `item == cartItem` test selects only the target line |
| Cart.UpdatedTotal | main/java/com/example/sweetspot/CartViewModel.kt:52-64 | with one line per key, a positive update changes the total by the difference of the target line's old and new prices |
| Cart.TotalAppend | main/java/com/example/sweetspot/CartViewModel.kt:74-78 | the total of two lists put together is the sum of their totals |
| Cart.TotalPermutation | main/java/com/example/sweetspot/CartViewModel.kt:74-78 | the total depends only on which lines there are, not on their order |
| Cart.TotalSplit | main/java/com/example/sweetspot/CartViewModel.kt:74-78 | the total is the total before a line, plus that line's price, plus the total after it |
| Cart.TotalChangeOneLine | main/java/com/example/sweetspot/CartViewModel.kt:74-78 | changing one line changes the total by that line's price difference only |
| Cart.CartViewModel.constructor | main/java/com/example/sweetspot/CartViewModel.kt:22-26 | an empty cart with no collection slot |
| Cart.CartViewModel.AddToCart | main/java/com/example/sweetspot/CartViewModel.kt:29-44 | the new lines are `Added(old lines, …)`; the slot is kept; one line per key and positive quantities are preserved |
| Cart.CartViewModel.RemoveFromCart | main/java/com/example/sweetspot/CartViewModel.kt:46-50 | the new lines are `RemoveFirst(old lines, item)`; the slot and the cart invariant are kept |
| Cart.CartViewModel.UpdateQuantity | main/java/com/example/sweetspot/CartViewModel.kt:52-64 | the new lines are `Updated(old lines, …)`; zero or less leaves them as they were; the slot and the invariant are kept |
| Cart.CartViewModel.ClearCart | main/java/com/example/sweetspot/CartViewModel.kt:66-68 | no lines and a zero total; the slot is kept |
| Cart.CartViewModel.SetCollectionDateTime | main/java/com/example/sweetspot/CartViewModel.kt:70-72 | the slot becomes the given date and time; the lines are kept |
| CartScreen.ShownSizePrice | main/java/com/example/sweetspot/pages/CartPage.kt:45-50 | the screen's inline `when (item.size)` gives the same price as `priceForSize` |
| CartScreen.ShownLinePrice | main/java/com/example/sweetspot/pages/CartPage.kt:171-177 | a card's price equals the cart's line price |
| CartScreen.DisplayedTotal | main/java/com/example/sweetspot/pages/CartPage.kt:44-52 | the total the screen shows equals `getTotalPrice` |
| CartScreen.ProceedIffNotEmpty | main/java/com/example/sweetspot/pages/CartPage.kt:94-131 | "Proceed to Order Details" is enabled exactly when "No items in the cart" is not shown, that is, when there is a line |
| CartScreen.OnIncrease | main/java/com/example/sweetspot/pages/CartPage.kt:80-84 | the increase arrow is `updateQuantity(item, quantity + 1)`, which keeps the cart invariant |
| CartScreen.OnDecrease | main/java/com/example/sweetspot/pages/CartPage.kt:86-90 | the decrease arrow, enabled only above one, is `updateQuantity(item, quantity - 1)`. Every line keeps its cake and size, only the target line's quantity drops by one, every quantity stays positive and the slot is kept |
| CartScreen.OnRemove | main/java/com/example/sweetspot/pages/CartPage.kt:79 | the remove button is `removeFromCart(item)`: the first equal line goes, the slot and the invariant are kept, and the shown total drops by that card's shown price |
| ProductManagement.FilteredCakes | main/java/com/example/sweetspot/pages/ProductManagementPage.kt:129-135 | the list is never longer than the catalogue |
| ProductManagement.FilteredCakesMembership | main/java/com/example/sweetspot/pages/ProductManagementPage.kt:129-135 | a cake is listed, as often as it occurs, exactly when it is in the selected category (any, for "All Categories") and its name contains the query ignoring case (any name, for a blank query) |
| ProductManagement.FilteredCakesByOrders | main/java/com/example/sweetspot/pages/ProductManagementPage.kt:135 | the list is non-increasing in `orders` |
| ProductManagement.FilteredCakesStable | main/java/com/example/sweetspot/pages/ProductManagementPage.kt:135 | cakes ordered equally often keep their catalogue order |
| ProductManagement.NoRestrictionListsAll | main/java/com/example/sweetspot/pages/ProductManagementPage.kt:129-135 | with "All Categories" and a blank query the list is a permutation of the catalogue |
| ProductManagement.NoCakesMessage | main/java/com/example/sweetspot/pages/ProductManagementPage.kt:129-145 | "No cakes available" is shown exactly when no cake passes both conditions |
| CakeList.FilteredCakeList | main/java/com/example/sweetspot/pages/CakeListPage.kt:93-96 | every cake listed has the query in its name or its category, ignoring case, and the list is no longer than the catalogue |
| CakeList.FilteredCakeListMembership | main/java/com/example/sweetspot/pages/CakeListPage.kt:93-96 | a cake is listed, as often as it occurs, exactly when its name or category contains the query ignoring case |
| CakeList.FilteredCakeListIsSubsequence | main/java/com/example/sweetspot/pages/CakeListPage.kt:93-96 | the list keeps catalogue order and adds nothing |
| CakeList.EmptyQueryKeepsAll | main/java/com/example/sweetspot/pages/CakeListPage.kt:93-96 | the empty query lists the whole catalogue unchanged |
| CakeList.WhitespaceQueryDropsPlainCakes | main/java/com/example/sweetspot/pages/CakeListPage.kt:93-96 | a blank but non-empty query lists nothing when no name or category holds whitespace, so it does not keep everything |
| CakeList.NoCakesMessage | main/java/com/example/sweetspot/pages/CakeListPage.kt:98-114 | "No cakes available." is shown exactly when no cake matches |
| UserHome.LatestCakes | main/java/com/example/sweetspot/pages/UserHomePage.kt:61 | the newest cakes are min(3, catalogue size) cakes |
| UserHome.LatestCakesAreGreatest | main/java/com/example/sweetspot/pages/UserHomePage.kt:61 | they come from the catalogue, run in descending id order, and any cake left out has an id no greater than every one shown |
| UserHome.CategoryColumn | main/java/com/example/sweetspot/pages/UserHomePage.kt:62 | `map { it.category }` is each cake's category, in order |
| UserHome.CategoriesFacts | main/java/com/example/sweetspot/pages/UserHomePage.kt:62 | categories has no duplicates, holds every cake's category and only those, in order of first appearance |
| UserHome.CakesInCategory | main/java/com/example/sweetspot/pages/UserHomePage.kt:245 | every cake of a section has that section's category |
| UserHome.CategorySectionFacts | main/java/com/example/sweetspot/pages/UserHomePage.kt:244-246 | a section holds exactly the catalogue's cakes of its category, in catalogue order, and no listed category has an empty section |
| Checkout.ExpiryText | main/java/com/example/sweetspot/pages/PaymentOptionsPage.kt:333-339 | the formatted expiry has at most five characters, is two digits or fewer, or two digits, '/', and one or two digits; it is five long exactly when the input holds four digits or more |
| Checkout.DigitsOfConcat | main/java/com/example/sweetspot/pages/PaymentOptionsPage.kt:334 | keeping the digits of two texts put together keeps the digits of each |
| Checkout.ExpiryKeepsDigits | main/java/com/example/sweetspot/pages/PaymentOptionsPage.kt:333-339 | the formatted expiry's digits are the first four digits typed, in order |
| Checkout.ExpiryFixedPoint | main/java/com/example/sweetspot/pages/PaymentOptionsPage.kt:333-339 | a text the formatter can produce is left as it is |
| Checkout.ExpiryIdempotent | main/java/com/example/sweetspot/pages/PaymentOptionsPage.kt:333-339 | formatting an already formatted expiry returns it unchanged |
| Checkout.CompleteExpiry | main/java/com/example/sweetspot/pages/PaymentOptionsPage.kt:336-343 | a five-character expiry is "MM/YY": digits around a '/' |
| Checkout.WalletResult | main/java/com/example/sweetspot/pages/PaymentOptionsPage.kt:143-155 | RESULT_OK and only it gives `Success("Google Pay")`; CANCELED gives `Error("Payment canceled")`; anything else a "Payment failed: " error with the status message or "Unknown error" |
| Checkout.FailureText | main/java/com/example/sweetspot/pages/PaymentOptionsPage.kt:204-207 | the snackbar shows "Payment failed: " followed by the error's message |
| Checkout.WalletFailureText | main/java/com/example/sweetspot/pages/PaymentOptionsPage.kt:151-153 | a failed wallet payment's snackbar carries the "Payment failed: " prefix twice |
| Checkout.OrderLine | main/java/com/example/sweetspot/pages/PaymentOptionsPage.kt:496-501 | an order line copies the cart line's cake name, size and quantity, and its unit price is the price for the size |
| Checkout.OrderLines | main/java/com/example/sweetspot/pages/PaymentOptionsPage.kt:495-502 | one order line per cart line, in order |
| Checkout.BuildOrder | main/java/com/example/sweetspot/pages/PaymentOptionsPage.kt:495-522 | the order holds the cart's lines, the amount passed (not recomputed), the payment method and the clock; status "Pending", email to be sent and not yet sent; a missing email or user id becomes ""; no slot gives empty date and time, a slot a five-character "HH:mm" time |
| Checkout.OrderLinesValue | main/java/com/example/sweetspot/pages/PaymentOptionsPage.kt:495-502 | the order lines are worth exactly the cart's `getTotalPrice` |
| Checkout.OrderTotalMatchesLines | main/java/com/example/sweetspot/pages/PaymentOptionsPage.kt:495-522 | when the amount passed is the cart total, the order's total equals what its lines are worth |
| Checkout.OrderDateReadsBack | main/java/com/example/sweetspot/pages/PaymentOptionsPage.kt:504-511 | the stored collection date parses back as the chosen date |
| Checkout.PaymentViewModel.constructor | main/java/com/example/sweetspot/PaymentViewModel.kt:43 | no payment result at first |
| Checkout.PaymentOptionsPage.constructor | main/java/com/example/sweetspot/pages/PaymentOptionsPage.kt:283-407 | empty fields and no errors, within what the input filters allow |
| Checkout.PaymentOptionsPage.OnCardHolderNameChange | main/java/com/example/sweetspot/pages/PaymentOptionsPage.kt:283-286 | the name is taken, and its error is set exactly when it is blank; nothing else changes |
| Checkout.PaymentOptionsPage.OnCardNumberChange | main/java/com/example/sweetspot/pages/PaymentOptionsPage.kt:302-306 | an edit of at most 16 digits is taken, with no error exactly at 16; any other edit leaves number and error as they were; nothing else changes |
| Checkout.PaymentOptionsPage.OnExpiryChange | main/java/com/example/sweetspot/pages/PaymentOptionsPage.kt:333-343 | the field becomes the formatted input, with no error exactly at five characters; nothing else changes |
| Checkout.PaymentOptionsPage.OnCvvChange | main/java/com/example/sweetspot/pages/PaymentOptionsPage.kt:366-373 | an edit of at most 3 digits is taken, with no error exactly at 3; any other edit keeps the CVV and says "CVV must be numeric", even for four digits; an empty edit is taken with the length error |
| Checkout.PaymentOptionsPage.OnPayByCard | main/java/com/example/sweetspot/pages/PaymentOptionsPage.kt:397-413 | a valid form (no errors, a non-blank holder, 16, 5 and 3 characters) gives `Success("Card")`; otherwise a toast and the result stays as it was |
| Checkout.PaymentOptionsPage.OnPayAtShop | main/java/com/example/sweetspot/pages/PaymentOptionsPage.kt:266-272 | "Pay At Shop" gives `Success("Pay At Shop")` with no form check |
| Checkout.PaymentOptionsPage.OnWalletResult | main/java/com/example/sweetspot/pages/PaymentOptionsPage.kt:140-156 | the result becomes the wallet's mapped result |
| Checkout.PaymentOptionsPage.HandlePaymentResult | main/java/com/example/sweetspot/pages/PaymentOptionsPage.kt:172-213 | every result is reset to none; a success without a slot saves nothing; otherwise the order built from the cart is saved, and the cart is cleared exactly when the save succeeds; an error only shows its message |
| Checkout.ValidFormIsComplete | main/java/com/example/sweetspot/pages/PaymentOptionsPage.kt:398-407 | a form that passes has a 16-digit number, an "MM/YY" expiry, a 3-digit CVV and a non-blank holder |
| CakeDetails.SizeLabel | main/java/com/example/sweetspot/pages/CakeDetailsPage.kt:147-155 | every size button sets one of the three sizes the shop sells |
| CakeDetails.GetPrice | main/java/com/example/sweetspot/pages/CakeDetailsPage.kt:231-238 | the page's own `getPrice` agrees with `Cake.getPrice` and with the cart's `priceForSize` for every size string |
| CakeDetails.SizeButtonPrices | main/java/com/example/sweetspot/pages/CakeDetailsPage.kt:119-155 | the 6, 8 and 10 inch buttons show the small, medium and large prices |
| CakeDetails.CakeDetailsPage.constructor | main/java/com/example/sweetspot/pages/CakeDetailsPage.kt:52-53 | the screen opens on "6 inch" and a quantity of one |
| CakeDetails.CakeDetailsPage.ShownPrice | main/java/com/example/sweetspot/pages/CakeDetailsPage.kt:119 | the price shown is the cake's price for the selected size |
| CakeDetails.CakeDetailsPage.OnDecrease | main/java/com/example/sweetspot/pages/CakeDetailsPage.kt:170 | the quantity drops by one only while above one, so it never goes below one |
| CakeDetails.CakeDetailsPage.OnIncrease | main/java/com/example/sweetspot/pages/CakeDetailsPage.kt:184 | the quantity rises by one, with no upper bound |
| CakeDetails.CakeDetailsPage.OnSelectSize | main/java/com/example/sweetspot/pages/CakeDetailsPage.kt:147-155 | the selected size becomes the button's size; the quantity is kept |
| CakeDetails.CakeDetailsPage.OnAddToCart | main/java/com/example/sweetspot/pages/CakeDetailsPage.kt:201-203 | the cart becomes `Added(old lines, cake, selected size, quantity)` and keeps its invariant |
| Grouping.NoGroups | main/java/com/example/sweetspot/SalesAnalyticsViewModel.kt:37 | the fresh `mutableMapOf()` has no keys and no totals |
| Grouping.AddTo | main/java/com/example/sweetspot/SalesAnalyticsViewModel.kt:42-43 | `m[k] = m.getOrDefault(k, 0) + v` adds `v` to the total of `k` (from 0 when absent), leaves every other total, and lists `k` last only when it is new |
| Grouping.Accumulate | main/java/com/example/sweetspot/SalesAnalyticsViewModel.kt:39-45 | every listed key has a total |
| Grouping.Firsts | main/java/com/example/sweetspot/SalesAnalyticsViewModel.kt:41-43 | the keys the loop meets, one per step, in order |
| Grouping.AccumulateStep | main/java/com/example/sweetspot/SalesAnalyticsViewModel.kt:41-44 | one more pass of the loop body is one more `getOrDefault` update |
| Grouping.AccumulateKeys | main/java/com/example/sweetspot/SalesAnalyticsViewModel.kt:37-45 | the map's keys are the distinct keys met, in order of first appearance, and exactly they have totals |
| Grouping.AccumulateTotals | main/java/com/example/sweetspot/SalesAnalyticsViewModel.kt:37-45 | a key has a total exactly when the loop met it, and its total is the sum of the amounts met with it |
| Grouping.KeySumAbsent | main/java/com/example/sweetspot/SalesAnalyticsViewModel.kt:37-45 | a key never met sums to zero |
| Grouping.SumOverUpdate | main/java/com/example/sweetspot/SalesAnalyticsViewModel.kt:42-43 | raising one listed key's total raises the sum over the keys by the same amount |
| Grouping.AccumulateConsistent | main/java/com/example/sweetspot/SalesAnalyticsViewModel.kt:37-45 | the loop lists each key once, and exactly the listed keys have totals |
| Grouping.AddToConsistent | main/java/com/example/sweetspot/SalesAnalyticsViewModel.kt:42-43 | one update keeps each key listed once |
| Grouping.AddToGrandTotal | main/java/com/example/sweetspot/SalesAnalyticsViewModel.kt:42-43 | one update adds its amount to the sum of all totals |
| Grouping.AccumulateConserves | main/java/com/example/sweetspot/SalesAnalyticsViewModel.kt:37-45 | no amount is lost or counted twice: the totals add up to the sum of all amounts met |
| Grouping.Listed | main/java/com/example/sweetspot/SalesAnalyticsViewModel.kt:47-48 | `map { (k, v) -> … }` makes one entry per key, in the map's key order, from that key's total |
| Grouping.GroupEntries | main/java/com/example/sweetspot/SalesAnalyticsViewModel.kt:47-48 | one entry per distinct key |
| Grouping.ListedSum | main/java/com/example/sweetspot/SalesAnalyticsViewModel.kt:47-48 | the entries' amounts add up to the sum of the keys' totals |
| Grouping.GroupKeyAt | main/java/com/example/sweetspot/SalesAnalyticsViewModel.kt:47-48 | each entry is made from a key met and that key's sum |
| Grouping.GroupEntryKey | main/java/com/example/sweetspot/SalesAnalyticsViewModel.kt:47-49 | after any reordering each entry is still made from a key met and that key's sum |
| Grouping.GroupEntriesComplete | main/java/com/example/sweetspot/SalesAnalyticsViewModel.kt:47-49 | after any reordering every key met has its entry, made from its sum |
| Grouping.ListedNoDuplicates | main/java/com/example/sweetspot/SalesAnalyticsViewModel.kt:47-48 | distinct keys give distinct entries when the key can be read back |
| Grouping.GroupEntriesUnique | main/java/com/example/sweetspot/SalesAnalyticsViewModel.kt:47-49 | no entry is listed twice, in any order |
| Grouping.GroupEntriesConserve | main/java/com/example/sweetspot/SalesAnalyticsViewModel.kt:47-49 | the entries' amounts add up to the sum of all amounts, in any order |
| Numerals.DigitChar | main/java/com/example/sweetspot/SalesAnalyticsViewModel.kt:91 | each digit value prints as a digit character that reads back as that value |
| Numerals.NatToString | main/java/com/example/sweetspot/SalesAnalyticsViewModel.kt:91 | `toString()` of a non-negative number is a non-empty run of digits with no leading zero |
| Numerals.IntToString | main/java/com/example/sweetspot/SalesAnalyticsViewModel.kt:147 | `toString()` never gives the empty string |
| Numerals.ToIntOrNull | main/java/com/example/sweetspot/SalesAnalyticsViewModel.kt:113 | `toInt()` succeeds only within the 32-bit range, and never on the empty string |
| Numerals.DigitsValueOfNatToString | main/java/com/example/sweetspot/SalesAnalyticsViewModel.kt:91-92 | the digits `toString()` prints have the number's value |
| Numerals.IntToStringRoundTrip | main/java/com/example/sweetspot/SalesAnalyticsViewModel.kt:91-92 | `toString().toInt()` gives back every 32-bit value, so the daily sort key is the day |
| Numerals.IntToStringInjective | main/java/com/example/sweetspot/SalesAnalyticsViewModel.kt:146-148 | distinct numbers get distinct labels |
| Numerals.Pad2ToInt | main/java/com/example/sweetspot/SalesAnalyticsViewModel.kt:113 | two zero-padded digits read back with `toInt()` as their value |
| Numerals.Pad4ToInt | main/java/com/example/sweetspot/SalesAnalyticsViewModel.kt:141 | four zero-padded digits read back with `toInt()` as their value |
| Numerals.ParseCents | main/java/com/example/sweetspot/pages/AddCakePage.kt:201-203 | `toDoubleOrNull()` on a price field gives null on the empty string |
| Numerals.FormatCents | main/java/com/example/sweetspot/pages/EditCakePage.kt:65-67 | a price's `toString()` is never empty |
| Numerals.CentsRoundTrip | main/java/com/example/sweetspot/pages/EditCakePage.kt:65-67 | a price printed with `toString()` parses back with `toDoubleOrNull()` to the same price, negative ones included |
| Text.Utf16Length | main/java/com/example/sweetspot/pages/RegisterPage.kt:184 | `String.length` counts one unit per character up to U+FFFF and two above, so it lies between the character count and twice it |
| Text.Utf16LengthBasic | main/java/com/example/sweetspot/pages/RegisterPage.kt:184 | for characters up to U+FFFF the UTF-16 length is the character count |
| Text.Utf16LengthSupplementary | main/java/com/example/sweetspot/pages/RegisterPage.kt:184 | for characters above U+FFFF only, the UTF-16 length is twice the character count |
| Text.DigitsOf | main/java/com/example/sweetspot/pages/PaymentOptionsPage.kt:334 | `filter { it.isDigit() }` keeps only digits, is no longer than its input, and leaves an all-digit string as it is |
| Text.IndexOfIgnoreCase | main/java/com/example/sweetspot/pages/CakeListPage.kt:94-95 | the search returns a matching window at or after `from`, or -1 exactly when there is none |
| Text.ContainsIgnoreCase | main/java/com/example/sweetspot/pages/CakeListPage.kt:94-95 | `contains(needle, ignoreCase = true)` holds exactly when some window matches the needle ignoring case |
| Text.EmptyNeedleContained | main/java/com/example/sweetspot/pages/CakeListPage.kt:93-96 | the empty query is contained in every name |
| Text.WhitespaceNotContained | main/java/com/example/sweetspot/pages/CakeListPage.kt:93-96 | a non-empty blank query is not contained in a name with no whitespace |
| Seqs.Filter | main/java/com/example/sweetspot/pages/CakeListPage.kt:93-96 | `filter` keeps exactly the elements that pass, is no longer than its input, and adds nothing |
| Seqs.FilterIsSubsequence | main/java/com/example/sweetspot/pages/CakeListPage.kt:93-96 | `filter` keeps relative order |
| Seqs.FilterCounts | main/java/com/example/sweetspot/pages/CakeListPage.kt:93-96 | each passing element occurs as often as in the input, every other element not at all |
| Seqs.FilterKeepsAll | main/java/com/example/sweetspot/pages/ProductManagementPage.kt:129-134 | a condition every element meets returns the list unchanged |
| Seqs.Take | main/java/com/example/sweetspot/pages/UserHomePage.kt:61 | `take(n)` has min(n, size) elements, the first ones of the list |
| Seqs.FirstIndex | main/java/com/example/sweetspot/SalesAnalyticsViewModel.kt:126 | `indexOf` of a present element is its first position |
| Seqs.DistinctElements | main/java/com/example/sweetspot/pages/UserHomePage.kt:62 | `distinct` has no duplicates and holds exactly the elements of its input |
| Seqs.DistinctFirstAppearanceOrder | main/java/com/example/sweetspot/pages/UserHomePage.kt:62 | `distinct` lists the elements in the order they first appear |
| Seqs.NoDuplicatesPermutation | main/java/com/example/sweetspot/SalesAnalyticsViewModel.kt:47-49 | sorting a list without repeats leaves none |
| Seqs.SumByAppend | main/java/com/example/sweetspot/CartViewModel.kt:74-78 | `sumOf` over two lists put together is the sum of the two sums |
| Seqs.SumBySplitAt | main/java/com/example/sweetspot/CartViewModel.kt:74-78 | `sumOf` is the sum without one position plus that position's term |
| Seqs.SumByPermutation | main/java/com/example/sweetspot/CartViewModel.kt:74-78 | `sumOf` does not depend on the order of the list |
| Sorting.StrLeTotal | main/java/com/example/sweetspot/SalesAnalyticsViewModel.kt:148 | any two strings are ordered one way or the other by `compareTo` |
| Sorting.StrLeAntisymmetric | main/java/com/example/sweetspot/SalesAnalyticsViewModel.kt:148 | strings ordered both ways are equal |
| Sorting.StrLeTransitive | main/java/com/example/sweetspot/SalesAnalyticsViewModel.kt:148 | the string order is transitive |
| Sorting.Insert | main/java/com/example/sweetspot/OrderHistoryViewModel.kt:71-75 | one insertion step adds exactly one element |
| Sorting.SortBy | main/java/com/example/sweetspot/OrderHistoryViewModel.kt:71-75 | `sortedBy`/`sortedByDescending` keep the length |
| Sorting.SortByPermutes | main/java/com/example/sweetspot/OrderHistoryViewModel.kt:71-75 | the sorted list is a permutation of the input |
| Sorting.SortBySorted | main/java/com/example/sweetspot/OrderHistoryViewModel.kt:71-75 | ascending gives non-decreasing keys and descending non-increasing keys |
| Sorting.SortByStable | main/java/com/example/sweetspot/OrderHistoryViewModel.kt:71-75 | elements with equal keys keep their input order, in both directions |
| OrderDetails.Opening | main/java/com/example/sweetspot/pages/OrderDetailsPage.kt:105-110 | `LocalTime.of(10, 0)` is 10:00 |
| OrderDetails.Closing | main/java/com/example/sweetspot/pages/OrderDetailsPage.kt:111 | `LocalTime.of(21, 0)` is 21:00 |
| OrderDetails.MaxTime | main/java/com/example/sweetspot/pages/OrderDetailsPage.kt:104-105 | `maxOf` gives one of its arguments, and it is at least both |
| OrderDetails.OtherDayWindow | main/java/com/example/sweetspot/pages/OrderDetailsPage.kt:104-121 | on a later day a time is accepted exactly when it is strictly between 10:00 and 21:00: 10:00 and 21:00 are refused, 10:01 and 20:59 taken |
| OrderDetails.TodayLeadIsExclusive | main/java/com/example/sweetspot/pages/OrderDetailsPage.kt:104-116 | for today, exactly thirty minutes from now is refused (`isAfter` is strict) |
| OrderDetails.MidnightWrapAcceptsPastTime | main/java/com/example/sweetspot/pages/OrderDetailsPage.kt:104-116 | as written, at 23:40 `plusMinutes(30)` wraps to 00:10 and 12:00 today, already past, is accepted |
| OrderDetails.AcceptedTodayIsAhead | main/java/com/example/sweetspot/pages/OrderDetailsPage.kt:104-116 | with the intended check a time accepted for today is more than thirty minutes after now |
| OrderDetails.IntendedAgreesBeforeWrap | main/java/com/example/sweetspot/pages/OrderDetailsPage.kt:104-116 | until 23:30 the intended check accepts exactly the times the written one does |
| OrderDetails.NothingLateToday | main/java/com/example/sweetspot/pages/OrderDetailsPage.kt:104-116 | with the intended check nothing is accepted for today from 23:30 on |
| OrderDetails.OrderDetailsPage.constructor | main/java/com/example/sweetspot/pages/OrderDetailsPage.kt:38-43 | no date, no time, no error; the clock is taken as last read by the screen's body, one reading fixed for the model |
| OrderDetails.OrderDetailsPage.PickDate | main/java/com/example/sweetspot/pages/OrderDetailsPage.kt:69-83 | the picked date (today or later, as the picker allows) is stored; time and error are kept |
| OrderDetails.OrderDetailsPage.PickTime | main/java/com/example/sweetspot/pages/OrderDetailsPage.kt:96-128 | the picker as written: a time strictly after `maxOf(now.plusMinutes(30), 10:00)` (today, with the wrap) or 10:00 (other days) and before 21:00 is stored and clears the error; any other time sets the error and keeps the previous time |
| OrderDetails.OrderDetailsPage.PickTimeIntended | main/java/com/example/sweetspot/pages/OrderDetailsPage.kt:104-116 | the corrected picker: it stores exactly the times the intended window admits, and a time it keeps for today is more than thirty minutes after now |
| OrderDetails.LatePickAsWritten | main/java/com/example/sweetspot/pages/OrderDetailsPage.kt:104-116 | on the screen as written at 23:40, picking 12:00 today stores that past time with no error |
| OrderDetails.LatePickIntended | main/java/com/example/sweetspot/pages/OrderDetailsPage.kt:104-116 | with the corrected picker the same pick is refused and no time is stored |
| OrderDetails.OrderDetailsPage.Proceed | main/java/com/example/sweetspot/pages/OrderDetailsPage.kt:151-158 | the slot is stored in the cart exactly when a date and a time are chosen and no error is shown; the cart lines are kept |
| OrderHistory.KeyFor | main/java/com/example/sweetspot/OrderHistoryViewModel.kt:71-75 | DATE sorts by the creation timestamp, PRICE by the total, STATUS by the status text |
| OrderHistory.FilterByDates | main/java/com/example/sweetspot/OrderHistoryViewModel.kt:56-69 | the date filters never add orders |
| OrderHistory.FilteredAndSorted | main/java/com/example/sweetspot/OrderHistoryViewModel.kt:45-80 | the history is never longer than the fetched list |
| OrderHistory.FilterByDatesCounts | main/java/com/example/sweetspot/OrderHistoryViewModel.kt:56-69 | an order is kept, as often as it was fetched, exactly when its creation date is on or after the start bound and on or before the end bound (both inclusive, a missing bound admitting everything); every other order is dropped |
| OrderHistory.FilterByDatesIsSubsequence | main/java/com/example/sweetspot/OrderHistoryViewModel.kt:56-69 | the filters keep the fetched order of what they keep |
| OrderHistory.HistoryHoldsOrdersInRange | main/java/com/example/sweetspot/OrderHistoryViewModel.kt:45-80 | the shown history holds each fetched in-range order exactly as often as it was fetched and nothing else; an order appears exactly when it was fetched and is in range |
| OrderHistory.NoBoundsKeepsAll | main/java/com/example/sweetspot/OrderHistoryViewModel.kt:51-79 | with no bounds the history is a permutation of the fetched orders |
| OrderHistory.HistoryIsSorted | main/java/com/example/sweetspot/OrderHistoryViewModel.kt:71-75 | ascending gives non-decreasing keys, descending non-increasing keys, for each of the three options |
| OrderHistory.HistoryIsStable | main/java/com/example/sweetspot/OrderHistoryViewModel.kt:71-75 | orders with equal keys keep the order they were fetched in, in both directions |
| OrderHistory.OrdersOf | main/java/com/example/sweetspot/OrderHistoryViewModel.kt:133-139 | the fetch loop yields at most one order per document |
| OrderHistory.OrdersOfAllParsed | main/java/com/example/sweetspot/OrderHistoryViewModel.kt:133-139 | when every document deserialises, each becomes one order, in document order, carrying its document id |
| OrderHistory.SkipsUnreadable | main/java/com/example/sweetspot/OrderHistoryViewModel.kt:134-137 | a document that does not deserialise adds nothing |
| OrderHistory.OrderHistoryViewModel.constructor | main/java/com/example/sweetspot/OrderHistoryViewModel.kt:29-42 | no orders, no bounds, descending by date: newest first |
| OrderHistory.OrderHistoryViewModel.FilteredAndSortedOrders | main/java/com/example/sweetspot/OrderHistoryViewModel.kt:45-80 | the combined flow is the filter-then-sort of the current fields, never longer than the fetched list |
| OrderHistory.OrderHistoryViewModel.OnOrdersFetched | main/java/com/example/sweetspot/OrderHistoryViewModel.kt:132-141 | the fetch loop's list, `OrdersOf(documents)`, becomes the orders; bounds and sort settings are kept |
| OrderHistory.OrderHistoryViewModel.SetFilterStartDate | main/java/com/example/sweetspot/OrderHistoryViewModel.kt:94-96 | sets the start bound and changes nothing else |
| OrderHistory.OrderHistoryViewModel.SetFilterEndDate | main/java/com/example/sweetspot/OrderHistoryViewModel.kt:98-100 | sets the end bound and changes nothing else |
| OrderHistory.OrderHistoryViewModel.ToggleSortOrder | main/java/com/example/sweetspot/OrderHistoryViewModel.kt:102-104 | flips the direction and changes nothing else, so two toggles restore it |
| OrderHistory.OrderHistoryViewModel.SetSortOption | main/java/com/example/sweetspot/OrderHistoryViewModel.kt:106-108 | sets the sort key and changes nothing else |
| SalesAnalytics.ItemAmounts | main/java/com/example/sweetspot/SalesAnalyticsViewModel.kt:41-44 | the inner loop meets each item's (cake name, quantity), in item order |
| SalesAnalytics.ItemAmountsStep | main/java/com/example/sweetspot/SalesAnalyticsViewModel.kt:41-44 | one more item adds its (cake name, quantity) at the end |
| SalesAnalytics.SoldAmountsStep | main/java/com/example/sweetspot/SalesAnalyticsViewModel.kt:39-45 | one more order adds its items' amounts at the end |
| SalesAnalytics.HotSelling | main/java/com/example/sweetspot/SalesAnalyticsViewModel.kt:37-49 | one entry per distinct cake name sold |
| SalesAnalytics.HotSellingEntries | main/java/com/example/sweetspot/SalesAnalyticsViewModel.kt:37-49 | every name sold has an entry carrying the sum of its quantities over all items of all orders, and every entry is such an entry |
| SalesAnalytics.HotSellingUnique | main/java/com/example/sweetspot/SalesAnalyticsViewModel.kt:37-49 | no cake name is listed twice |
| SalesAnalytics.HotSellingTotals | main/java/com/example/sweetspot/SalesAnalyticsViewModel.kt:37-49 | the entries add up to every quantity sold, and the list is non-increasing in quantity |
| SalesAnalytics.KeyedAmounts | main/java/com/example/sweetspot/SalesAnalyticsViewModel.kt:83-88 | the revenue loop meets (key, total price) for each order in order, and throws exactly when some order's key cannot be read |
| SalesAnalytics.KeyedAmountsTotal | main/java/com/example/sweetspot/SalesAnalyticsViewModel.kt:83-88 | the amounts met add up to the orders' total prices |
| SalesAnalytics.KeyFromOrder | main/java/com/example/sweetspot/SalesAnalyticsViewModel.kt:83-88 | every key met is the key of some order |
| SalesAnalytics.RevenueListKey | main/java/com/example/sweetspot/SalesAnalyticsViewModel.kt:90-92 | each bar is made from a key met and that key's revenue |
| SalesAnalytics.RevenueListComplete | main/java/com/example/sweetspot/SalesAnalyticsViewModel.kt:90-92 | every key met has its bar, carrying the key's revenue |
| SalesAnalytics.RevenueListUnique | main/java/com/example/sweetspot/SalesAnalyticsViewModel.kt:90-92 | no bar is listed twice when its key can be read back from it |
| SalesAnalytics.RevenueListTotals | main/java/com/example/sweetspot/SalesAnalyticsViewModel.kt:81-92 | the bars add up to the total price of all orders, and are sorted ascending by the sort key |
| SalesAnalytics.DayOf | main/java/com/example/sweetspot/SalesAnalyticsViewModel.kt:85-86 | `LocalDate.parse(...).dayOfMonth` is a day from 1 to 31, or the parse throws |
| SalesAnalytics.DailyRevenue | main/java/com/example/sweetspot/SalesAnalyticsViewModel.kt:81-92 | the daily list is produced exactly when every collection date parses |
| SalesAnalytics.DayLabel | main/java/com/example/sweetspot/SalesAnalyticsViewModel.kt:91-92 | `label.toInt()` of a day's bar is the day, so the sort is by day number |
| SalesAnalytics.DailyRevenueEntries | main/java/com/example/sweetspot/SalesAnalyticsViewModel.kt:81-92 | each day of the month that has orders gets a bar with the sum of those orders' total prices, and every bar is such a bar |
| SalesAnalytics.DailyRevenueUnique | main/java/com/example/sweetspot/SalesAnalyticsViewModel.kt:81-92 | no day is listed twice |
| SalesAnalytics.DailyRevenueTotals | main/java/com/example/sweetspot/SalesAnalyticsViewModel.kt:81-92 | the daily bars add up to the total price of all orders and run in ascending day order |
| SalesAnalytics.IndexOf | main/java/com/example/sweetspot/SalesAnalyticsViewModel.kt:126 | `indexOf` is -1 exactly for an absent element, and otherwise a position holding it |
| SalesAnalytics.MonthNamesDistinct | main/java/com/example/sweetspot/SalesAnalyticsViewModel.kt:118-121 | the twelve month names are distinct |
| SalesAnalytics.MonthLabel | main/java/com/example/sweetspot/SalesAnalyticsViewModel.kt:123-126 | month `m` is labelled `monthNames[m - 1]`, whose `indexOf` is `m - 1`, so the sort is in calendar order |
| SalesAnalytics.MonthKeysInRange | main/java/com/example/sweetspot/SalesAnalyticsViewModel.kt:113-124 | the listing has every key within 1..12 exactly when every month read is |
| SalesAnalytics.MonthlyRevenue | main/java/com/example/sweetspot/SalesAnalyticsViewModel.kt:109-128 | a monthly list is produced only when every order's `substring(5, 7).toInt()` reads a month from 1 to 12 |
| SalesAnalytics.MonthBar | main/java/com/example/sweetspot/SalesAnalyticsViewModel.kt:123-125 | a month met gets the bar with its name and revenue |
| SalesAnalytics.MonthlyRevenueEntries | main/java/com/example/sweetspot/SalesAnalyticsViewModel.kt:109-126 | each month that has orders gets a bar with its name and the sum of those orders' total prices, and every bar is such a bar |
| SalesAnalytics.MonthlyRevenueUnique | main/java/com/example/sweetspot/SalesAnalyticsViewModel.kt:109-126 | no month is listed twice |
| SalesAnalytics.MonthNumbersBack | main/java/com/example/sweetspot/SalesAnalyticsViewModel.kt:124-126 | a bar's month number can be read back from its label |
| SalesAnalytics.MonthlyRevenueTotals | main/java/com/example/sweetspot/SalesAnalyticsViewModel.kt:109-126 | the monthly bars add up to the total price of all orders and run in calendar order |
| SalesAnalytics.MonthOutOfRangeThrows | main/java/com/example/sweetspot/SalesAnalyticsViewModel.kt:124-130 | a month number outside 1..12 makes `monthNames[month - 1]` throw, so no list is produced |
| SalesAnalytics.YearlyRevenue | main/java/com/example/sweetspot/SalesAnalyticsViewModel.kt:136-150 | the yearly list is produced exactly when every order's `substring(0, 4).toInt()` reads |
| SalesAnalytics.YearLabels | main/java/com/example/sweetspot/SalesAnalyticsViewModel.kt:146-147 | a year's label reads back as the year |
| SalesAnalytics.YearlyRevenueEntries | main/java/com/example/sweetspot/SalesAnalyticsViewModel.kt:136-148 | each year that has orders gets a bar with the sum of those orders' total prices, and every bar is such a bar |
| SalesAnalytics.YearlyRevenueUnique | main/java/com/example/sweetspot/SalesAnalyticsViewModel.kt:136-148 | no year is listed twice |
| SalesAnalytics.YearlyRevenueTotals | main/java/com/example/sweetspot/SalesAnalyticsViewModel.kt:136-148 | the yearly bars add up to the total price of all orders and are sorted by label string |
| SalesAnalytics.DailyRange | main/java/com/example/sweetspot/SalesAnalyticsViewModel.kt:71-77 | the daily fetch queries a range of collection dates |
| SalesAnalytics.DailyRangeDays | main/java/com/example/sweetspot/SalesAnalyticsViewModel.kt:71-77 | the range runs from the first to the last day of the selected month |
| SalesAnalytics.MonthlyRange | main/java/com/example/sweetspot/SalesAnalyticsViewModel.kt:103-105 | the monthly fetch queries "year-01-01" to "year-12-31" |
| SalesAnalytics.SalesAnalyticsViewModel.constructor | main/java/com/example/sweetspot/SalesAnalyticsViewModel.kt:26-30 | both lists start empty |
| SalesAnalytics.SalesAnalyticsViewModel.FetchHotSellingCakes | main/java/com/example/sweetspot/SalesAnalyticsViewModel.kt:32-57 | the nested loops leave `HotSelling(orders)` as the hot-selling list; the revenue list is kept |
| SalesAnalytics.SalesAnalyticsViewModel.AddItems | main/java/com/example/sweetspot/SalesAnalyticsViewModel.kt:41-44 | the inner loop leaves the map accumulated over one more order's items |
| SalesAnalytics.SalesAnalyticsViewModel.GroupRevenue | main/java/com/example/sweetspot/SalesAnalyticsViewModel.kt:81-88 | the revenue loop yields the accumulated map, or throws exactly when some order's key cannot be read |
| SalesAnalytics.SalesAnalyticsViewModel.FetchDailyRevenue | main/java/com/example/sweetspot/SalesAnalyticsViewModel.kt:69-99 | the revenue list becomes the daily list, or stays as it was when the loop throws |
| SalesAnalytics.SalesAnalyticsViewModel.FetchMonthlyRevenue | main/java/com/example/sweetspot/SalesAnalyticsViewModel.kt:101-131 | the revenue list becomes the monthly list, or stays as it was when a step throws |
| SalesAnalytics.SalesAnalyticsViewModel.FetchYearlyRevenue | main/java/com/example/sweetspot/SalesAnalyticsViewModel.kt:133-153 | the revenue list becomes the yearly list, or stays as it was when the loop throws |
| SalesAnalytics.SalesAnalyticsViewModel.FetchRevenueData | main/java/com/example/sweetspot/SalesAnalyticsViewModel.kt:59-67 | "Daily" with year and month, "Monthly" with a year, and "Yearly" run their fetch; anything else runs no query and changes nothing |

## Left out

- Firestore, Storage, Auth and Google Pay are not called. How each call ends is a parameter, and a
  listener that may fire several times is modelled as one delivery. The order in which concurrent
  callbacks finish is not modelled: each callback runs as soon as its call is made.
- Documents are not deserialised: a document is its `toObject` result, or `None` when that fails.
- The conversion of a timestamp to a local date (`Instant.atZone(ZoneId.systemDefault())`) is an
  abstract function parameter, because it depends on the device's time zone.
- `Double` arithmetic is not modelled. Prices are whole cents. `toDoubleOrNull` is modelled for decimal
  text with at most two fraction digits, and `Double.toString` for a cent amount (no exponent form).
- Numerals.ParseCents: some input that `toDoubleOrNull` would accept is refused here. This covers:
  - exponent form;
  - more than two fraction digits;
  - "NaN" and "Infinity";
  - leading or trailing whitespace and control characters, as in "12.50 ";
  - an `f`, `F`, `d` or `D` suffix, as in "5d";
  - hexadecimal floating forms.

  On such a price field the model's `AddCake.AddRequest` does not call `addCake` where the app would.
- `isDigit`, `lowercase` and `contains(ignoreCase = true)` are modelled on ASCII letters and digits only.
  String comparison in sorts is comparison of characters, as Kotlin's UTF-16 order is for the characters
  the app shows.
- Calendar.ParseDate: years outside 0..9999 and signed years are not modelled.
- The layout, navigation, theme colours, notifications, dialogs and charts of the screens are not
  modelled. The notification after a payment and the Google Pay JSON requests are included in this.
- `CartViewModel.saveOrderToFirebase`, `OrderViewModel` and `ReceiptPage` are not part of this model.
  They are other ways of saving an order; the checkout screen's own save is modelled.
- `CakeViewModel.incrementOrders`, `getCakeById`, `getCakeByName`, `fetchFavoriteCakes` and
  `getFavoriteCakes` are remote reads or a remote counter update with no logic beyond the call.
  `OrderHistoryViewModel.updateOrderStatus` is such a write too.
- `UserProfilePage` is not part of this model. Its favourite list filters a snapshot of the cake list
  taken while that list is still being fetched.
- models/RevenueData.kt is not part of this model. `RevenueData` is taken to hold a label and an amount,
  as its uses in `SalesAnalyticsViewModel` show.
- SalesAnalytics.MonthName: the source has no fallback. For a month number outside 1..12,
  `monthNames[month - 1]` throws, and `SalesAnalytics.MonthOutOfRangeThrows` models that as no list.
  The "" that `MonthName` returns there is the model's own placeholder and never reaches a bar.
- SalesAnalytics.LabelNumber: the default for a label that is not a number is not stated, because every
  label it reads is one the model printed.
- OrderDetails.OrderDetailsPage.PickTime: requires a chosen date and an hour and minute in range. The
  picker opens only after a date is chosen and yields only such values. The same holds for
  `PickTimeIntended`.
- Cart.CartViewModel.AddToCart: quantities are unbounded integers here, whereas Kotlin's `Int` wraps at
  2^31-1. The same holds for `Cart.Added`, `Cart.AddedKeepsInvariants`,
  `CakeDetails.CakeDetailsPage.OnIncrease`, `CartScreen.OnIncrease`, `Grouping.AddTo`,
  `SalesAnalytics.HotSelling` and `SalesAnalytics.SalesAnalyticsViewModel.FetchHotSellingCakes`.
  Their promise that quantities stay positive and sum exactly holds only while no sum passes 2^31-1.
- The `uid == null` branch of `handleLogin` after a successful sign-in is not modelled. A successful
  sign-in always has a user.
- EditCake: the form's fields and error texts are grouped into the `EditForm` and `FieldErrors`
  records. The description, price and category handlers are not modelled one by one; they set their
  field the way `OnNameChange` does.

## Findings

| source | as written | input that shows it | evidently intended | confidence | as-written member | corrected member |
|---|---|---|---|---|---|---|
| main/java/com/example/sweetspot/pages/OrderDetailsPage.kt:104-116 | the earliest time today is `maxOf(now.plusMinutes(30), 10:00)`, and `plusMinutes` wraps past midnight | at 23:40, `plusMinutes(30)` is 00:10, so the minimum is 10:00, and 12:00 today, already past, is accepted | a time today is accepted only if it is more than 30 minutes after now, so nothing is accepted late in the evening | not executed | OrderDetails.LatePickAsWritten | OrderDetails.OrderDetailsPage.PickTimeIntended |
| main/java/com/example/sweetspot/pages/EditCakePage.kt:62-70 | the fetched cake is copied into the form in `EditCakePage`'s own body, so the copy runs again whenever that body recomposes | the admin types a new name or picks an image, and then `EditCakePage`'s body runs again, e.g. the navigation host calls it again or `cake` gets a new value. The copy then restores the stored name and clears the image. Typing alone recomposes only the form's content, which does not run the copy | the cake is copied in once, when it arrives, and later edits stay | not executed | EditCake.EditLostAsWritten | EditCake.EditKeptOnRecompose |

=== FILE: add_cake_page.dfy ===
/**
 * The admin's "Add Cake" form (`pages/AddCakePage.kt`): its own check before
 * calling `addCake`, and the reset after a successful add.
 */
module AddCake {
  import opened Wrappers
  import opened Text
  import opened Numerals
  import opened CakeStore

  const CATEGORY_PLACEHOLDER: string := "Select a cake category"
  const FILL_ALL_FIELDS: string := "Please fill in all fields"
  const PRODUCT_MANAGEMENT: string := "productManagement"

  /** The arguments of the `addCake` call, prices in cents. */
  datatype AddCakeRequest = AddCakeRequest(
    name: string,
    description: string,
    priceSmall: int,
    priceMedium: int,
    priceLarge: int,
    category: string,
    imageUri: Option<string>,
    imageName: string)

  /**
   * The button's test: a non-blank name and description, three prices that
   * parse, and a chosen category. The prices are not compared with 0 here.
   */
  function AddRequest(name: string, description: string, priceSmall: string, priceMedium: string, priceLarge: string,
                      category: string, imageUri: Option<string>): (r: Option<AddCakeRequest>)
    ensures r.Some? <==> (!IsBlank(name) && !IsBlank(description)
      && ParseCents(priceSmall).Some? && ParseCents(priceMedium).Some? && ParseCents(priceLarge).Some?
      && category != CATEGORY_PLACEHOLDER)
    ensures r.Some? ==> (r.value.name == name && r.value.description == description && r.value.category == category
      && r.value.imageUri == imageUri && r.value.imageName == name + ".png"
      && Some(r.value.priceSmall) == ParseCents(priceSmall) && Some(r.value.priceMedium) == ParseCents(priceMedium)
      && Some(r.value.priceLarge) == ParseCents(priceLarge))
  {
    var small := ParseCents(priceSmall);
    var medium := ParseCents(priceMedium);
    var large := ParseCents(priceLarge);
    if !IsBlank(name) && !IsBlank(description) && small.Some? && medium.Some? && large.Some? && category != CATEGORY_PLACEHOLDER then
      Some(AddCakeRequest(name, description, small.value, medium.value, large.value, category, imageUri, name + ".png"))
    else None
  }

  /**
   * A price of zero or less passes the form and is refused by the view
   * model, which then reports its own error without uploading or saving.
   */
  lemma NonPositivePriceRefusedDownstream(name: string, description: string, priceSmall: string, priceMedium: string,
                                          priceLarge: string, category: string, imageUri: Option<string>)
    requires AddRequest(name, description, priceSmall, priceMedium, priceLarge, category, imageUri).Some?
    requires ParseCents(priceSmall).value <= 0
    ensures var q := AddRequest(name, description, priceSmall, priceMedium, priceLarge, category, imageUri).value;
      AddCakeRejected(q.name, q.description, q.priceSmall, q.priceMedium, q.priceLarge, q.category)
  {
  }

  /** A zero price ("0.0") is accepted by the form: the check is only that it parses. */
  lemma ZeroPricePassesForm(name: string, description: string, priceMedium: int, priceLarge: int, category: string,
                            imageUri: Option<string>)
    requires !IsBlank(name) && !IsBlank(description) && category != CATEGORY_PLACEHOLDER
    ensures AddRequest(name, description, FormatCents(0), FormatCents(priceMedium), FormatCents(priceLarge), category, imageUri)
         == Some(AddCakeRequest(name, description, 0, priceMedium, priceLarge, category, imageUri, name + ".png"))
  {
    CentsRoundTrip(0);
    CentsRoundTrip(priceMedium);
    CentsRoundTrip(priceLarge);
  }

  class AddCakePage {
    var name: string
    var description: string
    var priceSmall: string
    var priceMedium: string
    var priceLarge: string
    var category: string
    var imageUri: Option<string>

    /** The form as the screen opens it. */
    predicate IsEmptyForm()
      reads this
    {
      name == "" && description == "" && priceSmall == "" && priceMedium == "" && priceLarge == ""
      && category == CATEGORY_PLACEHOLDER && imageUri == None
    }

    constructor ()
      ensures IsEmptyForm()
    {
      name := "";
      description := "";
      priceSmall := "";
      priceMedium := "";
      priceLarge := "";
      category := CATEGORY_PLACEHOLDER;
      imageUri := None;
    }

    /**
     * "Add Cake": calls `addCake` with the form's values when the form
     * passes, otherwise shows the toast. `upload` and `save` are the remote
     * outcomes `addCake` meets.
     */
    method OnAddClicked(cakeViewModel: CakeViewModel, upload: Option<string>, save: WriteOutcome)
      returns (toast: Option<string>, request: Option<AddCakeRequest>)
      modifies cakeViewModel
      ensures request == AddRequest(name, description, priceSmall, priceMedium, priceLarge, category, imageUri)
      ensures request.None? ==> toast == Some(FILL_ALL_FIELDS) && cakeViewModel.cakeState == old(cakeViewModel.cakeState)
      ensures request.Some? ==> toast == None && cakeViewModel.cakeState.Some?
      ensures request.Some? && AddCakeRejected(request.value.name, request.value.description, request.value.priceSmall,
                                               request.value.priceMedium, request.value.priceLarge, request.value.category)
        ==> cakeViewModel.cakeState == Some(Error(INVALID_FIELDS))
      ensures cakeViewModel.cakeList == old(cakeViewModel.cakeList)
      ensures cakeViewModel.favoritesMap == old(cakeViewModel.favoritesMap)
    {
      request := AddRequest(name, description, priceSmall, priceMedium, priceLarge, category, imageUri);
      if request.Some? {
        var q := request.value;
        var states, path, written := cakeViewModel.AddCake(q.name, q.description, q.priceSmall, q.priceMedium, q.priceLarge,
                                                           q.category, q.imageUri, q.imageName, upload, save);
        toast := None;
      } else {
        toast := Some(FILL_ALL_FIELDS);
      }
    }

    /**
     * The screen's reaction to the view model's state: on Success the toast,
     * `resetState`, an empty form and the way back to product management;
     * on Error the toast only.
     */
    method OnCakeState(cakeViewModel: CakeViewModel) returns (toast: Option<string>, navigateTo: Option<string>)
      modifies this, cakeViewModel
      ensures old(cakeViewModel.cakeState).Some? && old(cakeViewModel.cakeState).value.Success? ==>
        toast == Some(old(cakeViewModel.cakeState).value.message) && navigateTo == Some(PRODUCT_MANAGEMENT)
        && IsEmptyForm() && cakeViewModel.cakeState == Some(Idle)
      ensures old(cakeViewModel.cakeState).Some? && old(cakeViewModel.cakeState).value.Error? ==>
        toast == Some(old(cakeViewModel.cakeState).value.message) && navigateTo == None
        && unchanged(this) && cakeViewModel.cakeState == old(cakeViewModel.cakeState)
      ensures (old(cakeViewModel.cakeState).None? || old(cakeViewModel.cakeState).value.Idle?
               || old(cakeViewModel.cakeState).value.Loading?) ==>
        toast == None && navigateTo == None && unchanged(this) && cakeViewModel.cakeState == old(cakeViewModel.cakeState)
      ensures cakeViewModel.cakeList == old(cakeViewModel.cakeList)
      ensures cakeViewModel.favoritesMap == old(cakeViewModel.favoritesMap)
    {
      toast := None;
      navigateTo := None;
      var state := cakeViewModel.cakeState;
      if state.Some? && state.value.Success? {
        toast := Some(state.value.message);
        cakeViewModel.ResetState();
        name := "";
        description := "";
        priceSmall := "";
        priceMedium := "";
        priceLarge := "";
        category := CATEGORY_PLACEHOLDER;
        imageUri := None;
        navigateTo := Some(PRODUCT_MANAGEMENT);
      } else if state.Some? && state.value.Error? {
        toast := Some(state.value.message);
      }
    }
  }
}

=== FILE: auth_view_model.dfy ===
/**
 * The session view model (`AuthViewModel.kt`): the `AuthState` machine of
 * sign-in, registration and sign-out, and the cached email, name and phone
 * number. Firebase Auth is represented by its current user, held here;
 * each remote call's outcome is a parameter.
 */
module Auth {
  import opened Wrappers
  import opened Text

  /** `AuthState`; `Authenticated` carries the role read from the user document, which may be missing. */
  datatype AuthState = Authenticated(role: Option<string>) | Unauthenticated | Loading | Success(message: string) | Error(message: string)

  /** A signed-in Firebase user. */
  datatype FirebaseUser = FirebaseUser(uid: string, email: Option<string>)

  /** How a sign-in or account creation ended. */
  datatype SignInOutcome = SignedIn(user: FirebaseUser) | SignInFailed(message: Option<string>)

  /** How any other Firebase task ended: success, or failure with the exception's (nullable) message. */
  datatype TaskOutcome = TaskOk | TaskFailed(message: Option<string>)

  /** The `users/<uid>` document as read: whether it exists, and its string fields. */
  datatype UserDocument = UserDocument(present: bool, role: Option<string>, fullName: Option<string>, phoneNumber: Option<string>)

  /** A document as Firestore reports it: `getString` on a missing document gives null for every field. */
  type ReadableDocument = d: UserDocument | d.present || (d.role == None && d.fullName == None && d.phoneNumber == None)
    witness UserDocument(false, None, None, None)

  /** How a document read ended. */
  datatype DocumentRead = ReadOk(doc: ReadableDocument) | ReadFailed(message: Option<string>)

  /** The fields `register` writes to `users/<uid>`. */
  datatype UserRecord = UserRecord(email: string, fullName: string, phoneNumber: string, role: string)

  const USER_ROLE: string := "user"
  const LOGIN_BLANK: string := "Email and password cannot be empty"
  const ROLE_FAILED: string := "Failed to retrieve role"
  const LOGIN_FAILED: string := "Login failed"
  const FIELDS_REQUIRED: string := "All fields are required"
  const SAVE_USER_FAILED: string := "Failed to save user data"
  const REGISTRATION_FAILED: string := "Registration failed"
  const DETAILS_FAILED: string := "Failed to retrieve user details"
  const DETAILS_UPDATED: string := "User details updated successfully"
  const UPDATE_DETAILS_FAILED: string := "Failed to update user details"

  /** `register`'s guard. */
  predicate RegisterRejected(email: string, password: string, fullName: string, phoneNumber: string)
  {
    IsBlank(email) || IsBlank(password) || IsBlank(fullName) || IsBlank(phoneNumber)
  }

  /** The state `login` sets once the user document has been read: its role, or the read's error. */
  function RoleState(roleRead: DocumentRead): (s: AuthState)
    ensures s.Authenticated? <==> roleRead.ReadOk?
    ensures s.Authenticated? ==> s.role == roleRead.doc.role
    ensures s.Error? ==> s.message == roleRead.message.GetOr(ROLE_FAILED)
  {
    match roleRead
    case ReadOk(doc) => Authenticated(doc.role)
    case ReadFailed(m) => Error(m.GetOr(ROLE_FAILED))
  }

  class AuthViewModel {
    /** `auth.currentUser` */
    var currentUser: Option<FirebaseUser>
    /** `authState.value`, null before the first assignment. */
    var authState: Option<AuthState>
    var userEmail: Option<string>
    var fullName: Option<string>
    var phoneNumber: Option<string>

    /** `init { checkAuthStatus() }`, for the session Firebase restored. */
    constructor (currentUser: Option<FirebaseUser>)
      ensures this.currentUser == currentUser
      ensures authState == Some(if currentUser.None? then Unauthenticated else Authenticated(None))
      ensures userEmail == None && fullName == None && phoneNumber == None
    {
      this.currentUser := currentUser;
      userEmail := None;
      fullName := None;
      phoneNumber := None;
      authState := Some(if currentUser.None? then Unauthenticated else Authenticated(None));
    }

    /** `refreshUserEmail`: copies the signed-in user's email; without a user nothing changes. */
    method RefreshUserEmail()
      modifies this
      ensures currentUser.Some? ==> userEmail == currentUser.value.email
      ensures currentUser.None? ==> userEmail == old(userEmail)
      ensures currentUser == old(currentUser) && authState == old(authState)
      ensures fullName == old(fullName) && phoneNumber == old(phoneNumber)
    {
      if currentUser.Some? {
        userEmail := currentUser.value.email;
      }
    }

    /** `checkAuthStatus`: a signed-in user counts as authenticated with no role known yet. */
    method CheckAuthStatus()
      modifies this
      ensures authState == Some(if currentUser.None? then Unauthenticated else Authenticated(None))
      ensures currentUser == old(currentUser) && userEmail == old(userEmail)
      ensures fullName == old(fullName) && phoneNumber == old(phoneNumber)
    {
      if currentUser.None? {
        authState := Some(Unauthenticated);
      } else {
        authState := Some(Authenticated(None));
      }
    }

    /**
     * `login`. `signIn` is how the sign-in ends and `roleRead` how the read
     * of the user document ends. Returns the values `authState` takes in turn.
     */
    method Login(email: string, password: string, signIn: SignInOutcome, roleRead: DocumentRead) returns (states: seq<AuthState>)
      modifies this
      ensures IsBlank(email) || IsBlank(password) ==>
        states == [Error(LOGIN_BLANK)] && currentUser == old(currentUser) && userEmail == old(userEmail)
      ensures !IsBlank(email) && !IsBlank(password) ==> |states| == 2 && states[0] == Loading
      ensures !IsBlank(email) && !IsBlank(password) && signIn.SignedIn? ==>
        currentUser == Some(signIn.user) && userEmail == signIn.user.email
        && states[1] == RoleState(roleRead)
      ensures !IsBlank(email) && !IsBlank(password) && signIn.SignInFailed? ==>
        currentUser == old(currentUser) && userEmail == old(userEmail)
        && states[1] == Error(signIn.message.GetOr(LOGIN_FAILED))
      ensures states != [] && authState == Some(states[|states| - 1])
      ensures fullName == old(fullName) && phoneNumber == old(phoneNumber)
    {
      if IsBlank(email) || IsBlank(password) {
        authState := Some(Error(LOGIN_BLANK));
        states := [Error(LOGIN_BLANK)];
        return;
      }
      authState := Some(Loading);
      states := [Loading];
      var next: AuthState;
      match signIn {
        case SignedIn(user) =>
          currentUser := Some(user);
          userEmail := user.email;
          next := RoleState(roleRead);
        case SignInFailed(m) =>
          next := Error(m.GetOr(LOGIN_FAILED));
      }
      authState := Some(next);
      states := states + [next];
    }

    /**
     * `register`. `create` is how the account creation ends (the new user is
     * then signed in) and `save` how the user document write ends. Returns
     * the states and the document written.
     */
    method Register(email: string, password: string, fullName: string, phoneNumber: string,
                    create: SignInOutcome, save: TaskOutcome)
      returns (states: seq<AuthState>, written: Option<(string, UserRecord)>)
      modifies this
      ensures RegisterRejected(email, password, fullName, phoneNumber) ==>
        states == [Error(FIELDS_REQUIRED)] && written == None && currentUser == old(currentUser)
      ensures !RegisterRejected(email, password, fullName, phoneNumber) ==> |states| == 2 && states[0] == Loading
      ensures !RegisterRejected(email, password, fullName, phoneNumber) && create.SignedIn? ==>
        currentUser == Some(create.user)
        && written == Some((create.user.uid, UserRecord(email, fullName, phoneNumber, USER_ROLE)))
        && states[1] == (if save.TaskOk? then Authenticated(Some(USER_ROLE)) else Error(save.message.GetOr(SAVE_USER_FAILED)))
      ensures !RegisterRejected(email, password, fullName, phoneNumber) && create.SignInFailed? ==>
        currentUser == old(currentUser) && written == None
        && states[1] == Error(create.message.GetOr(REGISTRATION_FAILED))
      ensures states != [] && authState == Some(states[|states| - 1])
      ensures userEmail == old(userEmail) && this.fullName == old(this.fullName) && this.phoneNumber == old(this.phoneNumber)
    {
      written := None;
      if RegisterRejected(email, password, fullName, phoneNumber) {
        authState := Some(Error(FIELDS_REQUIRED));
        states := [Error(FIELDS_REQUIRED)];
        return;
      }
      authState := Some(Loading);
      states := [Loading];
      var next: AuthState;
      match create {
        case SignedIn(user) =>
          currentUser := Some(user);
          written := Some((user.uid, UserRecord(email, fullName, phoneNumber, USER_ROLE)));
          match save {
            case TaskOk => next := Authenticated(Some(USER_ROLE));
            case TaskFailed(m) => next := Error(m.GetOr(SAVE_USER_FAILED));
          }
        case SignInFailed(m) =>
          next := Error(m.GetOr(REGISTRATION_FAILED));
      }
      authState := Some(next);
      states := states + [next];
    }

    /**
     * `getUserDetails`: with a signed-in user, the name and phone read from
     * the user document ("" where absent); a failed read sets an error.
     */
    method GetUserDetails(read: DocumentRead) returns (result: Option<(string, string)>)
      modifies this
      ensures currentUser.None? ==> result == None && unchanged(this)
      ensures currentUser.Some? && read.ReadOk? ==>
        result == Some((read.doc.fullName.GetOr(""), read.doc.phoneNumber.GetOr("")))
        && fullName == Some(read.doc.fullName.GetOr("")) && phoneNumber == Some(read.doc.phoneNumber.GetOr(""))
        && authState == old(authState)
      ensures currentUser.Some? && read.ReadOk? && !read.doc.present ==> result == Some(("", ""))
      ensures currentUser.Some? && read.ReadFailed? ==>
        result == None && authState == Some(Error(DETAILS_FAILED))
        && fullName == old(fullName) && phoneNumber == old(phoneNumber)
      ensures currentUser == old(currentUser) && userEmail == old(userEmail)
    {
      result := None;
      if currentUser.Some? {
        match read {
          case ReadOk(doc) =>
            var name := doc.fullName.GetOr("");
            var phone := doc.phoneNumber.GetOr("");
            fullName := Some(name);
            phoneNumber := Some(phone);
            result := Some((name, phone));
          case ReadFailed(_) =>
            authState := Some(Error(DETAILS_FAILED));
        }
      }
    }

    /**
     * `updateUserDetails`: with a signed-in user, writes the name and phone;
     * they are cached, and Success set, only once the write succeeds.
     */
    method UpdateUserDetails(fullName: string, phoneNumber: string, update: TaskOutcome)
      returns (written: Option<(string, string, string)>)
      modifies this
      ensures currentUser.None? ==> written == None && unchanged(this)
      ensures currentUser.Some? ==> written == Some((currentUser.value.uid, fullName, phoneNumber))
      ensures currentUser.Some? && update.TaskOk? ==>
        this.fullName == Some(fullName) && this.phoneNumber == Some(phoneNumber) && authState == Some(Success(DETAILS_UPDATED))
      ensures currentUser.Some? && update.TaskFailed? ==>
        this.fullName == old(this.fullName) && this.phoneNumber == old(this.phoneNumber)
        && authState == Some(Error(UPDATE_DETAILS_FAILED))
      ensures currentUser == old(currentUser) && userEmail == old(userEmail)
    {
      written := None;
      if currentUser.Some? {
        written := Some((currentUser.value.uid, fullName, phoneNumber));
        if update.TaskOk? {
          this.fullName := Some(fullName);
          this.phoneNumber := Some(phoneNumber);
          authState := Some(Success(DETAILS_UPDATED));
        } else {
          authState := Some(Error(UPDATE_DETAILS_FAILED));
        }
      }
    }

    /** `signOut`: no user, Unauthenticated, and nothing cached. */
    method SignOut()
      modifies this
      ensures currentUser == None && authState == Some(Unauthenticated)
      ensures userEmail == None && fullName == None && phoneNumber == None
    {
      currentUser := None;
      authState := Some(Unauthenticated);
      userEmail := None;
      fullName := None;
      phoneNumber := None;
    }
  }

  /** Signing out and checking the session agree: both leave the model Unauthenticated. */
  method SignOutThenCheck(vm: AuthViewModel)
    modifies vm
    ensures vm.authState == Some(Unauthenticated) && vm.currentUser == None
  {
    vm.SignOut();
    vm.CheckAuthStatus();
  }

  /** A successful registration signs the user in with the "user" role, whatever the fields were. */
  method RegisterThenCheck(email: string, password: string, fullName: string, phoneNumber: string,
                           user: FirebaseUser) returns (state: AuthState, record: UserRecord)
    requires !RegisterRejected(email, password, fullName, phoneNumber)
    ensures state == Authenticated(Some(USER_ROLE)) && record.role == USER_ROLE
    ensures record == UserRecord(email, fullName, phoneNumber, USER_ROLE)
  {
    var vm := new AuthViewModel(None);
    var states, written := vm.Register(email, password, fullName, phoneNumber, SignedIn(user), TaskOk);
    state := states[1];
    record := written.value.1;
  }
}

=== FILE: cake.dfy ===
/** The cake record of the catalogue (`models/Cake.kt`), with prices in cents. */
module Cakes {

  const SIZE_SMALL: string := "6 inch"
  const SIZE_MEDIUM: string := "8 inch"
  const SIZE_LARGE: string := "10 inch"

  datatype Cake = Cake(
    id: string,
    name: string,
    imageUrl: string,
    priceSmall: int,
    priceMedium: int,
    priceLarge: int,
    category: string,
    description: string,
    orders: int)
  {
    /**
     * `getPrice(size)`: the price of the named size; a size string the shop
     * does not sell is charged the small price.
     */
    function GetPrice(size: string): (r: int)
      ensures size == SIZE_MEDIUM ==> r == priceMedium
      ensures size == SIZE_LARGE ==> r == priceLarge
      ensures size != SIZE_MEDIUM && size != SIZE_LARGE ==> r == priceSmall
    {
      if size == SIZE_SMALL then priceSmall
      else if size == SIZE_MEDIUM then priceMedium
      else if size == SIZE_LARGE then priceLarge
      else priceSmall
    }
  }
}

=== FILE: cake_details_page.dfy ===
/**
 * The cake details screen (`pages/CakeDetailsPage.kt`): the size buttons, the
 * quantity stepper and the "Add To Cart" button, and the page's own price lookup.
 */
module CakeDetails {
  import opened Cakes
  import opened Cart

  /** The three size buttons. */
  datatype SizeButton = SixInch | EightInch | TenInch

  function SizeLabel(b: SizeButton): (s: string)
    ensures KnownSize(s)
  {
    match b
    case SixInch => SIZE_SMALL
    case EightInch => SIZE_MEDIUM
    case TenInch => SIZE_LARGE
  }

  predicate KnownSize(s: string)
  {
    s == SIZE_SMALL || s == SIZE_MEDIUM || s == SIZE_LARGE
  }

  /** The page's top-level `getPrice(cake, size)`: the same mapping and fallback as `Cake.getPrice`. */
  function GetPrice(cake: Cake, size: string): (r: int)
    ensures r == cake.GetPrice(size)
    ensures r == PriceForSize(cake, size)
  {
    if size == SIZE_SMALL then cake.priceSmall
    else if size == SIZE_MEDIUM then cake.priceMedium
    else if size == SIZE_LARGE then cake.priceLarge
    else cake.priceSmall
  }

  /** The size buttons pick three different prices. */
  lemma SizeButtonPrices(cake: Cake)
    ensures GetPrice(cake, SizeLabel(SixInch)) == cake.priceSmall
    ensures GetPrice(cake, SizeLabel(EightInch)) == cake.priceMedium
    ensures GetPrice(cake, SizeLabel(TenInch)) == cake.priceLarge
  {
  }

  class CakeDetailsPage {
    var selectedSize: string
    var quantity: int

    /** What the handlers keep true: a size the shop sells and a quantity of at least one. */
    predicate Valid()
      reads this
    {
      KnownSize(selectedSize) && quantity >= 1
    }

    constructor ()
      ensures selectedSize == SIZE_SMALL && quantity == 1
      ensures Valid()
    {
      selectedSize := SIZE_SMALL;
      quantity := 1;
    }

    /** The price shown under the name, for the selected size. */
    function ShownPrice(cake: Cake): (r: int)
      reads this
      ensures r == cake.GetPrice(selectedSize)
    {
      GetPrice(cake, selectedSize)
    }

    /** The decrease arrow: `if (quantity > 1) quantity--`. */
    method OnDecrease()
      modifies this
      ensures quantity == if old(quantity) > 1 then old(quantity) - 1 else old(quantity)
      ensures selectedSize == old(selectedSize)
      ensures old(Valid()) ==> Valid()
    {
      if quantity > 1 {
        quantity := quantity - 1;
      }
    }

    /** The increase arrow: `quantity++`, with no upper bound. */
    method OnIncrease()
      modifies this
      ensures quantity == old(quantity) + 1
      ensures selectedSize == old(selectedSize)
      ensures old(Valid()) ==> Valid()
    {
      quantity := quantity + 1;
    }

    method OnSelectSize(button: SizeButton)
      modifies this
      ensures selectedSize == SizeLabel(button)
      ensures quantity == old(quantity)
      ensures old(Valid()) ==> Valid()
    {
      selectedSize := SizeLabel(button);
    }

    /** "Add To Cart": `addToCart(cake, selectedSize, quantity)`; the page is left unchanged. */
    method OnAddToCart(cake: Cake, cart: CartViewModel)
      requires Valid()
      modifies cart
      ensures cart.cartItems == Added(old(cart.cartItems), cake, selectedSize, quantity)
      ensures cart.collectionDateTime == old(cart.collectionDateTime)
      ensures old(cart.Valid()) ==> cart.Valid()
    {
      cart.AddToCart(cake, selectedSize, quantity);
    }
  }
}

=== FILE: cake_list_page.dfy ===
/**
 * The customer's cake list (`pages/CakeListPage.kt`): the catalogue narrowed
 * to the cakes whose name or category contains the search text.
 */
module CakeList {
  import opened Cakes
  import opened Text
  import opened Seqs

  /** The condition of the `filter`: the query occurs in the name or in the category, ignoring case. */
  predicate Matches(cake: Cake, searchQuery: string)
  {
    ContainsIgnoreCase(cake.name, searchQuery) || ContainsIgnoreCase(cake.category, searchQuery)
  }

  /** `filteredCakeList` */
  function FilteredCakeList(cakeList: seq<Cake>, searchQuery: string): (r: seq<Cake>)
    ensures |r| <= |cakeList|
    ensures forall i :: 0 <= i < |r| ==> Matches(r[i], searchQuery)
  {
    Filter(cakeList, (c: Cake) => Matches(c, searchQuery))
  }

  /** A cake is kept exactly when its name or category contains the query, and as often as it occurs. */
  lemma FilteredCakeListMembership(cakeList: seq<Cake>, searchQuery: string, cake: Cake)
    ensures multiset(FilteredCakeList(cakeList, searchQuery))[cake]
         == if Matches(cake, searchQuery) then multiset(cakeList)[cake] else 0
    ensures cake in FilteredCakeList(cakeList, searchQuery) <==>
      (cake in cakeList && (ContainsIgnoreCase(cake.name, searchQuery) || ContainsIgnoreCase(cake.category, searchQuery)))
  {
    FilterCounts(cakeList, (c: Cake) => Matches(c, searchQuery), cake);
    assert cake in FilteredCakeList(cakeList, searchQuery) <==> multiset(FilteredCakeList(cakeList, searchQuery))[cake] > 0;
    assert cake in cakeList <==> multiset(cakeList)[cake] > 0;
  }

  /** The list keeps the catalogue order and adds nothing. */
  lemma FilteredCakeListIsSubsequence(cakeList: seq<Cake>, searchQuery: string)
    ensures IsSubsequence(FilteredCakeList(cakeList, searchQuery), cakeList)
  {
    FilterIsSubsequence(cakeList, (c: Cake) => Matches(c, searchQuery));
  }

  /** Before anything is typed every cake is listed. */
  lemma EmptyQueryKeepsAll(cakeList: seq<Cake>)
    ensures FilteredCakeList(cakeList, "") == cakeList
  {
    forall i | 0 <= i < |cakeList| ensures Matches(cakeList[i], "") {
      EmptyNeedleContained(cakeList[i].name);
    }
    FilterKeepsAll(cakeList, (c: Cake) => Matches(c, ""));
  }

  /**
   * A query of spaces is not blank-as-everything: it drops every cake whose
   * name and category hold no whitespace.
   */
  lemma WhitespaceQueryDropsPlainCakes(cakeList: seq<Cake>, searchQuery: string)
    requires searchQuery != [] && IsBlank(searchQuery)
    requires forall i, k :: 0 <= i < |cakeList| && 0 <= k < |cakeList[i].name| ==> !IsWhitespace(cakeList[i].name[k])
    requires forall i, k :: 0 <= i < |cakeList| && 0 <= k < |cakeList[i].category| ==> !IsWhitespace(cakeList[i].category[k])
    ensures FilteredCakeList(cakeList, searchQuery) == []
  {
    var r := FilteredCakeList(cakeList, searchQuery);
    if r != [] {
      var i :| 0 <= i < |cakeList| && cakeList[i] == r[0];
      WhitespaceNotContained(cakeList[i].name, searchQuery);
      WhitespaceNotContained(cakeList[i].category, searchQuery);
      assert false;
    }
  }

  /** "No cakes available." is shown exactly when no cake matches the query. */
  lemma NoCakesMessage(cakeList: seq<Cake>, searchQuery: string)
    ensures FilteredCakeList(cakeList, searchQuery) == [] <==>
      forall i :: 0 <= i < |cakeList| ==> !Matches(cakeList[i], searchQuery)
  {
    var r := FilteredCakeList(cakeList, searchQuery);
    if r != [] {
      var i :| 0 <= i < |cakeList| && cakeList[i] == r[0];
    }
  }
}

=== FILE: cake_view_model.dfy ===
/**
 * The catalogue's view model (`CakeViewModel.kt`): the add and update flows
 * with their `CakeState` progress, the cached cake list, and the favourites
 * map. Storage uploads and Firestore writes are not performed here: each
 * remote step's outcome is a parameter, and the document the app would write
 * is returned.
 */
module CakeStore {
  import opened Wrappers
  import opened Text
  import opened Cakes

  /** `CakeState` */
  datatype CakeState = Idle | Loading | Success(message: string) | Error(message: string)

  const INVALID_FIELDS: string := "Fields cannot be empty and prices must be greater than 0"
  const UPLOAD_FAILED: string := "Image upload failed"
  const UPDATE_UPLOAD_FAILED: string := "Image update failed"
  const CAKE_ADDED: string := "Cake added successfully"
  const ADD_FAILED: string := "Failed to add cake"
  const CAKE_UPDATED: string := "Cake updated successfully"
  const UPDATE_FAILED: string := "Failed to update cake"
  const CAKE_DELETED: string := "Cake soft-deleted successfully"
  const DELETE_FAILED: string := "Failed to soft delete cake"

  /** How a Firestore write ended: success, or failure with the exception's (nullable) message. */
  datatype WriteOutcome = Written | WriteFailed(message: Option<string>)

  /** The state a write's listeners set: the success text, or the failure's message `?:` a default. */
  function WriteState(outcome: WriteOutcome, success: string, failure: string): (s: CakeState)
    ensures outcome.Written? ==> s == Success(success)
    ensures outcome.WriteFailed? && outcome.message.Some? ==> s == Error(outcome.message.value)
    ensures outcome == WriteFailed(None) ==> s == Error(failure)
  {
    match outcome
    case Written => Success(success)
    case WriteFailed(message) => Error(message.GetOr(failure))
  }

  /**
   * The field map written to a cake document, prices in cents. `orders` is
   * present only when a cake is added: an update replaces the document
   * without it.
   */
  datatype CakeData = CakeData(
    name: string,
    description: string,
    priceSmall: int,
    priceMedium: int,
    priceLarge: int,
    category: string,
    imageUrl: string,
    orders: Option<int>,
    isDeleted: bool)

  /** `addCake`'s guard: what it refuses before anything else happens. */
  predicate AddCakeRejected(name: string, description: string, priceSmall: int, priceMedium: int, priceLarge: int,
                            category: string)
  {
    IsBlank(name) || IsBlank(description) || IsBlank(category) || priceSmall <= 0 || priceMedium <= 0 || priceLarge <= 0
  }

  /** The storage path an image is uploaded to. */
  function StoragePath(imageName: string): (path: string)
    ensures |path| == 6 + |imageName| && path[..6] == "cakes/" && path[6..] == imageName
  {
    "cakes/" + imageName
  }

  /**
   * `cakeList.value?.find { it.id == cakeId }?.imageUrl.orEmpty()`: the image
   * of the first cached cake with the id, or "" when there is none (or no
   * list yet).
   */
  function CachedImageUrl(cakeList: Option<seq<Cake>>, cakeId: string): (url: string)
    ensures cakeList.None? ==> url == ""
    ensures cakeList.Some? && (forall i :: 0 <= i < |cakeList.value| ==> cakeList.value[i].id != cakeId) ==> url == ""
    ensures cakeList.Some? ==> forall i :: (0 <= i < |cakeList.value| && cakeList.value[i].id == cakeId
      && (forall j :: 0 <= j < i ==> cakeList.value[j].id != cakeId)) ==> url == cakeList.value[i].imageUrl
  {
    if cakeList.None? then "" else FirstImageUrl(cakeList.value, cakeId)
  }

  function FirstImageUrl(cakes: seq<Cake>, cakeId: string): (url: string)
    ensures (forall i :: 0 <= i < |cakes| ==> cakes[i].id != cakeId) ==> url == ""
    ensures forall i :: 0 <= i < |cakes| && cakes[i].id == cakeId ==>
      (forall j :: 0 <= j < i ==> cakes[j].id != cakeId) ==> url == cakes[i].imageUrl
  {
    if cakes == [] then ""
    else if cakes[0].id == cakeId then cakes[0].imageUrl
    else FirstImageUrl(cakes[1..], cakeId)
  }

  /** A fetched cake document: its id and, when it deserializes, its cake. */
  datatype CakeDocument = CakeDocument(id: string, data: Option<Cake>)

  /** `mapNotNull { doc.toObject(Cake)?.copy(id = doc.id) }` */
  function CakesOf(docs: seq<CakeDocument>): (cakes: seq<Cake>)
    ensures |cakes| <= |docs|
  {
    if docs == [] then []
    else
      var last := docs[|docs| - 1];
      CakesOf(docs[..|docs| - 1]) + (if last.data.Some? then [last.data.value.(id := last.id)] else [])
  }

  /** When every document deserializes, the list is their cakes in order, each carrying its document's id. */
  lemma {:induction false} CakesOfAllParsed(docs: seq<CakeDocument>)
    requires forall i :: 0 <= i < |docs| ==> docs[i].data.Some?
    ensures |CakesOf(docs)| == |docs|
    ensures forall i :: 0 <= i < |docs| ==> CakesOf(docs)[i] == docs[i].data.value.(id := docs[i].id)
  {
    if docs != [] {
      CakesOfAllParsed(docs[..|docs| - 1]);
    }
  }

  /** A document that does not deserialize adds nothing. */
  lemma CakesOfSkipsUnreadable(docs: seq<CakeDocument>, doc: CakeDocument)
    requires doc.data.None?
    ensures CakesOf(docs + [doc]) == CakesOf(docs)
  {
    assert (docs + [doc])[..|docs|] == docs;
  }

  /** The id of the favourites document of a user and a cake. */
  function FavoriteDocId(userId: string, cakeId: string): (docId: string)
    ensures |docId| == |userId| + 1 + |cakeId|
    ensures docId[..|userId|] == userId && docId[|userId|] == '_' && docId[|userId| + 1..] == cakeId
  {
    userId + "_" + cakeId
  }

  /** For user ids without '_', the document id names one user and one cake. */
  lemma FavoriteDocIdInjective(u1: string, c1: string, u2: string, c2: string)
    requires '_' !in u1 && '_' !in u2
    requires FavoriteDocId(u1, c1) == FavoriteDocId(u2, c2)
    ensures u1 == u2 && c1 == c2
  {
    if |u1| != |u2| {
      assert false;
    }
  }

  /** The write `toggleFavoriteStatus` sends. */
  datatype FavoriteWrite = DeleteFavorite(docId: string) | SetFavorite(docId: string, userId: string, cakeId: string)

  /** The favourites collection, as the set of its document ids, after a write. */
  function ApplyFavoriteWrite(docs: set<string>, write: FavoriteWrite): (r: set<string>)
    ensures write.DeleteFavorite? ==> r == docs - {write.docId}
    ensures write.SetFavorite? ==> r == docs + {write.docId}
  {
    match write
    case DeleteFavorite(docId) => docs - {docId}
    case SetFavorite(docId, _, _) => docs + {docId}
  }

  class CakeViewModel {
    /** `cakeState.value`: null until the first assignment. */
    var cakeState: Option<CakeState>
    /** `cakeList.value`: null until the first fetch ends. */
    var cakeList: Option<seq<Cake>>
    /** `favoritesMap`, keyed by cake id only. */
    var favoritesMap: map<string, bool>

    constructor ()
      ensures cakeState == None && cakeList == None && favoritesMap == map[]
    {
      cakeState := None;
      cakeList := None;
      favoritesMap := map[];
    }

    /** `fetchCakes`: the fetched documents, or `None` when the query fails and the list is emptied. */
    method FetchCakes(result: Option<seq<CakeDocument>>)
      modifies this
      ensures cakeList == Some(if result.Some? then CakesOf(result.value) else [])
      ensures cakeState == old(cakeState) && favoritesMap == old(favoritesMap)
    {
      if result.Some? {
        cakeList := Some(CakesOf(result.value));
      } else {
        cakeList := Some([]);
      }
    }

    /**
     * `addCake`. `imageUri` is the picked image, if any; `upload` is the
     * download URL the upload ends with (`None` when it fails) and `save` the
     * outcome of the document write. Returns the values `cakeState` takes in
     * turn, the storage path uploaded to, and the document written.
     */
    method AddCake(name: string, description: string, priceSmall: int, priceMedium: int, priceLarge: int,
                   category: string, imageUri: Option<string>, imageName: string,
                   upload: Option<string>, save: WriteOutcome)
      returns (states: seq<CakeState>, uploadPath: Option<string>, written: Option<CakeData>)
      modifies this
      ensures AddCakeRejected(name, description, priceSmall, priceMedium, priceLarge, category) ==>
        states == [Error(INVALID_FIELDS)] && uploadPath == None && written == None
      ensures !AddCakeRejected(name, description, priceSmall, priceMedium, priceLarge, category) ==>
        |states| == 2 && states[0] == Loading
        && uploadPath == (if imageUri.Some? then Some(StoragePath(imageName)) else None)
        && (imageUri.Some? && upload.None? ==> written == None && states[1] == Error(UPLOAD_FAILED))
        && (imageUri.None? || upload.Some? ==>
              written == Some(CakeData(name, description, priceSmall, priceMedium, priceLarge, category,
                                       if imageUri.Some? then upload.value else "", Some(0), false))
              && states[1] == WriteState(save, CAKE_ADDED, ADD_FAILED))
      ensures states != [] && cakeState == Some(states[|states| - 1])
      ensures cakeList == old(cakeList) && favoritesMap == old(favoritesMap)
    {
      uploadPath := None;
      written := None;
      if AddCakeRejected(name, description, priceSmall, priceMedium, priceLarge, category) {
        cakeState := Some(Error(INVALID_FIELDS));
        states := [Error(INVALID_FIELDS)];
        return;
      }
      cakeState := Some(Loading);
      states := [Loading];
      var imageUrl := "";
      if imageUri.Some? {
        uploadPath := Some(StoragePath(imageName));
        if upload.None? {
          cakeState := Some(Error(UPLOAD_FAILED));
          states := states + [Error(UPLOAD_FAILED)];
          return;
        }
        imageUrl := upload.value;
      }
      written := Some(CakeData(name, description, priceSmall, priceMedium, priceLarge, category, imageUrl, Some(0), false));
      var s := WriteState(save, CAKE_ADDED, ADD_FAILED);
      cakeState := Some(s);
      states := states + [s];
    }

    /**
     * `updateCake`: no validation; Loading first. A new image is uploaded as
     * "<name>.png"; without one the cached cake's image is kept. Returns the
     * states, the upload path, and the document id and fields written.
     */
    method UpdateCake(cakeId: string, name: string, description: string, priceSmall: int, priceMedium: int,
                      priceLarge: int, category: string, newImageUri: Option<string>,
                      upload: Option<string>, write: WriteOutcome)
      returns (states: seq<CakeState>, uploadPath: Option<string>, written: Option<(string, CakeData)>)
      modifies this
      ensures |states| == 2 && states[0] == Loading && cakeState == Some(states[1])
      ensures uploadPath == (if newImageUri.Some? then Some(StoragePath(name + ".png")) else None)
      ensures newImageUri.Some? && upload.None? ==> written == None && states[1] == Error(UPDATE_UPLOAD_FAILED)
      ensures newImageUri.None? || upload.Some? ==>
        written == Some((cakeId, CakeData(name, description, priceSmall, priceMedium, priceLarge, category,
                         if newImageUri.Some? then upload.value else CachedImageUrl(old(cakeList), cakeId), None, false)))
        && states[1] == WriteState(write, CAKE_UPDATED, UPDATE_FAILED)
      ensures cakeList == old(cakeList) && favoritesMap == old(favoritesMap)
    {
      cakeState := Some(Loading);
      states := [Loading];
      uploadPath := None;
      written := None;
      var imageUrl: string;
      if newImageUri.Some? {
        var imageName := name + ".png";
        uploadPath := Some(StoragePath(imageName));
        if upload.None? {
          cakeState := Some(Error(UPDATE_UPLOAD_FAILED));
          states := states + [Error(UPDATE_UPLOAD_FAILED)];
          return;
        }
        imageUrl := upload.value;
      } else {
        imageUrl := CachedImageUrl(cakeList, cakeId);
      }
      written := Some((cakeId, CakeData(name, description, priceSmall, priceMedium, priceLarge, category, imageUrl, None, false)));
      var s := WriteState(write, CAKE_UPDATED, UPDATE_FAILED);
      cakeState := Some(s);
      states := states + [s];
    }

    /** `softDeleteCake`: marks the document deleted; success then refetches, given as `refetched`. */
    method SoftDeleteCake(cakeId: string, write: WriteOutcome, refetched: Option<seq<CakeDocument>>)
      modifies this
      ensures cakeState == Some(WriteState(write, CAKE_DELETED, DELETE_FAILED))
      ensures write.Written? ==> cakeList == Some(if refetched.Some? then CakesOf(refetched.value) else [])
      ensures write.WriteFailed? ==> cakeList == old(cakeList)
      ensures favoritesMap == old(favoritesMap)
    {
      cakeState := Some(WriteState(write, CAKE_DELETED, DELETE_FAILED));
      if write.Written? {
        FetchCakes(refetched);
      }
    }

    /** `resetState` */
    method ResetState()
      modifies this
      ensures cakeState == Some(Idle)
      ensures cakeList == old(cakeList) && favoritesMap == old(favoritesMap)
    {
      cakeState := Some(Idle);
    }

    /**
     * One delivery of `observeFavoriteStatus`'s listener: whether the
     * "userId_cakeId" document exists, `None` for a null snapshot.
     */
    method ObserveFavoriteStatus(userId: string, cakeId: string, snapshotExists: Option<bool>)
      modifies this
      ensures favoritesMap == old(favoritesMap)[cakeId := snapshotExists.GetOr(false)]
      ensures cakeState == old(cakeState) && cakeList == old(cakeList)
    {
      favoritesMap := favoritesMap[cakeId := snapshotExists.GetOr(false)];
    }

    /** `getFavoriteStatus`: false for a cake never observed. */
    function GetFavoriteStatus(cakeId: string): (favorite: bool)
      reads this
      ensures favorite <==> cakeId in favoritesMap && favoritesMap[cakeId]
    {
      if cakeId in favoritesMap then favoritesMap[cakeId] else false
    }

    /** `toggleFavoriteStatus`: the write it sends; the map itself waits for the listener. */
    method ToggleFavoriteStatus(userId: string, cakeId: string) returns (write: FavoriteWrite)
      ensures GetFavoriteStatus(cakeId) ==> write == DeleteFavorite(FavoriteDocId(userId, cakeId))
      ensures !GetFavoriteStatus(cakeId) ==> write == SetFavorite(FavoriteDocId(userId, cakeId), userId, cakeId)
    {
      var isFavorite := GetFavoriteStatus(cakeId);
      var docRef := FavoriteDocId(userId, cakeId);
      if isFavorite {
        write := DeleteFavorite(docRef);
      } else {
        write := SetFavorite(docRef, userId, cakeId);
      }
    }
  }

  /**
   * When the map agrees with the favourites collection, sending the toggle's
   * write and letting the listener report the document flips the status.
   */
  lemma ToggleFlipsObservedStatus(status: bool, docs: set<string>, userId: string, cakeId: string, write: FavoriteWrite)
    requires status <==> FavoriteDocId(userId, cakeId) in docs
    requires status ==> write == DeleteFavorite(FavoriteDocId(userId, cakeId))
    requires !status ==> write == SetFavorite(FavoriteDocId(userId, cakeId), userId, cakeId)
    ensures (FavoriteDocId(userId, cakeId) in ApplyFavoriteWrite(docs, write)) == !status
  {
  }
}

=== FILE: calendar.dfy ===
/**
 * The parts of `java.time` the app uses: `LocalDate`, `LocalTime` with
 * `plusMinutes`, `isAfter`/`isBefore`, and the `"yyyy-MM-dd"` and `"HH:mm"`
 * patterns of `DateTimeFormatter` (printing, and parsing with the default
 * SMART resolver).
 */
module Calendar {
  import opened Wrappers
  import opened Text
  import opened Numerals

  predicate IsLeapYear(year: int)
  {
    year % 4 == 0 && (year % 100 != 0 || year % 400 == 0)
  }

  function MonthLength(year: int, month: int): (n: int)
    requires 1 <= month <= 12
    ensures 28 <= n <= 31
  {
    if month == 2 then (if IsLeapYear(year) then 29 else 28)
    else if month == 4 || month == 6 || month == 9 || month == 11 then 30
    else 31
  }

  datatype Date = Date(year: int, month: int, day: int)

  predicate ValidDate(d: Date)
  {
    1 <= d.month <= 12 && 1 <= d.day <= MonthLength(d.year, d.month)
  }

  /** `LocalDate` */
  type LocalDate = d: Date | ValidDate(d) witness Date(2000, 1, 1)

  /** `isBefore` / `isAfter` / `compareTo` on dates. */
  predicate DateBefore(a: LocalDate, b: LocalDate)
  {
    a.year < b.year || (a.year == b.year && (a.month < b.month || (a.month == b.month && a.day < b.day)))
  }

  predicate DateOnOrBefore(a: LocalDate, b: LocalDate)
  {
    a == b || DateBefore(a, b)
  }

  const NANOS_PER_MINUTE: int := 60_000_000_000
  const NANOS_PER_HOUR: int := 60 * NANOS_PER_MINUTE
  const NANOS_PER_DAY: int := 24 * NANOS_PER_HOUR

  /** `LocalTime`, as nanoseconds since midnight (`LocalTime.now()` carries seconds and nanoseconds). */
  type LocalTime = t: int | 0 <= t < NANOS_PER_DAY

  /** `LocalTime.of(hour, minute)` */
  function TimeOf(hour: int, minute: int): (t: LocalTime)
    requires 0 <= hour < 24 && 0 <= minute < 60
    ensures Hour(t) == hour && Minute(t) == minute
  {
    hour * NANOS_PER_HOUR + minute * NANOS_PER_MINUTE
  }

  function Hour(t: LocalTime): (h: int)
    ensures 0 <= h < 24
  {
    t / NANOS_PER_HOUR
  }

  function Minute(t: LocalTime): (m: int)
    ensures 0 <= m < 60
  {
    (t / NANOS_PER_MINUTE) % 60
  }

  /** `plusMinutes(minutes)`: the time of day the given number of minutes later, wrapping at midnight. */
  function PlusMinutes(t: LocalTime, minutes: nat): (r: LocalTime)
    ensures t + minutes * NANOS_PER_MINUTE < NANOS_PER_DAY ==> r == t + minutes * NANOS_PER_MINUTE
    ensures t + minutes * NANOS_PER_MINUTE >= NANOS_PER_DAY && minutes < 24 * 60 ==> r == t + minutes * NANOS_PER_MINUTE - NANOS_PER_DAY
  {
    (t + minutes * NANOS_PER_MINUTE) % NANOS_PER_DAY
  }

  // ---------------------------------------------------------------------------
  // "yyyy-MM-dd" and "HH:mm"
  // ---------------------------------------------------------------------------

  /**
   * The `yyyy` field: the year of the era, at least four digits, and a leading
   * '+' once it needs more than four (the EXCEEDS_PAD sign style).
   */
  function YearText(year: int): (s: string)
    ensures 1 <= year <= 9999 ==> |s| == 4 && AllDigits(s)
  {
    var yoe := if year >= 1 then year else 1 - year;
    if yoe <= 9999 then Pad4(yoe) else "+" + NatToString(yoe)
  }

  /** `date.format(ofPattern("yyyy-MM-dd"))` */
  function FormatDate(d: LocalDate): (s: string)
    ensures 1 <= d.year <= 9999 ==> |s| == 10
  {
    YearText(d.year) + "-" + Pad2(d.month) + "-" + Pad2(d.day)
  }

  /** `time.format(ofPattern("HH:mm"))` */
  function FormatTime(t: LocalTime): (s: string)
    ensures |s| == 5 && s[2] == ':'
  {
    Pad2(Hour(t)) + ":" + Pad2(Minute(t))
  }

  /**
   * `LocalDate.parse(s, ofPattern("yyyy-MM-dd"))` for a four-digit year:
   * `None` where it throws. The year of the era must be at least 1, the month
   * 1..12 and the day 1..31; a day past the end of its month is moved back to
   * the month's last day, as the SMART resolver does.
   */
  function ParseDate(s: string): (r: Option<LocalDate>)
    ensures r.Some? ==> |s| == 10 && s[4] == '-' && s[7] == '-'
  {
    if |s| != 10 || s[4] != '-' || s[7] != '-' || !AllDigits(s[..4]) || !AllDigits(s[5..7]) || !AllDigits(s[8..]) then None
    else
      var year := DigitsValue(s[..4]);
      var month := DigitsValue(s[5..7]);
      var day := DigitsValue(s[8..]);
      if year < 1 || month < 1 || month > 12 || day < 1 || day > 31 then None
      else
        var length := MonthLength(year, month);
        Some(Date(year, month, if day <= length then day else length))
  }

  /** Parsing what `FormatDate` printed gives the date back. */
  lemma ParseFormatDate(d: LocalDate)
    requires 1 <= d.year <= 9999
    ensures ParseDate(FormatDate(d)) == Some(d)
  {
    var s := FormatDate(d);
    assert s[..4] == Pad4(d.year);
    assert s[5..7] == Pad2(d.month);
    assert s[8..] == Pad2(d.day);
    Pad4Value(d.year);
    Pad2Value(d.month);
    Pad2Value(d.day);
  }

  /** `substring(0, 4)` of a formatted date is the year and `substring(5, 7)` the month, as `toInt()` reads them. */
  lemma FormatDateFields(d: LocalDate)
    requires 1 <= d.year <= 9999
    ensures ToIntOrNull(FormatDate(d)[0..4]) == Some(d.year)
    ensures ToIntOrNull(FormatDate(d)[5..7]) == Some(d.month)
  {
    var s := FormatDate(d);
    assert s[0..4] == Pad4(d.year);
    assert s[5..7] == Pad2(d.month);
    Pad4ToInt(d.year);
    Pad2ToInt(d.month);
  }
}

=== FILE: cart.dfy ===
/**
 * The shopping cart (`CartViewModel.kt`): lines keyed by (cake name, size),
 * the chosen collection slot, and the total price.
 */
module Cart {
  import opened Wrappers
  import opened Seqs
  import opened Cakes
  import opened Calendar

  datatype CartItem = CartItem(cake: Cake, size: string, quantity: int)

  /** `Cake.priceForSize(size)`: the same mapping as `Cake.getPrice`. */
  function PriceForSize(cake: Cake, size: string): (r: int)
    ensures r == cake.GetPrice(size)
  {
    if size == SIZE_SMALL then cake.priceSmall
    else if size == SIZE_MEDIUM then cake.priceMedium
    else if size == SIZE_LARGE then cake.priceLarge
    else cake.priceSmall
  }

  /** The key lines are merged on: the cake's name (not its id) and the size. */
  function Key(item: CartItem): (string, string)
  {
    (item.cake.name, item.size)
  }

  /** At most one line per key. */
  predicate UniqueKeys(items: seq<CartItem>)
  {
    forall i, j :: 0 <= i < j < |items| ==> Key(items[i]) != Key(items[j])
  }

  /** Every line has a quantity of at least one. */
  predicate AllPositive(items: seq<CartItem>)
  {
    forall i :: 0 <= i < |items| ==> items[i].quantity > 0
  }

  /** `find { it.cake.name == name && it.size == size }`, as the index of the line found. */
  function FindLine(items: seq<CartItem>, key: (string, string)): (r: Option<nat>)
    ensures r.Some? ==> r.value < |items| && Key(items[r.value]) == key
    ensures r.Some? ==> forall j :: 0 <= j < r.value ==> Key(items[j]) != key
    ensures r.None? ==> forall j :: 0 <= j < |items| ==> Key(items[j]) != key
  {
    if items == [] then None
    else if Key(items[0]) == key then Some(0)
    else match FindLine(items[1..], key)
      case None => None
      case Some(i) => Some(i + 1)
  }

  /** `map { item -> if (item == target) item.copy(quantity = q) else item }` */
  function WithQuantity(items: seq<CartItem>, target: CartItem, q: int): (r: seq<CartItem>)
    ensures |r| == |items|
    ensures forall j :: 0 <= j < |items| ==> r[j] == if items[j] == target then items[j].(quantity := q) else items[j]
  {
    if items == [] then []
    else [if items[0] == target then items[0].(quantity := q) else items[0]] + WithQuantity(items[1..], target, q)
  }

  /** The lines after `addToCart(cake, size, quantity)`. */
  function Added(items: seq<CartItem>, cake: Cake, size: string, quantity: int): seq<CartItem>
  {
    match FindLine(items, (cake.name, size))
    case Some(i) => WithQuantity(items, items[i], items[i].quantity + quantity)
    case None => items + [CartItem(cake, size, quantity)]
  }

  /** `toMutableList().remove(x)`: drops the first line equal to `x`, if any. */
  function RemoveFirst(items: seq<CartItem>, x: CartItem): (r: seq<CartItem>)
    ensures x !in items ==> r == items
    ensures x in items ==> |r| == |items| - 1
  {
    if items == [] then []
    else if items[0] == x then items[1..]
    else [items[0]] + RemoveFirst(items[1..], x)
  }

  /** The lines after `updateQuantity(target, newQuantity)`. */
  function Updated(items: seq<CartItem>, target: CartItem, newQuantity: int): seq<CartItem>
  {
    if newQuantity > 0 then WithQuantity(items, target, newQuantity) else items
  }

  /** One line's price: its size price times its quantity. */
  function LineTotal(item: CartItem): int
  {
    PriceForSize(item.cake, item.size) * item.quantity
  }

  /** `getTotalPrice()`: `sumOf` the line prices. */
  function Total(items: seq<CartItem>): int
  {
    if items == [] then 0 else LineTotal(items[0]) + Total(items[1..])
  }

  // ---------------------------------------------------------------------------
  // addToCart
  // ---------------------------------------------------------------------------

  /**
   * Adding to a key that has a line adds the quantity to that line only; the
   * line keeps its own cake record ...
   */
  lemma AddToExistingLine(items: seq<CartItem>, cake: Cake, size: string, quantity: int, i: nat)
    requires UniqueKeys(items)
    requires i < |items| && Key(items[i]) == (cake.name, size)
    ensures |Added(items, cake, size, quantity)| == |items|
    ensures Added(items, cake, size, quantity)[i] == items[i].(quantity := items[i].quantity + quantity)
    ensures forall j :: 0 <= j < |items| && j != i ==> Added(items, cake, size, quantity)[j] == items[j]
  {
    var r := Added(items, cake, size, quantity);
    assert FindLine(items, (cake.name, size)) == Some(i);
    forall j | 0 <= j < |items| && j != i ensures r[j] == items[j] {
      assert Key(items[j]) != Key(items[i]);
    }
  }

  /** Raising one line's quantity by `d`, and nothing else, raises the total by `d` times that line's size price. */
  lemma TotalRaiseLine(a: seq<CartItem>, b: seq<CartItem>, i: nat, d: int)
    requires |a| == |b| && i < |a|
    requires b[i] == a[i].(quantity := a[i].quantity + d)
    requires forall j :: 0 <= j < |a| && j != i ==> a[j] == b[j]
    ensures Total(b) == Total(a) + PriceForSize(a[i].cake, a[i].size) * d
  {
    TotalChangeOneLine(a, b, i);
    LineTotalRaised(a[i], b[i], d);
  }

  lemma LineTotalRaised(x: CartItem, y: CartItem, d: int)
    requires y == x.(quantity := x.quantity + d)
    ensures LineTotal(y) == LineTotal(x) + PriceForSize(x.cake, x.size) * d
  {
    Distribute(PriceForSize(x.cake, x.size), x.quantity, d);
  }

  lemma Distribute(p: int, q: int, d: int)
    ensures p * (q + d) == p * q + p * d
  {
  }

  /** ... so the total grows by that line's own size price times the quantity added. */
  lemma AddToExistingTotal(items: seq<CartItem>, cake: Cake, size: string, quantity: int, i: nat)
    requires UniqueKeys(items)
    requires i < |items| && Key(items[i]) == (cake.name, size)
    ensures Total(Added(items, cake, size, quantity)) == Total(items) + PriceForSize(items[i].cake, size) * quantity
  {
    AddToExistingLine(items, cake, size, quantity, i);
    TotalRaiseLine(items, Added(items, cake, size, quantity), i, quantity);
  }

  /** Adding a key with no line appends one line at the end and changes nothing else. */
  lemma AddNewLine(items: seq<CartItem>, cake: Cake, size: string, quantity: int)
    requires forall j :: 0 <= j < |items| ==> Key(items[j]) != (cake.name, size)
    ensures Added(items, cake, size, quantity) == items + [CartItem(cake, size, quantity)]
    ensures Total(Added(items, cake, size, quantity)) == Total(items) + PriceForSize(cake, size) * quantity
  {
    TotalAppend(items, [CartItem(cake, size, quantity)]);
  }

  lemma AddedKeepsInvariants(items: seq<CartItem>, cake: Cake, size: string, quantity: int)
    ensures UniqueKeys(items) ==> UniqueKeys(Added(items, cake, size, quantity))
    ensures AllPositive(items) && quantity > 0 ==> AllPositive(Added(items, cake, size, quantity))
  {
    var r := Added(items, cake, size, quantity);
    match FindLine(items, (cake.name, size))
    case Some(i) =>
      assert forall j :: 0 <= j < |r| ==> Key(r[j]) == Key(items[j]);
    case None =>
  }

  // ---------------------------------------------------------------------------
  // removeFromCart, updateQuantity
  // ---------------------------------------------------------------------------

  /** Cutting position `k` out of a tail and putting the head back cuts position `k + 1` out of the whole. */
  lemma CutUnderHead<T>(s: seq<T>, k: nat)
    requires 0 < |s| && k < |s| - 1
    ensures [s[0]] + (s[1..][..k] + s[1..][k + 1..]) == s[..k + 1] + s[k + 2..]
  {
    assert s[..k + 1] == [s[0]] + s[1..][..k];
    assert s[k + 2..] == s[1..][k + 1..];
  }

  /** Removing deletes exactly the first equal line and keeps the others in order. */
  lemma {:induction false} RemoveFirstSplits(items: seq<CartItem>, x: CartItem)
    requires x in items
    ensures RemoveFirst(items, x) == items[..FirstIndex(items, x)] + items[FirstIndex(items, x) + 1..]
  {
    if items[0] == x {
      assert items[..0] + items[1..] == items[1..];
    } else {
      var tail := items[1..];
      var k := FirstIndex(tail, x);
      assert RemoveFirst(items, x) == [items[0]] + (tail[..k] + tail[k + 1..]) by {
        RemoveFirstSplits(tail, x);
      }
      assert FirstIndex(items, x) == k + 1;
      CutUnderHead(items, k);
    }
  }

  /** Removing takes away one copy of the line and nothing else. */
  lemma RemoveFirstMultiset(items: seq<CartItem>, x: CartItem)
    requires x in items
    ensures multiset(RemoveFirst(items, x)) == multiset(items) - multiset{x}
  {
    var k := FirstIndex(items, x);
    RemoveFirstSplits(items, x);
    assert items == items[..k] + [x] + items[k + 1..];
  }

  lemma RemoveFirstKeepsInvariants(items: seq<CartItem>, x: CartItem)
    ensures UniqueKeys(items) ==> UniqueKeys(RemoveFirst(items, x))
    ensures AllPositive(items) ==> AllPositive(RemoveFirst(items, x))
    ensures x in items ==> Total(RemoveFirst(items, x)) == Total(items) - LineTotal(x)
  {
    if x in items {
      var k := FirstIndex(items, x);
      RemoveFirstSplits(items, x);
      DropOneKeeps(items, k);
      TotalSplit(items, k);
      TotalAppend(items[..k], items[k + 1..]);
    }
  }

  lemma DropOneKeeps(items: seq<CartItem>, k: nat)
    requires k < |items|
    ensures UniqueKeys(items) ==> UniqueKeys(items[..k] + items[k + 1..])
    ensures AllPositive(items) ==> AllPositive(items[..k] + items[k + 1..])
  {
    var r := items[..k] + items[k + 1..];
    assert forall j :: 0 <= j < |r| ==> r[j] == items[if j < k then j else j + 1];
  }

  /**
   * `updateQuantity` with a positive quantity rewrites the quantity of the lines
   * equal to the target and nothing else; with zero or less it changes nothing.
   */
  lemma UpdatedChanges(items: seq<CartItem>, target: CartItem, newQuantity: int)
    ensures newQuantity <= 0 ==> Updated(items, target, newQuantity) == items
    ensures |Updated(items, target, newQuantity)| == |items|
    ensures forall j :: 0 <= j < |items| ==>
      Key(Updated(items, target, newQuantity)[j]) == Key(items[j]) &&
      Updated(items, target, newQuantity)[j].cake == items[j].cake &&
      Updated(items, target, newQuantity)[j].quantity ==
        (if newQuantity > 0 && items[j] == target then newQuantity else items[j].quantity)
    ensures UniqueKeys(items) ==> UniqueKeys(Updated(items, target, newQuantity))
    ensures AllPositive(items) ==> AllPositive(Updated(items, target, newQuantity))
  {
  }

  /** With one line per key, only the target line itself equals the target. */
  lemma OnlyLineEqual(items: seq<CartItem>, i: nat, q: int)
    requires UniqueKeys(items) && i < |items|
    ensures forall j :: 0 <= j < |items| && j != i ==> WithQuantity(items, items[i], q)[j] == items[j]
  {
    forall j | 0 <= j < |items| && j != i ensures items[j] != items[i] {
      if i < j { assert Key(items[i]) != Key(items[j]); } else { assert Key(items[j]) != Key(items[i]); }
    }
  }

  /** With one line per key, updating a line changes the total by that line's price only. */
  lemma UpdatedTotal(items: seq<CartItem>, i: nat, newQuantity: int)
    requires UniqueKeys(items) && i < |items| && newQuantity > 0
    ensures Total(Updated(items, items[i], newQuantity))
         == Total(items) - LineTotal(items[i]) + LineTotal(items[i].(quantity := newQuantity))
  {
    var r := WithQuantity(items, items[i], newQuantity);
    OnlyLineEqual(items, i, newQuantity);
    TotalChangeOneLine(items, r, i);
  }

  // ---------------------------------------------------------------------------
  // getTotalPrice
  // ---------------------------------------------------------------------------

  lemma {:induction false} TotalAppend(a: seq<CartItem>, b: seq<CartItem>)
    ensures Total(a + b) == Total(a) + Total(b)
  {
    if a != [] {
      TotalAppend(a[1..], b);
      assert (a + b)[0] == a[0];
      assert (a + b)[1..] == a[1..] + b;
    } else {
      assert a + b == b;
    }
  }

  /** The total depends only on which lines there are, not on their order. */
  lemma {:induction false} TotalPermutation(a: seq<CartItem>, b: seq<CartItem>)
    requires multiset(a) == multiset(b)
    ensures Total(a) == Total(b)
  {
    if a != [] {
      assert a[0] in multiset(b);
      var k := FirstIndex(b, a[0]);
      var rest := b[..k] + b[k + 1..];
      RemoveAtMultiset(a, 0);
      assert a[..0] + a[1..] == a[1..];
      assert multiset(a[1..]) == multiset(a) - multiset{a[0]};
      RemoveAtMultiset(b, k);
      assert multiset(rest) == multiset(b) - multiset{a[0]};
      TotalPermutation(a[1..], rest);
      TotalSplit(b, k);
      TotalAppend(b[..k], b[k + 1..]);
    } else {
      assert |multiset(b)| == 0;
    }
  }

  lemma TotalSplit(a: seq<CartItem>, k: nat)
    requires k < |a|
    ensures Total(a) == Total(a[..k]) + LineTotal(a[k]) + Total(a[k + 1..])
  {
    var tail := [a[k]] + a[k + 1..];
    assert a == a[..k] + tail;
    TotalAppend(a[..k], tail);
    assert tail[1..] == a[k + 1..];
  }

  lemma TotalChangeOneLine(a: seq<CartItem>, b: seq<CartItem>, i: nat)
    requires |a| == |b| && i < |a|
    requires forall j :: 0 <= j < |a| && j != i ==> a[j] == b[j]
    ensures Total(b) == Total(a) - LineTotal(a[i]) + LineTotal(b[i])
  {
    assert a[..i] == b[..i] && a[i + 1..] == b[i + 1..];
    TotalSplit(a, i);
    TotalSplit(b, i);
  }

  // ---------------------------------------------------------------------------
  // The view model
  // ---------------------------------------------------------------------------

  class CartViewModel {
    var cartItems: seq<CartItem>
    var collectionDateTime: Option<(LocalDate, LocalTime)>

    /** An empty cart with no collection slot. */
    constructor ()
      ensures cartItems == [] && collectionDateTime == None
    {
      cartItems := [];
      collectionDateTime := None;
    }

    /** The cart's invariant under the page guards: one line per key, quantities of one or more. */
    predicate Valid()
      reads this
    {
      UniqueKeys(cartItems) && AllPositive(cartItems)
    }

    method AddToCart(cake: Cake, size: string, quantity: int)
      modifies this
      ensures cartItems == Added(old(cartItems), cake, size, quantity)
      ensures collectionDateTime == old(collectionDateTime)
      ensures UniqueKeys(old(cartItems)) ==> UniqueKeys(cartItems)
      ensures old(Valid()) && quantity > 0 ==> Valid()
    {
      AddedKeepsInvariants(cartItems, cake, size, quantity);
      cartItems := Added(cartItems, cake, size, quantity);
    }

    method RemoveFromCart(item: CartItem)
      modifies this
      ensures cartItems == RemoveFirst(old(cartItems), item)
      ensures collectionDateTime == old(collectionDateTime)
      ensures old(Valid()) ==> Valid()
    {
      RemoveFirstKeepsInvariants(cartItems, item);
      cartItems := RemoveFirst(cartItems, item);
    }

    method UpdateQuantity(item: CartItem, newQuantity: int)
      modifies this
      ensures cartItems == Updated(old(cartItems), item, newQuantity)
      ensures newQuantity <= 0 ==> cartItems == old(cartItems)
      ensures collectionDateTime == old(collectionDateTime)
      ensures old(Valid()) ==> Valid()
    {
      UpdatedChanges(cartItems, item, newQuantity);
      if newQuantity > 0 {
        cartItems := WithQuantity(cartItems, item, newQuantity);
      }
    }

    method ClearCart()
      modifies this
      ensures cartItems == [] && Total(cartItems) == 0
      ensures collectionDateTime == old(collectionDateTime)
      ensures Valid()
    {
      cartItems := [];
    }

    method SetCollectionDateTime(date: LocalDate, time: LocalTime)
      modifies this
      ensures collectionDateTime == Some((date, time))
      ensures cartItems == old(cartItems)
    {
      collectionDateTime := Some((date, time));
    }
  }
}

=== FILE: cart_page.dfy ===
/**
 * The cart screen (`pages/CartPage.kt`): its own total and line prices, the
 * enablement of the decrease and proceed buttons, and the handlers that
 * forward to the cart.
 */
module CartScreen {
  import opened Cakes
  import opened Cart

  /** The `when (item.size)` written inline in the total and in each card. */
  function ShownSizePrice(item: CartItem): (r: int)
    ensures r == PriceForSize(item.cake, item.size)
  {
    if item.size == SIZE_SMALL then item.cake.priceSmall
    else if item.size == SIZE_MEDIUM then item.cake.priceMedium
    else if item.size == SIZE_LARGE then item.cake.priceLarge
    else item.cake.priceSmall
  }

  /** The "Price: RM …" of one card: the size price times the quantity. */
  function ShownLinePrice(item: CartItem): (r: int)
    ensures r == LineTotal(item)
  {
    ShownSizePrice(item) * item.quantity
  }

  /** The total shown at the bottom: the same sum as `getTotalPrice`. */
  function DisplayedTotal(items: seq<CartItem>): (r: int)
    ensures r == Total(items)
  {
    if items == [] then 0 else ShownLinePrice(items[0]) + DisplayedTotal(items[1..])
  }

  /** The decrease arrow of a card is enabled only above one. */
  predicate DecreaseEnabled(item: CartItem)
  {
    item.quantity > 1
  }

  /** "Proceed to Order Details" is enabled for a non-empty cart. */
  predicate ProceedEnabled(items: seq<CartItem>)
  {
    items != []
  }

  /** "No items in the cart" is shown for an empty cart. */
  predicate ShowsEmptyMessage(items: seq<CartItem>)
  {
    items == []
  }

  /** Proceeding is possible exactly when the empty-cart message is not shown, and then there is a line to order. */
  lemma ProceedIffNotEmpty(items: seq<CartItem>)
    ensures ProceedEnabled(items) <==> !ShowsEmptyMessage(items)
    ensures ProceedEnabled(items) <==> |items| > 0
  {
  }

  /** The increase arrow: `updateQuantity(item, item.quantity + 1)`. */
  method OnIncrease(cart: CartViewModel, item: CartItem)
    modifies cart
    ensures cart.cartItems == Updated(old(cart.cartItems), item, item.quantity + 1)
    ensures cart.collectionDateTime == old(cart.collectionDateTime)
    ensures old(cart.Valid()) ==> cart.Valid()
  {
    cart.UpdateQuantity(item, item.quantity + 1);
  }

  /**
   * The decrease arrow, which can only be pressed while enabled: it never asks
   * for zero, so it always takes effect and the quantities stay positive.
   */
  method OnDecrease(cart: CartViewModel, item: CartItem)
    requires DecreaseEnabled(item)
    modifies cart
    ensures cart.cartItems == Updated(old(cart.cartItems), item, item.quantity - 1)
    ensures |cart.cartItems| == |old(cart.cartItems)|
    ensures forall j :: 0 <= j < |cart.cartItems| ==>
      cart.cartItems[j].cake == old(cart.cartItems)[j].cake && cart.cartItems[j].size == old(cart.cartItems)[j].size
    ensures forall j :: 0 <= j < |cart.cartItems| ==>
      cart.cartItems[j].quantity == (if old(cart.cartItems)[j] == item then item.quantity - 1 else old(cart.cartItems)[j].quantity)
    ensures cart.collectionDateTime == old(cart.collectionDateTime)
    ensures old(cart.Valid()) ==> cart.Valid()
  {
    UpdatedChanges(cart.cartItems, item, item.quantity - 1);
    cart.UpdateQuantity(item, item.quantity - 1);
  }

  /** The remove button: `removeFromCart(item)`. */
  method OnRemove(cart: CartViewModel, item: CartItem)
    modifies cart
    ensures cart.cartItems == RemoveFirst(old(cart.cartItems), item)
    ensures cart.collectionDateTime == old(cart.collectionDateTime)
    ensures item in old(cart.cartItems) ==> DisplayedTotal(cart.cartItems) == DisplayedTotal(old(cart.cartItems)) - ShownLinePrice(item)
    ensures old(cart.Valid()) ==> cart.Valid()
  {
    RemoveFirstKeepsInvariants(cart.cartItems, item);
    cart.RemoveFromCart(item);
  }
}

=== FILE: edit_cake_page.dfy ===
/**
 * The admin's "Edit Cake" form (`pages/EditCakePage.kt`): loading the fetched
 * cake into the form, the six field checks run one after another, and the
 * `updateCake` call.
 */
module EditCake {
  import opened Wrappers
  import opened Text
  import opened Numerals
  import opened Cakes
  import opened CakeStore

  const CATEGORY_PLACEHOLDER: string := "Select a cake category"
  const NAME_ERROR: string := "Please enter a valid cake name"
  const DESCRIPTION_ERROR: string := "Please enter a description"
  const SMALL_PRICE_ERROR: string := "Enter a valid price for small cake"
  const MEDIUM_PRICE_ERROR: string := "Enter a valid price for medium cake"
  const LARGE_PRICE_ERROR: string := "Enter a valid price for large cake"
  const CATEGORY_ERROR: string := "Please select a valid category"
  const PRODUCT_MANAGEMENT: string := "productManagement"

  /** A price field passes when its text parses to more than zero. */
  predicate PriceValid(text: string)
  {
    ParseCents(text).Some? && ParseCents(text).value > 0
  }

  /** What the six checks accept together. */
  predicate FormValid(name: string, description: string, priceSmall: string, priceMedium: string, priceLarge: string,
                      category: string)
  {
    !IsBlank(name) && !IsBlank(description) && PriceValid(priceSmall) && PriceValid(priceMedium) && PriceValid(priceLarge)
    && category != CATEGORY_PLACEHOLDER
  }

  /** The arguments of the `updateCake` call, prices in cents. */
  datatype UpdateRequest = UpdateRequest(
    cakeId: string,
    name: string,
    description: string,
    priceSmall: int,
    priceMedium: int,
    priceLarge: int,
    category: string,
    newImageUri: Option<string>)

  /** A cake's stored prices, shown with `toString()`, pass the price checks when they are positive. */
  lemma LoadedPricesValid(cake: Cake)
    requires cake.priceSmall > 0 && cake.priceMedium > 0 && cake.priceLarge > 0
    ensures PriceValid(FormatCents(cake.priceSmall)) && ParseCents(FormatCents(cake.priceSmall)) == Some(cake.priceSmall)
    ensures PriceValid(FormatCents(cake.priceMedium)) && ParseCents(FormatCents(cake.priceMedium)) == Some(cake.priceMedium)
    ensures PriceValid(FormatCents(cake.priceLarge)) && ParseCents(FormatCents(cake.priceLarge)) == Some(cake.priceLarge)
  {
    CentsRoundTrip(cake.priceSmall);
    CentsRoundTrip(cake.priceMedium);
    CentsRoundTrip(cake.priceLarge);
  }

  /** The form's inputs: the six text fields and the newly picked image. */
  datatype EditForm = EditForm(
    name: string,
    description: string,
    priceSmall: string,
    priceMedium: string,
    priceLarge: string,
    category: string,
    imageUri: Option<string>)

  /** The message under each field, if any. */
  datatype FieldErrors = FieldErrors(
    name: Option<string>,
    description: Option<string>,
    priceSmall: Option<string>,
    priceMedium: Option<string>,
    priceLarge: Option<string>,
    category: Option<string>)

  /** The form fields take the cake's values, prices as `toString()` prints them, and no new image. */
  predicate ShowsCake(form: EditForm, cake: Cake)
  {
    form.name == cake.name && form.description == cake.description
    && form.priceSmall == FormatCents(cake.priceSmall) && form.priceMedium == FormatCents(cake.priceMedium)
    && form.priceLarge == FormatCents(cake.priceLarge) && form.category == cake.category && form.imageUri == None
  }

  /**
   * The screen's state: the inputs, the field errors, and the fetched cake
   * last copied into the form (each is a `remember`ed state of its own in
   * the composable; here the inputs and the errors are grouped).
   */
  class EditCakePage {
    var form: EditForm
    var errors: FieldErrors
    var loaded: Option<Cake>

    constructor ()
      ensures form == EditForm("", "", "", "", "", CATEGORY_PLACEHOLDER, None)
      ensures errors == FieldErrors(None, None, None, None, None, None) && loaded == None
    {
      form := EditForm("", "", "", "", "", CATEGORY_PLACEHOLDER, None);
      errors := FieldErrors(None, None, None, None, None, None);
      loaded := None;
    }

    /**
     * The `cake?.let { … }` block as the screen has it: it sits in the
     * composable body of `EditCakePage`, so it runs each time that body runs
     * again and copies the fetched cake over whatever the form holds.
     */
    method LoadFromCakeAsWritten(cake: Option<Cake>)
      modifies this
      ensures cake.Some? ==> ShowsCake(form, cake.value)
      ensures cake.None? ==> form == old(form)
      ensures errors == old(errors) && loaded == old(loaded)
    {
      if cake.Some? {
        CopyCake(cake.value);
      }
    }

    /**
     * The load as intended: the fetched cake is copied into the form once,
     * when it arrives (or changes), and later runs of the body keep the edits.
     */
    method LoadFromCake(cake: Option<Cake>)
      modifies this
      ensures cake != old(loaded) ==> loaded == cake
      ensures cake != old(loaded) && cake.Some? ==> ShowsCake(form, cake.value)
      ensures cake == old(loaded) || cake.None? ==> form == old(form)
      ensures cake == old(loaded) ==> loaded == old(loaded)
      ensures errors == old(errors)
    {
      if cake != loaded {
        loaded := cake;
        if cake.Some? {
          CopyCake(cake.value);
        }
      }
    }

    method CopyCake(cake: Cake)
      modifies this
      ensures ShowsCake(form, cake)
      ensures errors == old(errors) && loaded == old(loaded)
    {
      form := EditForm(cake.name, cake.description, FormatCents(cake.priceSmall), FormatCents(cake.priceMedium),
                       FormatCents(cake.priceLarge), cake.category, None);
    }

    /** The name field's `onValueChange`. */
    method OnNameChange(value: string)
      modifies this
      ensures form == old(form).(name := value)
      ensures errors == old(errors) && loaded == old(loaded)
    {
      form := form.(name := value);
    }

    /** The image picker's result. */
    method OnImagePicked(uri: Option<string>)
      modifies this
      ensures form == old(form).(imageUri := uri)
      ensures errors == old(errors) && loaded == old(loaded)
    {
      form := form.(imageUri := uri);
    }

    /**
     * The six checks of "Save Changes", in order: each failing one sets its
     * field's error, none clears an error, and none stops the others.
     */
    method RunChecks() returns (isValid: bool)
      modifies this
      ensures isValid == FormValid(form.name, form.description, form.priceSmall, form.priceMedium, form.priceLarge,
                                   form.category)
      ensures errors.name == (if IsBlank(form.name) then Some(NAME_ERROR) else old(errors.name))
      ensures errors.description == (if IsBlank(form.description) then Some(DESCRIPTION_ERROR) else old(errors.description))
      ensures errors.priceSmall == (if !PriceValid(form.priceSmall) then Some(SMALL_PRICE_ERROR) else old(errors.priceSmall))
      ensures errors.priceMedium == (if !PriceValid(form.priceMedium) then Some(MEDIUM_PRICE_ERROR) else old(errors.priceMedium))
      ensures errors.priceLarge == (if !PriceValid(form.priceLarge) then Some(LARGE_PRICE_ERROR) else old(errors.priceLarge))
      ensures errors.category == (if form.category == CATEGORY_PLACEHOLDER then Some(CATEGORY_ERROR) else old(errors.category))
      ensures form == old(form) && loaded == old(loaded)
    {
      isValid := true;
      if IsBlank(form.name) {
        errors := errors.(name := Some(NAME_ERROR));
        isValid := false;
      }
      if IsBlank(form.description) {
        errors := errors.(description := Some(DESCRIPTION_ERROR));
        isValid := false;
      }
      if !PriceValid(form.priceSmall) {
        errors := errors.(priceSmall := Some(SMALL_PRICE_ERROR));
        isValid := false;
      }
      if !PriceValid(form.priceMedium) {
        errors := errors.(priceMedium := Some(MEDIUM_PRICE_ERROR));
        isValid := false;
      }
      if !PriceValid(form.priceLarge) {
        errors := errors.(priceLarge := Some(LARGE_PRICE_ERROR));
        isValid := false;
      }
      if form.category == CATEGORY_PLACEHOLDER {
        errors := errors.(category := Some(CATEGORY_ERROR));
        isValid := false;
      }
    }

    /**
     * "Save Changes": when every check passes, `updateCake` is called with
     * the parsed prices (its remote outcomes are `upload` and `write`) and
     * the screen goes back to product management.
     */
    method OnSaveClicked(cakeId: string, cakeViewModel: CakeViewModel, upload: Option<string>, write: WriteOutcome)
      returns (request: Option<UpdateRequest>, navigateTo: Option<string>)
      modifies this, cakeViewModel
      ensures errors.name == (if IsBlank(form.name) then Some(NAME_ERROR) else old(errors.name))
      ensures errors.description == (if IsBlank(form.description) then Some(DESCRIPTION_ERROR) else old(errors.description))
      ensures errors.priceSmall == (if !PriceValid(form.priceSmall) then Some(SMALL_PRICE_ERROR) else old(errors.priceSmall))
      ensures errors.priceMedium == (if !PriceValid(form.priceMedium) then Some(MEDIUM_PRICE_ERROR) else old(errors.priceMedium))
      ensures errors.priceLarge == (if !PriceValid(form.priceLarge) then Some(LARGE_PRICE_ERROR) else old(errors.priceLarge))
      ensures errors.category == (if form.category == CATEGORY_PLACEHOLDER then Some(CATEGORY_ERROR) else old(errors.category))
      ensures form == old(form) && loaded == old(loaded)
      ensures request.Some? <==> FormValid(form.name, form.description, form.priceSmall, form.priceMedium, form.priceLarge,
                                           form.category)
      ensures request.Some? ==> request.value == UpdateRequest(cakeId, form.name, form.description,
        ParseCents(form.priceSmall).value, ParseCents(form.priceMedium).value, ParseCents(form.priceLarge).value,
        form.category, form.imageUri)
      ensures request.Some? ==> navigateTo == Some(PRODUCT_MANAGEMENT) && cakeViewModel.cakeState.Some?
      ensures request.None? ==> navigateTo == None && unchanged(cakeViewModel)
      ensures cakeViewModel.cakeList == old(cakeViewModel.cakeList)
    {
      var isValid := RunChecks();
      request := None;
      navigateTo := None;
      if isValid {
        var q := UpdateRequest(cakeId, form.name, form.description, ParseCents(form.priceSmall).GetOr(0),
                               ParseCents(form.priceMedium).GetOr(0), ParseCents(form.priceLarge).GetOr(0),
                               form.category, form.imageUri);
        var states, path, written := cakeViewModel.UpdateCake(q.cakeId, q.name, q.description, q.priceSmall, q.priceMedium,
                                                              q.priceLarge, q.category, q.newImageUri, upload, write);
        request := Some(q);
        navigateTo := Some(PRODUCT_MANAGEMENT);
      }
    }
  }

  /**
   * As written: once the cake has been fetched, a typed name and a picked
   * image are both gone the next time `EditCakePage`'s own body runs, for
   * instance when the navigation host calls it again. The edit itself only
   * recomposes the form's content, which does not run the copy.
   */
  method EditLostAsWritten(cake: Cake, typed: string, picked: string) returns (shownName: string, shownImage: Option<string>)
    ensures shownName == cake.name && shownImage == None
  {
    var page := new EditCakePage();
    page.LoadFromCakeAsWritten(Some(cake));
    page.OnNameChange(typed);
    page.OnImagePicked(Some(picked));
    page.LoadFromCakeAsWritten(Some(cake));
    shownName := page.form.name;
    shownImage := page.form.imageUri;
  }

  /** With the cake copied in once, the same edits survive a later run of the body. */
  method EditKeptOnRecompose(cake: Cake, typed: string, picked: string) returns (shownName: string, shownImage: Option<string>)
    ensures shownName == typed && shownImage == Some(picked)
  {
    var page := new EditCakePage();
    page.LoadFromCake(Some(cake));
    page.OnNameChange(typed);
    page.OnImagePicked(Some(picked));
    page.LoadFromCake(Some(cake));
    shownName := page.form.name;
    shownImage := page.form.imageUri;
  }
}

=== FILE: grouping.dfy ===
/**
 * Group-and-sum into a `mutableMapOf` (a `LinkedHashMap`): each step does
 * `m[k] = m.getOrDefault(k, 0) + v`. The map remembers its keys in the order
 * they were first inserted, and `map { … }` over it follows that order.
 */
module Grouping {
  import opened Seqs

  /** The accumulator: its keys in insertion order, and the running total of each. */
  datatype Groups<K(==)> = Groups(keys: seq<K>, totals: map<K, int>)

  /** The empty `mutableMapOf()` */
  function NoGroups<K(==)>(): (g: Groups<K>)
    ensures g.keys == [] && g.totals == map[]
  {
    Groups([], map[])
  }

  /** `m[k] = m.getOrDefault(k, 0) + v` */
  function AddTo<K(==)>(g: Groups<K>, k: K, v: int): (r: Groups<K>)
    ensures k in r.totals && r.totals[k] == (if k in g.totals then g.totals[k] else 0) + v
    ensures forall x :: x in g.totals && x != k ==> x in r.totals && r.totals[x] == g.totals[x]
    ensures r.keys == if k in g.totals then g.keys else g.keys + [k]
  {
    var old_total := if k in g.totals then g.totals[k] else 0;
    Groups(if k in g.totals then g.keys else g.keys + [k], g.totals[k := old_total + v])
  }

  /** The map after the loop has gone through all of `pairs` (key, amount) in order. */
  function Accumulate<K(==)>(pairs: seq<(K, int)>): (g: Groups<K>)
    ensures forall i :: 0 <= i < |g.keys| ==> g.keys[i] in g.totals
  {
    if pairs == [] then NoGroups()
    else AddTo(Accumulate(pairs[..|pairs| - 1]), pairs[|pairs| - 1].0, pairs[|pairs| - 1].1)
  }

  /** The keys of `pairs`, in order, with repetitions. */
  function Firsts<K>(pairs: seq<(K, int)>): (r: seq<K>)
    ensures |r| == |pairs|
    ensures forall i :: 0 <= i < |pairs| ==> r[i] == pairs[i].0
  {
    if pairs == [] then [] else Firsts(pairs[..|pairs| - 1]) + [pairs[|pairs| - 1].0]
  }

  /** Sum of the amounts paired with key `k`. */
  function KeySum<K(==)>(pairs: seq<(K, int)>, k: K): int
  {
    if pairs == [] then 0
    else KeySum(pairs[..|pairs| - 1], k) + (if pairs[|pairs| - 1].0 == k then pairs[|pairs| - 1].1 else 0)
  }

  /** Sum of all amounts. */
  function TotalSum<K>(pairs: seq<(K, int)>): int
  {
    if pairs == [] then 0 else TotalSum(pairs[..|pairs| - 1]) + pairs[|pairs| - 1].1
  }

  /** Sum of the totals of the listed keys. */
  function SumOver<K(==)>(keys: seq<K>, totals: map<K, int>): int
    requires forall i :: 0 <= i < |keys| ==> keys[i] in totals
  {
    if keys == [] then 0 else SumOver(keys[..|keys| - 1], totals) + totals[keys[|keys| - 1]]
  }

  /** Accumulating one more pair is one more `AddTo`: the step each grouping loop takes. */
  lemma AccumulateStep<K>(done: seq<(K, int)>, k: K, v: int)
    ensures Accumulate(done + [(k, v)]) == AddTo(Accumulate(done), k, v)
  {
    assert (done + [(k, v)])[..|done|] == done;
  }

  /**
   * The keys of the map are the distinct keys of the input in order of first
   * appearance, and they are exactly the keys that have a total.
   */
  lemma {:induction false} AccumulateKeys<K>(pairs: seq<(K, int)>)
    ensures Accumulate(pairs).keys == Distinct(Firsts(pairs))
    ensures forall k :: k in Accumulate(pairs).totals <==> k in Accumulate(pairs).keys
  {
    if pairs != [] {
      var n := |pairs| - 1;
      AccumulateKeys(pairs[..n]);
      assert Firsts(pairs)[..n] == Firsts(pairs[..n]);
    }
  }

  /** Every total is the sum of the amounts paired with its key. */
  lemma {:induction false} AccumulateTotals<K>(pairs: seq<(K, int)>, k: K)
    ensures k in Accumulate(pairs).totals <==> k in Firsts(pairs)
    ensures k in Accumulate(pairs).totals ==> Accumulate(pairs).totals[k] == KeySum(pairs, k)
  {
    if pairs != [] {
      var n := |pairs| - 1;
      AccumulateTotals(pairs[..n], k);
      assert Firsts(pairs) == Firsts(pairs[..n]) + [pairs[n].0];
      if k !in Firsts(pairs[..n]) {
        KeySumAbsent(pairs[..n], k);
      }
    }
  }

  lemma {:induction false} KeySumAbsent<K>(pairs: seq<(K, int)>, k: K)
    requires k !in Firsts(pairs)
    ensures KeySum(pairs, k) == 0
  {
    if pairs != [] {
      var n := |pairs| - 1;
      assert Firsts(pairs) == Firsts(pairs[..n]) + [pairs[n].0];
      KeySumAbsent(pairs[..n], k);
    }
  }

  lemma {:induction false} SumOverFrame<K>(keys: seq<K>, t1: map<K, int>, t2: map<K, int>)
    requires forall i :: 0 <= i < |keys| ==> keys[i] in t1 && keys[i] in t2 && t1[keys[i]] == t2[keys[i]]
    ensures SumOver(keys, t1) == SumOver(keys, t2)
  {
    if keys != [] {
      SumOverFrame(keys[..|keys| - 1], t1, t2);
    }
  }

  lemma {:induction false} SumOverUpdate<K>(keys: seq<K>, t: map<K, int>, k: K, v: int)
    requires NoDuplicates(keys) && k in keys && k in t
    requires forall i :: 0 <= i < |keys| ==> keys[i] in t
    ensures SumOver(keys, t[k := t[k] + v]) == SumOver(keys, t) + v
  {
    var n := |keys| - 1;
    var init := keys[..n];
    var t2 := t[k := t[k] + v];
    if keys[n] == k {
      assert k !in init;
      SumOverFrame(init, t, t2);
    } else {
      assert k in init by {
        var i :| 0 <= i < |keys| && keys[i] == k;
        assert i < n && init[i] == k;
      }
      SumOverUpdate(init, t, k, v);
    }
  }

  /** Each key is listed once, and exactly the listed keys have a total. */
  predicate Consistent<K(==)>(g: Groups<K>)
  {
    && NoDuplicates(g.keys)
    && (forall i :: 0 <= i < |g.keys| ==> g.keys[i] in g.totals)
    && (forall k :: k in g.totals ==> k in g.keys)
  }

  /** Sum of all totals, key by key in insertion order. */
  function GrandTotal<K(==)>(g: Groups<K>): int
    requires Consistent(g)
  {
    SumOver(g.keys, g.totals)
  }

  lemma AccumulateConsistent<K>(pairs: seq<(K, int)>)
    ensures Consistent(Accumulate(pairs))
  {
    AccumulateKeys(pairs);
    DistinctElements(Firsts(pairs));
  }

  /** One `getOrDefault` update keeps each key listed once. */
  lemma AddToConsistent<K>(g: Groups<K>, k: K, v: int)
    requires Consistent(g)
    ensures Consistent(AddTo(g, k, v))
  {
    var g2 := AddTo(g, k, v);
    if k !in g.totals {
      forall i, j | 0 <= i < j < |g2.keys| ensures g2.keys[i] != g2.keys[j] {
        if j == |g.keys| {
          assert g.keys[i] in g.totals;
        }
      }
    }
  }

  /** One `getOrDefault` update adds its amount to the grand total. */
  lemma AddToGrandTotal<K>(g: Groups<K>, k: K, v: int)
    requires Consistent(g)
    ensures Consistent(AddTo(g, k, v))
    ensures GrandTotal(AddTo(g, k, v)) == GrandTotal(g) + v
  {
    AddToConsistent(g, k, v);
    var g2 := AddTo(g, k, v);
    if k in g.totals {
      SumOverUpdate(g.keys, g.totals, k, v);
    } else {
      assert SumOver(g.keys, g2.totals) == SumOver(g.keys, g.totals) by {
        forall i | 0 <= i < |g.keys| ensures g.keys[i] in g2.totals && g2.totals[g.keys[i]] == g.totals[g.keys[i]] {
          assert g.keys[i] in g.totals;
        }
        SumOverFrame(g.keys, g.totals, g2.totals);
      }
      assert g2.keys[..|g2.keys| - 1] == g.keys;
    }
  }

  /** No amount is lost or counted twice: the totals add up to the sum of all amounts. */
  lemma {:induction false} AccumulateConserves<K>(pairs: seq<(K, int)>)
    ensures Consistent(Accumulate(pairs))
    ensures GrandTotal(Accumulate(pairs)) == TotalSum(pairs)
  {
    AccumulateConsistent(pairs);
    if pairs != [] {
      var n := |pairs| - 1;
      AccumulateConserves(pairs[..n]);
      AddToGrandTotal(Accumulate(pairs[..n]), pairs[n].0, pairs[n].1);
    }
  }

  /** `m.map { (k, v) -> mk(k, v) }`: one entry per key, in the map's key order. */
  function Listed<K(==), E>(keys: seq<K>, totals: map<K, int>, mk: (K, int) -> E): (r: seq<E>)
    requires forall i :: 0 <= i < |keys| ==> keys[i] in totals
    ensures |r| == |keys|
    ensures forall i :: 0 <= i < |keys| ==> r[i] == mk(keys[i], totals[keys[i]])
  {
    if keys == [] then []
    else Listed(keys[..|keys| - 1], totals, mk) + [mk(keys[|keys| - 1], totals[keys[|keys| - 1]])]
  }

  /** The entries of the accumulated map, for the pairs given. */
  function GroupEntries<K(==), E>(pairs: seq<(K, int)>, mk: (K, int) -> E): (r: seq<E>)
    ensures |r| == |Accumulate(pairs).keys|
  {
    Listed(Accumulate(pairs).keys, Accumulate(pairs).totals, mk)
  }

  /** Summing the entries' amounts gives the sum over the keys. */
  lemma {:induction false} ListedSum<K, E>(keys: seq<K>, totals: map<K, int>, mk: (K, int) -> E, amount: E -> int)
    requires forall i :: 0 <= i < |keys| ==> keys[i] in totals
    requires forall k, v :: amount(mk(k, v)) == v
    ensures SumBy(Listed(keys, totals, mk), amount) == SumOver(keys, totals)
  {
    if keys != [] {
      var n := |keys| - 1;
      ListedSum(keys[..n], totals, mk, amount);
      var r := Listed(keys, totals, mk);
      assert r[..n] == Listed(keys[..n], totals, mk);
    }
  }

  /** The entry at position `p` is made from a key `k` of the input and that key's sum. */
  lemma GroupKeyAt<K, E>(pairs: seq<(K, int)>, mk: (K, int) -> E, p: int) returns (k: K)
    requires 0 <= p < |GroupEntries(pairs, mk)|
    ensures k in Firsts(pairs) && GroupEntries(pairs, mk)[p] == mk(k, KeySum(pairs, k))
  {
    k := Accumulate(pairs).keys[p];
    AccumulateTotals(pairs, k);
  }

  /** In any rearrangement of the entries, each entry is made from a key `k` of the input and that key's sum. */
  lemma GroupEntryKey<K, E>(pairs: seq<(K, int)>, mk: (K, int) -> E, r: seq<E>, i: int) returns (k: K)
    requires multiset(r) == multiset(GroupEntries(pairs, mk))
    requires 0 <= i < |r|
    ensures k in Firsts(pairs) && r[i] == mk(k, KeySum(pairs, k))
  {
    var entries := GroupEntries(pairs, mk);
    assert r[i] in multiset(entries);
    var p :| 0 <= p < |entries| && entries[p] == r[i];
    k := GroupKeyAt(pairs, mk, p);
  }

  /** Any rearrangement of the entries holds the entry of each key of the input, made from that key's sum. */
  lemma GroupEntriesComplete<K, E>(pairs: seq<(K, int)>, mk: (K, int) -> E, r: seq<E>)
    requires multiset(r) == multiset(GroupEntries(pairs, mk))
    ensures forall k :: k in Firsts(pairs) ==> mk(k, KeySum(pairs, k)) in r
  {
    var g := Accumulate(pairs);
    var entries := GroupEntries(pairs, mk);
    forall k | k in Firsts(pairs) ensures mk(k, KeySum(pairs, k)) in r {
      AccumulateTotals(pairs, k);
      AccumulateKeys(pairs);
      var p :| 0 <= p < |g.keys| && g.keys[p] == k;
      assert entries[p] == mk(k, KeySum(pairs, k));
      assert entries[p] in multiset(entries);
    }
  }

  lemma ListedNoDuplicates<K, E>(keys: seq<K>, totals: map<K, int>, mk: (K, int) -> E, keyOf: E -> K)
    requires forall i :: 0 <= i < |keys| ==> keys[i] in totals
    requires NoDuplicates(keys)
    requires forall i :: 0 <= i < |keys| ==> keyOf(mk(keys[i], totals[keys[i]])) == keys[i]
    ensures NoDuplicates(Listed(keys, totals, mk))
  {
    var entries := Listed(keys, totals, mk);
    forall i, j | 0 <= i < j < |entries| ensures entries[i] != entries[j] {
      assert keyOf(entries[i]) == keys[i] && keyOf(entries[j]) == keys[j];
    }
  }

  /** When the key can be read back from an entry, no entry is listed twice. */
  lemma GroupEntriesUnique<K, E>(pairs: seq<(K, int)>, mk: (K, int) -> E, keyOf: E -> K, r: seq<E>)
    requires multiset(r) == multiset(GroupEntries(pairs, mk))
    requires forall k, v :: k in Firsts(pairs) ==> keyOf(mk(k, v)) == k
    ensures NoDuplicates(r)
  {
    var g := Accumulate(pairs);
    AccumulateKeys(pairs);
    DistinctElements(Firsts(pairs));
    forall i | 0 <= i < |g.keys| ensures keyOf(mk(g.keys[i], g.totals[g.keys[i]])) == g.keys[i] {
      AccumulateTotals(pairs, g.keys[i]);
    }
    ListedNoDuplicates(g.keys, g.totals, mk, keyOf);
    NoDuplicatesPermutation(GroupEntries(pairs, mk), r);
  }

  /** The entries' amounts add up to the sum of all amounts, in any arrangement. */
  lemma GroupEntriesConserve<K, E>(pairs: seq<(K, int)>, mk: (K, int) -> E, amount: E -> int, r: seq<E>)
    requires multiset(r) == multiset(GroupEntries(pairs, mk))
    requires forall k, v :: amount(mk(k, v)) == v
    ensures SumBy(r, amount) == TotalSum(pairs)
  {
    var g := Accumulate(pairs);
    SumByPermutation(r, GroupEntries(pairs, mk), amount);
    ListedSum(g.keys, g.totals, mk, amount);
    AccumulateConserves(pairs);
  }
}

=== FILE: login_page.dfy ===
/**
 * The sign-in screen (`pages/LoginPage.kt`): its own sign-in against the
 * shared Firebase session, the routing by the role in the user document,
 * and the password-reset request.
 */
module Login {
  import opened Wrappers
  import opened Text
  import opened Auth

  const BUTTON_BLANK: string := "Email and Password cannot be empty."
  const HANDLE_BLANK: string := "Email and password cannot be empty"
  const INVALID_ROLE: string := "Invalid role. Please contact support."
  const NO_USER_DATA: string := "User data does not exist in Firestore."
  const READ_ERROR_PREFIX: string := "Error retrieving user data: "
  const FORGOT_BUTTON_BLANK: string := "Please enter your email and click \"Forgot Password\" again to reset the password."
  const FORGOT_BLANK: string := "Please enter your email to reset the password."
  const RESET_FAILED: string := "Failed to send reset email."
  const NO_NAME: string := "No Name"
  const NO_NUMBER: string := "No Number"
  const ADMIN_ROLE: string := "admin"
  const ADMIN_HOME: string := "adminHome"
  const USER_HOME: string := "userHome"

  /** Where a finished sign-in leads: a screen, or a message under the form. */
  datatype LoginOutcome = Navigate(route: string) | ShowError(message: string)

  /** `when (role)`: the admin and user homes, anything else refused. */
  function RoleDestination(role: string): (r: LoginOutcome)
    ensures r == Navigate(ADMIN_HOME) <==> role == ADMIN_ROLE
    ensures r == Navigate(USER_HOME) <==> role == USER_ROLE
    ensures r.Navigate? || r == ShowError(INVALID_ROLE)
  {
    if role == ADMIN_ROLE then Navigate(ADMIN_HOME)
    else if role == USER_ROLE then Navigate(USER_HOME)
    else ShowError(INVALID_ROLE)
  }

  /**
   * What the read of `users/<uid>` leads to: a failed read shows its message
   * (a null message prints as "null"), a missing document its own message,
   * and a document's role, "user" when absent, picks the home screen.
   */
  function ReadOutcome(read: DocumentRead): (r: LoginOutcome)
    ensures r.Navigate? <==> read.ReadOk? && read.doc.present && read.doc.role.GetOr(USER_ROLE) in {ADMIN_ROLE, USER_ROLE}
    ensures read.ReadFailed? ==> r == ShowError(READ_ERROR_PREFIX + read.message.GetOr("null"))
    ensures read.ReadOk? && !read.doc.present ==> r == ShowError(NO_USER_DATA)
    ensures read.ReadOk? && read.doc.present && read.doc.role == None ==> r == Navigate(USER_HOME)
  {
    match read
    case ReadFailed(m) => ShowError(READ_ERROR_PREFIX + m.GetOr("null"))
    case ReadOk(doc) =>
      if doc.present then RoleDestination(doc.role.GetOr(USER_ROLE)) else ShowError(NO_USER_DATA)
  }

  /**
   * The screen and the view model read the same document differently when
   * it has no role: the screen goes to the user home, while `login` would
   * report a session with no role.
   */
  lemma MissingRoleReadsDifferently(doc: UserDocument)
    requires doc.present && doc.role == None
    ensures ReadOutcome(ReadOk(doc)) == Navigate(USER_HOME)
    ensures RoleState(ReadOk(doc)) == Authenticated(None)
  {
  }

  /** For a document with a known role, the screen's route and `login`'s state name the same role. */
  lemma ReadOutcomeAgreesWithRole(doc: UserDocument)
    requires doc.present && doc.role.Some?
    ensures ReadOutcome(ReadOk(doc)) == Navigate(ADMIN_HOME) <==> doc.role == Some(ADMIN_ROLE)
    ensures ReadOutcome(ReadOk(doc)) == Navigate(USER_HOME) <==> doc.role == Some(USER_ROLE)
    ensures RoleState(ReadOk(doc)) == Authenticated(doc.role)
  {
  }

  class LoginPage {
    var email: string
    var password: string
    var errorMessage: Option<string>
    var lastSentEmail: string

    constructor ()
      ensures email == "" && password == "" && errorMessage == None && lastSentEmail == ""
    {
      email := "";
      password := "";
      errorMessage := None;
      lastSentEmail := "";
    }

    /** Typing an email clears the message. */
    method OnEmailChange(value: string)
      modifies this
      ensures email == value && errorMessage == None
      ensures password == old(password) && lastSentEmail == old(lastSentEmail)
    {
      email := value;
      errorMessage := None;
    }

    /** Typing a password leaves the message. */
    method OnPasswordChange(value: string)
      modifies this
      ensures password == value
      ensures email == old(email) && errorMessage == old(errorMessage) && lastSentEmail == old(lastSentEmail)
    {
      password := value;
    }

    /**
     * `handleLogin`, reached from the keyboard's Done action and from the
     * button. The sign-in goes to the Firebase session the view model also
     * holds; `signIn`, `read` and `update` are how the sign-in, the read of
     * the user document and `updateUserDetails`'s write end.
     */
    method HandleLogin(authViewModel: AuthViewModel, signIn: SignInOutcome, read: DocumentRead, update: TaskOutcome)
      returns (navigateTo: Option<string>)
      modifies this, authViewModel
      ensures IsBlank(email) || IsBlank(password) ==>
        errorMessage == Some(HANDLE_BLANK) && navigateTo == None && unchanged(authViewModel)
      ensures !IsBlank(email) && !IsBlank(password) && signIn.SignInFailed? ==>
        errorMessage == Some(signIn.message.GetOr(Auth.LOGIN_FAILED)) && navigateTo == None && unchanged(authViewModel)
      ensures !IsBlank(email) && !IsBlank(password) && signIn.SignedIn? ==>
        authViewModel.currentUser == Some(signIn.user) && authViewModel.userEmail == signIn.user.email
        && (ReadOutcome(read).Navigate? ==> navigateTo == Some(ReadOutcome(read).route) && errorMessage == old(errorMessage))
        && (ReadOutcome(read).ShowError? ==> navigateTo == None && errorMessage == Some(ReadOutcome(read).message))
      ensures !IsBlank(email) && !IsBlank(password) && signIn.SignedIn? && !(read.ReadOk? && read.doc.present) ==>
        authViewModel.authState == old(authViewModel.authState)
        && authViewModel.fullName == old(authViewModel.fullName) && authViewModel.phoneNumber == old(authViewModel.phoneNumber)
      ensures !IsBlank(email) && !IsBlank(password) && signIn.SignedIn? && read.ReadOk? && read.doc.present && update.TaskOk? ==>
        authViewModel.fullName == Some(read.doc.fullName.GetOr(NO_NAME))
        && authViewModel.phoneNumber == Some(read.doc.phoneNumber.GetOr(NO_NUMBER))
        && authViewModel.authState == Some(Success(DETAILS_UPDATED))
      ensures !IsBlank(email) && !IsBlank(password) && signIn.SignedIn? && read.ReadOk? && read.doc.present && update.TaskFailed? ==>
        authViewModel.fullName == old(authViewModel.fullName) && authViewModel.phoneNumber == old(authViewModel.phoneNumber)
        && authViewModel.authState == Some(Error(UPDATE_DETAILS_FAILED))
      ensures email == old(email) && password == old(password) && lastSentEmail == old(lastSentEmail)
    {
      navigateTo := None;
      if IsBlank(email) || IsBlank(password) {
        errorMessage := Some(HANDLE_BLANK);
        return;
      }
      match signIn {
        case SignInFailed(m) =>
          errorMessage := Some(m.GetOr(Auth.LOGIN_FAILED));
        case SignedIn(user) =>
          authViewModel.currentUser := Some(user);
          authViewModel.RefreshUserEmail();
          if read.ReadOk? && read.doc.present {
            var doc := read.doc;
            var written := authViewModel.UpdateUserDetails(doc.fullName.GetOr(NO_NAME), doc.phoneNumber.GetOr(NO_NUMBER), update);
          }
          var outcome := ReadOutcome(read);
          match outcome {
            case Navigate(route) => navigateTo := Some(route);
            case ShowError(message) => errorMessage := Some(message);
          }
      }
    }

    /** The "Login" button: its own blank check, then `handleLogin`. */
    method OnLoginClicked(authViewModel: AuthViewModel, signIn: SignInOutcome, read: DocumentRead, update: TaskOutcome)
      returns (navigateTo: Option<string>)
      modifies this, authViewModel
      ensures IsBlank(email) || IsBlank(password) ==>
        errorMessage == Some(BUTTON_BLANK) && navigateTo == None && unchanged(authViewModel)
      ensures !IsBlank(email) && !IsBlank(password) && signIn.SignInFailed? ==>
        errorMessage == Some(signIn.message.GetOr(Auth.LOGIN_FAILED)) && navigateTo == None
      ensures !IsBlank(email) && !IsBlank(password) && signIn.SignedIn? ==>
        authViewModel.currentUser == Some(signIn.user)
        && (ReadOutcome(read).Navigate? ==> navigateTo == Some(ReadOutcome(read).route))
        && (ReadOutcome(read).ShowError? ==> navigateTo == None && errorMessage == Some(ReadOutcome(read).message))
      ensures !IsBlank(email) && !IsBlank(password) && signIn.SignedIn? && read.ReadOk? && read.doc.present ==>
        authViewModel.authState == Some(if update.TaskOk? then Success(DETAILS_UPDATED) else Error(UPDATE_DETAILS_FAILED))
      ensures email == old(email) && password == old(password) && lastSentEmail == old(lastSentEmail)
    {
      if IsBlank(email) || IsBlank(password) {
        errorMessage := Some(BUTTON_BLANK);
        navigateTo := None;
      } else {
        navigateTo := HandleLogin(authViewModel, signIn, read, update);
      }
    }

    /**
     * `handleForgotPassword` with the screen's callback, which records the
     * email the request was for and shows the message (none on success).
     * `send` is how sending the reset email ends.
     */
    method HandleForgotPassword(send: TaskOutcome) returns (toast: Option<string>)
      modifies this
      ensures lastSentEmail == email
      ensures IsBlank(email) ==> errorMessage == Some(FORGOT_BLANK) && toast == None
      ensures !IsBlank(email) && send.TaskOk? ==>
        errorMessage == None && toast == Some("Password reset email sent to " + email + ".")
      ensures !IsBlank(email) && send.TaskFailed? ==>
        errorMessage == Some(send.message.GetOr(RESET_FAILED)) && toast == None
      ensures email == old(email) && password == old(password)
    {
      toast := None;
      lastSentEmail := email;
      if IsBlank(email) {
        errorMessage := Some(FORGOT_BLANK);
      } else if send.TaskOk? {
        toast := Some("Password reset email sent to " + email + ".");
        errorMessage := None;
      } else {
        errorMessage := Some(send.message.GetOr(RESET_FAILED));
      }
    }

    /** "Forgot Password?": its own blank check, then `handleForgotPassword`. */
    method OnForgotPasswordClicked(send: TaskOutcome) returns (toast: Option<string>)
      modifies this
      ensures IsBlank(email) ==>
        errorMessage == Some(FORGOT_BUTTON_BLANK) && toast == None && lastSentEmail == old(lastSentEmail)
      ensures !IsBlank(email) ==> lastSentEmail == email
      ensures !IsBlank(email) && send.TaskOk? ==> errorMessage == None && toast.Some?
      ensures !IsBlank(email) && send.TaskFailed? ==> errorMessage == Some(send.message.GetOr(RESET_FAILED))
      ensures email == old(email) && password == old(password)
    {
      if IsBlank(email) {
        errorMessage := Some(FORGOT_BUTTON_BLANK);
        toast := None;
      } else {
        toast := HandleForgotPassword(send);
      }
    }
  }

  /**
   * Signing in from the screen as an admin whose details are then saved
   * leaves the view model in Success, not Authenticated.
   */
  method AdminSignInEndsInSuccess(email: string, password: string, user: FirebaseUser, name: string, phone: string)
    returns (navigateTo: Option<string>, state: Option<AuthState>)
    requires !IsBlank(email) && !IsBlank(password)
    ensures navigateTo == Some(ADMIN_HOME)
    ensures state == Some(Success(DETAILS_UPDATED))
  {
    var vm := new AuthViewModel(None);
    var page := new LoginPage();
    page.email, page.password := email, password;
    var doc := UserDocument(true, Some(ADMIN_ROLE), Some(name), Some(phone));
    navigateTo := page.OnLoginClicked(vm, SignedIn(user), ReadOk(doc), TaskOk);
    state := vm.authState;
  }
}

=== FILE: numerals.dfy ===
/**
 * Number <-> text conversions of the Kotlin/Java runtime that the app relies on:
 * `String.toInt()`, `Int.toString()`, two-digit and four-digit zero padding,
 * and the decimal text of a price (`toDoubleOrNull()` / `Double.toString()`),
 * with prices held as integer cents.
 */
module Numerals {
  import opened Wrappers
  import opened Text

  const INT_MIN: int := -0x8000_0000
  const INT_MAX: int := 0x7FFF_FFFF

  function DigitValue(c: char): (d: nat)
    requires IsDigit(c)
    ensures d <= 9
  {
    c as int - '0' as int
  }

  function DigitChar(d: nat): (c: char)
    requires d <= 9
    ensures IsDigit(c) && DigitValue(c) == d
  {
    ('0' as int + d) as char
  }

  /** Value of a run of decimal digits, most significant first. */
  function DigitsValue(s: string): nat
    requires AllDigits(s)
  {
    if s == [] then 0 else DigitsValue(s[..|s| - 1]) * 10 + DigitValue(s[|s| - 1])
  }

  /** `Int.toString()` on a non-negative value: no leading zeros, "0" for zero. */
  function NatToString(n: nat): (s: string)
    ensures AllDigits(s) && s != []
    ensures n > 0 ==> s[0] != '0'
  {
    if n < 10 then [DigitChar(n)] else NatToString(n / 10) + [DigitChar(n % 10)]
  }

  /** `Int.toString()` */
  function IntToString(i: int): (s: string)
    ensures s != []
  {
    if i < 0 then "-" + NatToString(-i) else NatToString(i)
  }

  /**
   * `String.toIntOrNull()` (`toInt()` throws exactly where this is `None`):
   * an optional leading '+' or '-', then at least one digit, and a value that
   * fits in a 32-bit `Int`.
   */
  function ToIntOrNull(s: string): (r: Option<int>)
    ensures r.Some? ==> INT_MIN <= r.value <= INT_MAX
    ensures s == [] ==> r.None?
  {
    if s == [] then None
    else if s[0] == '-' || s[0] == '+' then
      if |s| == 1 || !AllDigits(s[1..]) then None
      else
        var magnitude: int := DigitsValue(s[1..]);
        var v: int := if s[0] == '-' then -magnitude else magnitude;
        if INT_MIN <= v <= INT_MAX then Some(v) else None
    else if !AllDigits(s) then None
    else if DigitsValue(s) <= INT_MAX then Some(DigitsValue(s)) else None
  }

  lemma {:induction false} DigitsValueOfNatToString(n: nat)
    ensures DigitsValue(NatToString(n)) == n
  {
    var s := NatToString(n);
    if n >= 10 {
      DigitsValueOfNatToString(n / 10);
      assert s[..|s| - 1] == NatToString(n / 10);
    }
  }

  /** `toString().toInt()` gives back every 32-bit value. */
  lemma IntToStringRoundTrip(i: int)
    requires INT_MIN <= i <= INT_MAX
    ensures ToIntOrNull(IntToString(i)) == Some(i)
  {
    var s := IntToString(i);
    if i < 0 {
      DigitsValueOfNatToString(-i);
      assert s[1..] == NatToString(-i);
    } else {
      DigitsValueOfNatToString(i);
      assert s[0] != '-' && s[0] != '+';
    }
  }

  /** `IntToString` is injective, so distinct keys get distinct labels. */
  lemma IntToStringInjective(a: int, b: int)
    requires INT_MIN <= a <= INT_MAX && INT_MIN <= b <= INT_MAX
    requires IntToString(a) == IntToString(b)
    ensures a == b
  {
    IntToStringRoundTrip(a);
    IntToStringRoundTrip(b);
  }

  /** Two-digit zero-padded text, as the `MM`, `dd`, `HH` and `mm` patterns print. */
  function Pad2(n: nat): (s: string)
    requires n <= 99
    ensures |s| == 2 && AllDigits(s)
  {
    [DigitChar(n / 10), DigitChar(n % 10)]
  }

  /** Four-digit zero-padded text, as the `yyyy` pattern prints a year up to 9999. */
  function Pad4(n: nat): (s: string)
    requires n <= 9999
    ensures |s| == 4 && AllDigits(s)
  {
    Pad2(n / 100) + Pad2(n % 100)
  }

  lemma Pad2Value(n: nat)
    requires n <= 99
    ensures DigitsValue(Pad2(n)) == n
  {
    var s := Pad2(n);
    assert s[..1] == [DigitChar(n / 10)];
    assert DigitsValue(s[..1]) == n / 10 by {
      assert s[..1][..0] == [];
    }
  }

  lemma Pad4Value(n: nat)
    requires n <= 9999
    ensures DigitsValue(Pad4(n)) == n
  {
    var s := Pad4(n);
    var hi, lo := n / 100, n % 100;
    assert s[..3][..2] == Pad2(hi);
    assert s[..2] == Pad2(hi);
    Pad2Value(hi);
    Pad2Value(lo);
    assert s[..3] == Pad2(hi) + [DigitChar(lo / 10)];
    assert DigitsValue(s[..3]) == hi * 10 + lo / 10;
  }

  /** Two digits parse with `toInt()` to the padded value. */
  lemma Pad2ToInt(n: nat)
    requires n <= 99
    ensures ToIntOrNull(Pad2(n)) == Some(n)
  {
    Pad2Value(n);
  }

  /** Four digits parse with `toInt()` to the padded value. */
  lemma Pad4ToInt(n: nat)
    requires n <= 9999
    ensures ToIntOrNull(Pad4(n)) == Some(n)
  {
    Pad4Value(n);
  }

  // ---------------------------------------------------------------------------
  // Prices as decimal text (cents)
  // ---------------------------------------------------------------------------

  /** Index of the first '.', or |s| when there is none. */
  function DotIndex(s: string): (i: nat)
    ensures i <= |s|
    ensures i < |s| ==> s[i] == '.'
    ensures forall k :: 0 <= k < i ==> s[k] != '.'
  {
    if s == [] then 0 else if s[0] == '.' then 0 else 1 + DotIndex(s[1..])
  }

  /** Value in cents of a fraction written with at most two digits. */
  function FractionCents(f: string): (c: nat)
    requires AllDigits(f) && |f| <= 2
    ensures c <= 99
  {
    if |f| == 0 then 0
    else if |f| == 1 then DigitValue(f[0]) * 10
    else DigitValue(f[0]) * 10 + DigitValue(f[1])
  }

  /** Unsigned decimal: digits, then optionally '.' and at most two digits; at least one digit. */
  function ParseUnsignedCents(s: string): (r: Option<nat>)
  {
    var dot := DotIndex(s);
    var whole := s[..dot];
    var fraction := if dot < |s| then s[dot + 1..] else "";
    if !AllDigits(whole) || !AllDigits(fraction) || |fraction| > 2 || (whole == [] && fraction == []) then None
    else Some(DigitsValue(whole) * 100 + FractionCents(fraction))
  }

  /** `toDoubleOrNull()` on a price typed into a form, in cents. */
  function ParseCents(s: string): (r: Option<int>)
    ensures s == [] ==> r.None?
  {
    if s != [] && (s[0] == '-' || s[0] == '+') then
      match ParseUnsignedCents(s[1..])
      case None => None
      case Some(v) => Some(if s[0] == '-' then -(v as int) else v)
    else
      match ParseUnsignedCents(s)
      case None => None
      case Some(v) => Some(v)
  }

  /** The fraction digits `Double.toString()` prints for a cent count: at least one, no trailing zero. */
  function FractionText(cents: nat): (s: string)
    requires cents <= 99
    ensures AllDigits(s) && 1 <= |s| <= 2
  {
    if cents % 10 == 0 then [DigitChar(cents / 10)] else Pad2(cents)
  }

  /** `Double.toString()` of a price in cents. */
  function FormatCents(cents: int): (s: string)
    ensures s != []
  {
    if cents < 0 then "-" + FormatUnsignedCents(-cents) else FormatUnsignedCents(cents)
  }

  function FormatUnsignedCents(cents: nat): (s: string)
    ensures s != [] && s[0] != '-' && s[0] != '+'
  {
    NatToString(cents / 100) + "." + FractionText(cents % 100)
  }

  lemma FractionTextCents(cents: nat)
    requires cents <= 99
    ensures FractionCents(FractionText(cents)) == cents
  {
  }

  lemma UnsignedRoundTrip(cents: nat)
    ensures ParseUnsignedCents(FormatUnsignedCents(cents)) == Some(cents)
  {
    var whole := NatToString(cents / 100);
    var s := FormatUnsignedCents(cents);
    assert s[|whole|] == '.';
    assert DotIndex(s) == |whole|;
    assert s[..|whole|] == whole;
    assert s[|whole| + 1..] == FractionText(cents % 100);
    DigitsValueOfNatToString(cents / 100);
    FractionTextCents(cents % 100);
  }

  /** A price shown with `toString()` parses back to the same price. */
  lemma CentsRoundTrip(cents: int)
    ensures ParseCents(FormatCents(cents)) == Some(cents)
  {
    var magnitude: nat := if cents < 0 then -cents else cents;
    UnsignedRoundTrip(magnitude);
    ParseSign(FormatUnsignedCents(magnitude), magnitude);
  }

  /** An unsigned text parses to its value, and with a '-' in front to the negated value. */
  lemma ParseSign(u: string, v: nat)
    requires u != [] && u[0] != '-' && u[0] != '+' && ParseUnsignedCents(u) == Some(v)
    ensures ParseCents(u) == Some(v as int) && ParseCents("-" + u) == Some(-(v as int))
  {
    assert ("-" + u)[1..] == u;
  }
}

=== FILE: order.dfy ===
/** The order records stored in the "orders" collection (`models/Order.kt`); prices in cents. */
module Orders {

  datatype OrderItem = OrderItem(
    cakeId: string,
    cakeName: string,
    size: string,
    price: int,
    quantity: int)

  datatype Order = Order(
    id: string,
    userId: string,
    userEmail: string,
    items: seq<OrderItem>,
    totalPrice: int,
    status: string,
    paymentMethod: string,
    collectionDate: string,
    collectionTime: string,
    timestamp: int,
    sendEmail: bool,
    emailSent: bool)
}

=== FILE: order_details_page.dfy ===
/**
 * The collection-slot screen (`pages/OrderDetailsPage.kt`): a date from the
 * date picker, a time from the time picker checked against the opening hours
 * and a 30-minute preparation lead for today, and "Proceed to Invoice".
 */
module OrderDetails {
  import opened Wrappers
  import opened Calendar
  import opened Cart

  const LEAD_MINUTES: nat := 30

  function Opening(): (t: LocalTime)
    ensures Hour(t) == 10 && Minute(t) == 0
  {
    TimeOf(10, 0)
  }

  function Closing(): (t: LocalTime)
    ensures Hour(t) == 21 && Minute(t) == 0
  {
    TimeOf(21, 0)
  }

  function MaxTime(a: LocalTime, b: LocalTime): (r: LocalTime)
    ensures r >= a && r >= b && (r == a || r == b)
  {
    if a >= b then a else b
  }

  // ---------------------------------------------------------------------------
  // The check as written: `maxOf(currentTime.plusMinutes(30), LocalTime.of(10, 0))`
  // ---------------------------------------------------------------------------

  /** `minTime` as the code computes it; `plusMinutes` wraps past midnight. */
  function MinTimeAsWritten(selectedDate: LocalDate, today: LocalDate, now: LocalTime): LocalTime
  {
    if selectedDate == today then MaxTime(PlusMinutes(now, LEAD_MINUTES), Opening()) else Opening()
  }

  /** `selectedLocalTime.isAfter(minTime) && selectedLocalTime.isBefore(maxTime)` as written. */
  predicate AcceptedAsWritten(picked: LocalTime, selectedDate: LocalDate, today: LocalDate, now: LocalTime)
  {
    MinTimeAsWritten(selectedDate, today, now) < picked < Closing()
  }

  /**
   * On a day other than today the window is strictly between 10:00 and 21:00,
   * whatever the time now: 10:00 and 21:00 are refused, 10:01 and 20:59 taken.
   */
  lemma OtherDayWindow(selectedDate: LocalDate, today: LocalDate, now: LocalTime, picked: LocalTime)
    requires selectedDate != today
    ensures AcceptedAsWritten(picked, selectedDate, today, now) <==> Opening() < picked < Closing()
    ensures !AcceptedAsWritten(TimeOf(10, 0), selectedDate, today, now)
    ensures !AcceptedAsWritten(TimeOf(21, 0), selectedDate, today, now)
    ensures AcceptedAsWritten(TimeOf(10, 1), selectedDate, today, now)
    ensures AcceptedAsWritten(TimeOf(20, 59), selectedDate, today, now)
  {
  }

  /** Today, exactly thirty minutes from now is refused. */
  lemma TodayLeadIsExclusive(today: LocalDate, now: LocalTime)
    ensures !AcceptedAsWritten(PlusMinutes(now, LEAD_MINUTES), today, today, now)
  {
  }

  /** The code's midnight wrap: at 23:40 a time earlier the same day, 12:00, is accepted for today. */
  lemma MidnightWrapAcceptsPastTime(today: LocalDate)
    ensures PlusMinutes(TimeOf(23, 40), LEAD_MINUTES) == TimeOf(0, 10)
    ensures AcceptedAsWritten(TimeOf(12, 0), today, today, TimeOf(23, 40))
    ensures TimeOf(12, 0) < TimeOf(23, 40)
  {
  }

  // ---------------------------------------------------------------------------
  // The check as intended: today's times must be at least 30 minutes ahead
  // ---------------------------------------------------------------------------

  /** The window the page promises: after 10:00 and now + 30 min (today), before 21:00; no wrap. */
  predicate IsAcceptedTime(picked: LocalTime, selectedDate: LocalDate, today: LocalDate, now: LocalTime)
  {
    && Opening() < picked < Closing()
    && (selectedDate == today ==> now + LEAD_MINUTES * NANOS_PER_MINUTE < picked)
  }

  /** A time accepted for today is more than thirty minutes after now, never in the past. */
  lemma AcceptedTodayIsAhead(picked: LocalTime, today: LocalDate, now: LocalTime)
    requires IsAcceptedTime(picked, today, today, now)
    ensures picked > now + LEAD_MINUTES * NANOS_PER_MINUTE
    ensures picked > now
  {
  }

  /** Until 23:30 the intended check and the code's agree; they differ only once `plusMinutes` wraps. */
  lemma IntendedAgreesBeforeWrap(picked: LocalTime, selectedDate: LocalDate, today: LocalDate, now: LocalTime)
    requires now + LEAD_MINUTES * NANOS_PER_MINUTE < NANOS_PER_DAY
    ensures IsAcceptedTime(picked, selectedDate, today, now) <==> AcceptedAsWritten(picked, selectedDate, today, now)
  {
  }

  /** After 23:30 nothing is accepted for today any more. */
  lemma NothingLateToday(picked: LocalTime, today: LocalDate, now: LocalTime)
    requires now + LEAD_MINUTES * NANOS_PER_MINUTE >= NANOS_PER_DAY
    ensures !IsAcceptedTime(picked, today, today, now)
  {
  }

  // ---------------------------------------------------------------------------
  // The screen
  // ---------------------------------------------------------------------------

  class OrderDetailsPage {
    /**
     * `LocalDate.now()` and `LocalTime.now()` as last read by the screen's
     * body, which reads them on each run; the model fixes one reading.
     */
    const today: LocalDate
    const now: LocalTime
    var selectedDate: Option<LocalDate>
    var selectedTime: Option<LocalTime>
    var invalidTimeSelected: bool

    constructor (today: LocalDate, now: LocalTime)
      ensures this.today == today && this.now == now
      ensures selectedDate == None && selectedTime == None && !invalidTimeSelected
    {
      this.today := today;
      this.now := now;
      selectedDate := None;
      selectedTime := None;
      invalidTimeSelected := false;
    }

    /** A time is kept only while it passed the check and a date is chosen. */
    predicate Valid()
      reads this
    {
      selectedTime.Some? ==> selectedDate.Some?
    }

    /** The date picker, whose minimum date is today. */
    method PickDate(date: LocalDate)
      requires !DateBefore(date, today)
      modifies this
      ensures selectedDate == Some(date)
      ensures selectedTime == old(selectedTime) && invalidTimeSelected == old(invalidTimeSelected)
      ensures old(Valid()) ==> Valid()
    {
      selectedDate := Some(date);
    }

    /**
     * The time picker, which opens only once a date is chosen, with the check
     * as written: an accepted time is stored and clears the error; a refused
     * one sets the error and keeps the previous time.
     */
    method PickTime(hour: int, minute: int)
      requires selectedDate.Some?
      requires 0 <= hour < 24 && 0 <= minute < 60
      modifies this
      ensures selectedDate == old(selectedDate)
      ensures AcceptedAsWritten(TimeOf(hour, minute), selectedDate.value, today, now) ==>
        selectedTime == Some(TimeOf(hour, minute)) && !invalidTimeSelected
      ensures !AcceptedAsWritten(TimeOf(hour, minute), selectedDate.value, today, now) ==>
        selectedTime == old(selectedTime) && invalidTimeSelected
      ensures old(Valid()) ==> Valid()
    {
      var picked := TimeOf(hour, minute);
      if AcceptedAsWritten(picked, selectedDate.value, today, now) {
        selectedTime := Some(picked);
        invalidTimeSelected := false;
      } else {
        invalidTimeSelected := true;
      }
    }

    /**
     * The time picker with the intended check, which never takes a time today
     * that is not more than thirty minutes ahead.
     */
    method PickTimeIntended(hour: int, minute: int)
      requires selectedDate.Some?
      requires 0 <= hour < 24 && 0 <= minute < 60
      modifies this
      ensures selectedDate == old(selectedDate)
      ensures IsAcceptedTime(TimeOf(hour, minute), selectedDate.value, today, now) ==>
        selectedTime == Some(TimeOf(hour, minute)) && !invalidTimeSelected
      ensures !IsAcceptedTime(TimeOf(hour, minute), selectedDate.value, today, now) ==>
        selectedTime == old(selectedTime) && invalidTimeSelected
      ensures selectedDate.value == today && !invalidTimeSelected ==>
        selectedTime.Some? && selectedTime.value > now + LEAD_MINUTES * NANOS_PER_MINUTE
      ensures old(Valid()) ==> Valid()
    {
      var picked := TimeOf(hour, minute);
      if IsAcceptedTime(picked, selectedDate.value, today, now) {
        selectedTime := Some(picked);
        invalidTimeSelected := false;
      } else {
        invalidTimeSelected := true;
      }
    }

    /** "Proceed to Invoice" is enabled with a date, a time and no error. */
    predicate ProceedEnabled()
      reads this
    {
      selectedDate.Some? && selectedTime.Some? && !invalidTimeSelected
    }

    /** "Proceed to Invoice": stores the slot in the cart, and only when enabled. */
    method Proceed(cart: CartViewModel)
      modifies cart
      ensures ProceedEnabled() ==> cart.collectionDateTime == Some((selectedDate.value, selectedTime.value))
      ensures !ProceedEnabled() ==> cart.collectionDateTime == old(cart.collectionDateTime)
      ensures cart.cartItems == old(cart.cartItems)
    {
      if selectedDate.Some? && selectedTime.Some? && !invalidTimeSelected {
        cart.SetCollectionDateTime(selectedDate.value, selectedTime.value);
      }
    }
  }

  /** On the screen as written, at 23:40 a pick of 12:00 today is stored and clears the error. */
  method LatePickAsWritten(today: LocalDate) returns (stored: Option<LocalTime>, invalid: bool)
    ensures stored == Some(TimeOf(12, 0)) && !invalid
    ensures stored.value < TimeOf(23, 40)
  {
    var page := new OrderDetailsPage(today, TimeOf(23, 40));
    page.PickDate(today);
    MidnightWrapAcceptsPastTime(today);
    page.PickTime(12, 0);
    stored, invalid := page.selectedTime, page.invalidTimeSelected;
  }

  /** With the intended check the same pick is refused and no time is stored. */
  method LatePickIntended(today: LocalDate) returns (stored: Option<LocalTime>, invalid: bool)
    ensures stored == None && invalid
  {
    var page := new OrderDetailsPage(today, TimeOf(23, 40));
    page.PickDate(today);
    page.PickTimeIntended(12, 0);
    stored, invalid := page.selectedTime, page.invalidTimeSelected;
  }
}

=== FILE: order_history.dfy ===
/**
 * Order history (`OrderHistoryViewModel.kt`): the fetched orders, optional
 * inclusive date bounds on the day each order was placed, and a sort by
 * date, price or status in either direction.
 */
module OrderHistory {
  import opened Wrappers
  import opened Seqs
  import opened Sorting
  import opened Calendar
  import opened Orders

  datatype SortOption = ByDate | ByPrice | ByStatus

  /** The key each option sorts by: the creation timestamp, the total, or the status text. */
  function KeyFor(option: SortOption): (key: Order -> SortKey)
    ensures forall o :: key(o) == match option
      case ByDate => IntKey(o.timestamp)
      case ByPrice => IntKey(o.totalPrice)
      case ByStatus => StrKey(o.status)
  {
    match option
    case ByDate => (o: Order) => IntKey(o.timestamp)
    case ByPrice => (o: Order) => IntKey(o.totalPrice)
    case ByStatus => (o: Order) => StrKey(o.status)
  }

  /** `!orderDate.isBefore(startDate)` */
  predicate OnOrAfterStart(o: Order, start: LocalDate, localDate: int -> LocalDate)
  {
    !DateBefore(localDate(o.timestamp), start)
  }

  /** `!orderDate.isAfter(endDate)` */
  predicate OnOrBeforeEnd(o: Order, end: LocalDate, localDate: int -> LocalDate)
  {
    !DateBefore(end, localDate(o.timestamp))
  }

  /** Inside both bounds, each inclusive; a missing bound admits every order. */
  predicate InRange(o: Order, start: Option<LocalDate>, end: Option<LocalDate>, localDate: int -> LocalDate)
  {
    && (start.Some? ==> OnOrAfterStart(o, start.value, localDate))
    && (end.Some? ==> OnOrBeforeEnd(o, end.value, localDate))
  }

  /** The two date filters, applied in turn when their bound is set. */
  function FilterByDates(orders: seq<Order>, start: Option<LocalDate>, end: Option<LocalDate>,
                         localDate: int -> LocalDate): (r: seq<Order>)
    ensures |r| <= |orders|
  {
    var afterStart := if start.Some? then Filter(orders, o => OnOrAfterStart(o, start.value, localDate)) else orders;
    if end.Some? then Filter(afterStart, o => OnOrBeforeEnd(o, end.value, localDate)) else afterStart
  }

  /** `filteredAndSortedOrders` */
  function FilteredAndSorted(orders: seq<Order>, start: Option<LocalDate>, end: Option<LocalDate>,
                             ascending: bool, option: SortOption, localDate: int -> LocalDate): (r: seq<Order>)
    ensures |r| <= |orders|
  {
    SortBy(FilterByDates(orders, start, end, localDate), KeyFor(option), ascending)
  }

  /** The date filters keep each in-range order as often as it was fetched, and drop the rest. */
  lemma FilterByDatesCounts(orders: seq<Order>, start: Option<LocalDate>, end: Option<LocalDate>,
                            localDate: int -> LocalDate, o: Order)
    ensures multiset(FilterByDates(orders, start, end, localDate))[o]
         == if InRange(o, start, end, localDate) then multiset(orders)[o] else 0
  {
    var afterStart := if start.Some? then Filter(orders, o => OnOrAfterStart(o, start.value, localDate)) else orders;
    if start.Some? {
      FilterCounts(orders, o => OnOrAfterStart(o, start.value, localDate), o);
    }
    if end.Some? {
      FilterCounts(afterStart, o => OnOrBeforeEnd(o, end.value, localDate), o);
    }
  }

  /** The date filters keep the fetched order of what they keep. */
  lemma FilterByDatesIsSubsequence(orders: seq<Order>, start: Option<LocalDate>, end: Option<LocalDate>,
                                   localDate: int -> LocalDate)
    ensures IsSubsequence(FilterByDates(orders, start, end, localDate), orders)
  {
    var afterStart := if start.Some? then Filter(orders, o => OnOrAfterStart(o, start.value, localDate)) else orders;
    if start.Some? {
      FilterIsSubsequence(orders, o => OnOrAfterStart(o, start.value, localDate));
    } else {
      SubsequenceOfItself(orders);
    }
    if end.Some? {
      FilterIsSubsequence(afterStart, o => OnOrBeforeEnd(o, end.value, localDate));
      SubsequenceTransitive(FilterByDates(orders, start, end, localDate), afterStart, orders);
    }
  }

  lemma {:induction false} SubsequenceOfItself<T>(s: seq<T>)
    ensures IsSubsequence(s, s)
  {
    if s != [] {
      SubsequenceOfItself(s[1..]);
    }
  }

  lemma {:induction false} SubsequenceTransitive<T>(a: seq<T>, b: seq<T>, c: seq<T>)
    requires IsSubsequence(a, b) && IsSubsequence(b, c)
    ensures IsSubsequence(a, c)
    decreases |c|
  {
    if a != [] && c != [] {
      if b[0] == c[0] {
        if a[0] == b[0] {
          SubsequenceTransitive(a[1..], b[1..], c[1..]);
        } else {
          SubsequenceTransitive(a, b[1..], c[1..]);
        }
      } else {
        SubsequenceTransitive(a, b, c[1..]);
        SubsequenceOfTail(a, c);
      }
    }
  }

  /**
   * The history holds exactly the fetched orders placed within the bounds,
   * each as often as it was fetched: nothing in range is dropped or doubled.
   */
  lemma HistoryHoldsOrdersInRange(orders: seq<Order>, start: Option<LocalDate>, end: Option<LocalDate>,
                                  ascending: bool, option: SortOption, localDate: int -> LocalDate, o: Order)
    ensures multiset(FilteredAndSorted(orders, start, end, ascending, option, localDate))[o]
         == if InRange(o, start, end, localDate) then multiset(orders)[o] else 0
    ensures o in FilteredAndSorted(orders, start, end, ascending, option, localDate)
        <==> o in orders && InRange(o, start, end, localDate)
  {
    var filtered := FilterByDates(orders, start, end, localDate);
    SortByPermutes(filtered, KeyFor(option), ascending);
    FilterByDatesCounts(orders, start, end, localDate, o);
    assert o in FilteredAndSorted(orders, start, end, ascending, option, localDate)
       <==> multiset(FilteredAndSorted(orders, start, end, ascending, option, localDate))[o] > 0;
  }

  /** Without bounds the history is a rearrangement of everything fetched. */
  lemma NoBoundsKeepsAll(orders: seq<Order>, ascending: bool, option: SortOption, localDate: int -> LocalDate)
    ensures multiset(FilteredAndSorted(orders, None, None, ascending, option, localDate)) == multiset(orders)
  {
    SortByPermutes(orders, KeyFor(option), ascending);
  }

  /** Ascending gives non-decreasing keys, descending non-increasing. */
  lemma HistoryIsSorted(orders: seq<Order>, start: Option<LocalDate>, end: Option<LocalDate>,
                        ascending: bool, option: SortOption, localDate: int -> LocalDate)
    ensures Sorted(FilteredAndSorted(orders, start, end, ascending, option, localDate), KeyFor(option), ascending)
  {
    SortBySorted(FilterByDates(orders, start, end, localDate), KeyFor(option), ascending);
  }

  /** Orders with equal keys keep the order they were fetched in. */
  lemma HistoryIsStable(orders: seq<Order>, start: Option<LocalDate>, end: Option<LocalDate>,
                        ascending: bool, option: SortOption, localDate: int -> LocalDate, k: SortKey)
    ensures WithKey(FilteredAndSorted(orders, start, end, ascending, option, localDate), KeyFor(option), k)
         == WithKey(FilterByDates(orders, start, end, localDate), KeyFor(option), k)
    ensures IsSubsequence(FilterByDates(orders, start, end, localDate), orders)
  {
    SortByStable(FilterByDates(orders, start, end, localDate), KeyFor(option), ascending, k);
    FilterByDatesIsSubsequence(orders, start, end, localDate);
  }

  /** A fetched document: its id, and the order it deserialises to, if any. */
  datatype Document = Document(id: string, data: Option<Order>)

  /** The orders of the documents that deserialise, each carrying its document id. */
  function OrdersOf(documents: seq<Document>): (r: seq<Order>)
    ensures |r| <= |documents|
  {
    if documents == [] then []
    else
      var init := OrdersOf(documents[..|documents| - 1]);
      var last := documents[|documents| - 1];
      if last.data.Some? then init + [last.data.value.(id := last.id)] else init
  }

  /** When every document deserialises, each becomes one order, in order, carrying its id. */
  lemma {:induction false} OrdersOfAllParsed(documents: seq<Document>)
    requires forall j :: 0 <= j < |documents| ==> documents[j].data.Some?
    ensures |OrdersOf(documents)| == |documents|
    ensures forall j :: 0 <= j < |documents| ==>
      OrdersOf(documents)[j] == documents[j].data.value.(id := documents[j].id)
  {
    if documents != [] {
      OrdersOfAllParsed(documents[..|documents| - 1]);
    }
  }

  /** A document that does not deserialise is skipped. */
  lemma SkipsUnreadable(documents: seq<Document>, id: string)
    ensures OrdersOf(documents + [Document(id, None)]) == OrdersOf(documents)
  {
    assert (documents + [Document(id, None)])[..|documents|] == documents;
  }

  class OrderHistoryViewModel {
    /** The local date of an epoch-millisecond timestamp in the device's zone. */
    const localDate: int -> LocalDate
    var orders: seq<Order>
    var filterStartDate: Option<LocalDate>
    var filterEndDate: Option<LocalDate>
    var isAscending: bool
    var sortOption: SortOption

    /** No bounds, newest first; the orders arrive later from the fetch. */
    constructor (localDate: int -> LocalDate)
      ensures this.localDate == localDate
      ensures orders == [] && filterStartDate == None && filterEndDate == None
      ensures !isAscending && sortOption == ByDate
    {
      this.localDate := localDate;
      orders := [];
      filterStartDate := None;
      filterEndDate := None;
      isAscending := false;
      sortOption := ByDate;
    }

    /** `filteredAndSortedOrders`, recomputed from the current fields. */
    function FilteredAndSortedOrders(): (r: seq<Order>)
      reads this
      ensures |r| <= |orders|
    {
      FilteredAndSorted(orders, filterStartDate, filterEndDate, isAscending, sortOption, localDate)
    }

    /** The fetch loop: every document that deserialises is added with its id, in order. */
    method OnOrdersFetched(documents: seq<Document>)
      modifies this
      ensures orders == OrdersOf(documents)
      ensures filterStartDate == old(filterStartDate) && filterEndDate == old(filterEndDate)
      ensures isAscending == old(isAscending) && sortOption == old(sortOption)
    {
      var ordersList: seq<Order> := [];
      var i := 0;
      while i < |documents|
        invariant 0 <= i <= |documents|
        invariant ordersList == OrdersOf(documents[..i])
      {
        assert documents[..i + 1][..i] == documents[..i];
        if documents[i].data.Some? {
          ordersList := ordersList + [documents[i].data.value.(id := documents[i].id)];
        }
        i := i + 1;
      }
      assert documents[..i] == documents;
      orders := ordersList;
    }

    method SetFilterStartDate(date: Option<LocalDate>)
      modifies this
      ensures filterStartDate == date
      ensures orders == old(orders) && filterEndDate == old(filterEndDate)
      ensures isAscending == old(isAscending) && sortOption == old(sortOption)
    {
      filterStartDate := date;
    }

    method SetFilterEndDate(date: Option<LocalDate>)
      modifies this
      ensures filterEndDate == date
      ensures orders == old(orders) && filterStartDate == old(filterStartDate)
      ensures isAscending == old(isAscending) && sortOption == old(sortOption)
    {
      filterEndDate := date;
    }

    /** Flips the direction; two toggles give the original direction back. */
    method ToggleSortOrder()
      modifies this
      ensures isAscending == !old(isAscending)
      ensures orders == old(orders) && filterStartDate == old(filterStartDate)
      ensures filterEndDate == old(filterEndDate) && sortOption == old(sortOption)
    {
      isAscending := !isAscending;
    }

    method SetSortOption(option: SortOption)
      modifies this
      ensures sortOption == option
      ensures orders == old(orders) && filterStartDate == old(filterStartDate)
      ensures filterEndDate == old(filterEndDate) && isAscending == old(isAscending)
    {
      sortOption := option;
    }
  }
}

=== FILE: payment_options_page.dfy ===
/**
 * Checkout (`pages/PaymentOptionsPage.kt` with `PaymentViewModel.PaymentResult`):
 * the card form's input filters and validity test, the three ways to pay,
 * and what happens to a payment result: the order snapshot built from the
 * cart, and the cart cleared once that order is saved.
 */
module Checkout {
  import opened Wrappers
  import opened Text
  import opened Seqs
  import opened Cakes
  import opened Orders
  import opened Calendar
  import opened Cart

  const CARD_NUMBER_ERROR: string := "Card number must be 16 digits"
  const EXPIRY_ERROR: string := "Expiry date must be MM/YY"
  const CVV_LENGTH_ERROR: string := "CVV must be 3 digits"
  const CVV_NUMERIC_ERROR: string := "CVV must be numeric"
  const HOLDER_NAME_ERROR: string := "Card holder name is required"
  const FORM_ERROR_TOAST: string := "Please correct the errors in the form"
  const NO_SLOT_TOAST: string := "Please select a collection date and time."

  /** `Activity.RESULT_OK` and `Activity.RESULT_CANCELED` */
  const RESULT_OK: int := -1
  const RESULT_CANCELED: int := 0

  /** `PaymentViewModel.PaymentResult`; the page only ever holds Success and Error, or null. */
  datatype PaymentResult = Success(paidWith: string) | Error(message: string)

  // ---------------------------------------------------------------------------
  // The expiry-date formatter
  // ---------------------------------------------------------------------------

  /** What the expiry field can hold: up to two digits, or two digits, '/', and one or two digits. */
  predicate ExpiryShaped(e: string)
  {
    || (|e| <= 2 && AllDigits(e))
    || (4 <= |e| <= 5 && AllDigits(e[..2]) && e[2] == '/' && AllDigits(e[3..]))
  }

  /**
   * The expiry field's `onValueChange`: keep the digits, at most four, and put
   * a '/' after the second when there are three or more.
   */
  function ExpiryText(input: string): (r: string)
    ensures |r| <= 5 && ExpiryShaped(r)
    ensures |r| == 5 <==> |DigitsOf(input)| >= 4
  {
    var kept := Take(DigitsOf(input), 4);
    if |kept| >= 3 then kept[..2] + "/" + kept[2..] else kept
  }

  lemma {:induction false} DigitsOfConcat(a: string, b: string)
    ensures DigitsOf(a + b) == DigitsOf(a) + DigitsOf(b)
  {
    if a != [] {
      assert (a + b)[1..] == a[1..] + b;
      DigitsOfConcat(a[1..], b);
    } else {
      assert a + b == b;
    }
  }

  /** The formatter drops only non-digits and the digits after the fourth. */
  lemma ExpiryKeepsDigits(input: string)
    ensures DigitsOf(ExpiryText(input)) == Take(DigitsOf(input), 4)
  {
    var kept := Take(DigitsOf(input), 4);
    if |kept| >= 3 {
      DigitsOfConcat(kept[..2], "/" + kept[2..]);
      DigitsOfConcat("/", kept[2..]);
      assert kept[..2] + "/" + kept[2..] == kept[..2] + ("/" + kept[2..]);
      assert kept[..2] + kept[2..] == kept;
    }
  }

  /** A string the formatter can produce comes back unchanged. */
  lemma ExpiryFixedPoint(e: string)
    requires ExpiryShaped(e)
    ensures ExpiryText(e) == e
  {
    if |e| > 2 {
      assert e == e[..2] + "/" + e[3..];
      DigitsOfConcat(e[..2], "/" + e[3..]);
      DigitsOfConcat("/", e[3..]);
      assert e[..2] + "/" + e[3..] == e[..2] + ("/" + e[3..]);
      var digits := e[..2] + e[3..];
      assert DigitsOf(e) == digits;
      assert digits[..2] + "/" + digits[2..] == e;
    }
  }

  /** Re-formatting a formatted expiry date changes nothing. */
  lemma ExpiryIdempotent(input: string)
    ensures ExpiryText(ExpiryText(input)) == ExpiryText(input)
  {
    ExpiryFixedPoint(ExpiryText(input));
  }

  /** A complete expiry date reads "MM/YY": two digits, '/', two digits. */
  lemma CompleteExpiry(input: string)
    requires |ExpiryText(input)| == 5
    ensures var e := ExpiryText(input); e[2] == '/' && IsDigit(e[0]) && IsDigit(e[1]) && IsDigit(e[3]) && IsDigit(e[4])
  {
    var e := ExpiryText(input);
    assert e[..2][0] == e[0] && e[..2][1] == e[1];
    assert e[3..][0] == e[3] && e[3..][1] == e[4];
  }

  // ---------------------------------------------------------------------------
  // Payment results
  // ---------------------------------------------------------------------------

  /** The wallet activity's result code mapped to a payment result. */
  function WalletResult(resultCode: int, statusMessage: Option<string>): (r: PaymentResult)
    ensures r.Success? <==> resultCode == RESULT_OK
    ensures r == Success("Google Pay") || r == Error("Payment canceled")
         || r == Error("Payment failed: " + statusMessage.GetOr("Unknown error"))
    ensures resultCode == RESULT_CANCELED ==> r == Error("Payment canceled")
  {
    if resultCode == RESULT_OK then Success("Google Pay")
    else if resultCode == RESULT_CANCELED then Error("Payment canceled")
    else Error("Payment failed: " + statusMessage.GetOr("Unknown error"))
  }

  /** The text of the snackbar for an Error result; the wallet's failures carry the prefix twice. */
  function FailureText(r: PaymentResult): (s: string)
    requires r.Error?
    ensures |s| == 16 + |r.message| && s[..16] == "Payment failed: " && s[16..] == r.message
  {
    "Payment failed: " + r.message
  }

  lemma WalletFailureText(resultCode: int, statusMessage: Option<string>)
    requires resultCode != RESULT_OK && resultCode != RESULT_CANCELED
    ensures FailureText(WalletResult(resultCode, statusMessage))
         == "Payment failed: Payment failed: " + statusMessage.GetOr("Unknown error")
  {
  }

  // ---------------------------------------------------------------------------
  // The order snapshot (`saveOrderToFirestore`)
  // ---------------------------------------------------------------------------

  /** One order line per cart line, with the unit price of the line's size. */
  function OrderLine(item: CartItem): (r: OrderItem)
    ensures r.cakeName == item.cake.name && r.size == item.size && r.quantity == item.quantity
    ensures r.price == PriceForSize(item.cake, item.size)
    ensures r.cakeId == ""
  {
    OrderItem("", item.cake.name, item.size, item.cake.GetPrice(item.size), item.quantity)
  }

  function OrderLines(items: seq<CartItem>): (r: seq<OrderItem>)
    ensures |r| == |items|
    ensures forall i :: 0 <= i < |items| ==> r[i] == OrderLine(items[i])
  {
    if items == [] then [] else [OrderLine(items[0])] + OrderLines(items[1..])
  }

  /** What the stored lines are worth: the sum of price times quantity. */
  function LinesValue(lines: seq<OrderItem>): int
  {
    if lines == [] then 0 else lines[0].price * lines[0].quantity + LinesValue(lines[1..])
  }

  /** The order built from the cart, paid by `paymentMethod`; `timestamp` is the clock at saving. */
  function BuildOrder(items: seq<CartItem>, totalPrice: int, slot: Option<(LocalDate, LocalTime)>,
                      paymentMethod: string, userEmail: Option<string>, userId: Option<string>,
                      timestamp: int): (o: Order)
    ensures o.items == OrderLines(items)
    ensures o.totalPrice == totalPrice && o.paymentMethod == paymentMethod && o.timestamp == timestamp
    ensures o.status == "Pending" && o.sendEmail && !o.emailSent && o.id == ""
    ensures o.userEmail == userEmail.GetOr("") && o.userId == userId.GetOr("")
    ensures slot.None? ==> o.collectionDate == "" && o.collectionTime == ""
    ensures slot.Some? ==> |o.collectionTime| == 5
  {
    Order(
      id := "",
      userId := userId.GetOr(""),
      userEmail := userEmail.GetOr(""),
      items := OrderLines(items),
      totalPrice := totalPrice,
      status := "Pending",
      paymentMethod := paymentMethod,
      collectionDate := if slot.Some? then FormatDate(slot.value.0) else "",
      collectionTime := if slot.Some? then FormatTime(slot.value.1) else "",
      timestamp := timestamp,
      sendEmail := true,
      emailSent := false)
  }

  /** The stored lines are worth exactly the cart's total. */
  lemma {:induction false} OrderLinesValue(items: seq<CartItem>)
    ensures LinesValue(OrderLines(items)) == Total(items)
  {
    if items != [] {
      OrderLinesValue(items[1..]);
    }
  }

  /** When the amount passed is the cart's total, the order's total is what its lines are worth. */
  lemma OrderTotalMatchesLines(items: seq<CartItem>, slot: Option<(LocalDate, LocalTime)>,
                               paymentMethod: string, userEmail: Option<string>, userId: Option<string>,
                               timestamp: int)
    ensures var o := BuildOrder(items, Total(items), slot, paymentMethod, userEmail, userId, timestamp);
      o.totalPrice == LinesValue(o.items)
  {
    OrderLinesValue(items);
  }

  /** The stored collection date reads back as the chosen date. */
  lemma OrderDateReadsBack(items: seq<CartItem>, totalPrice: int, date: LocalDate, time: LocalTime,
                           paymentMethod: string, userEmail: Option<string>, userId: Option<string>,
                           timestamp: int)
    requires 1 <= date.year <= 9999
    ensures ParseDate(BuildOrder(items, totalPrice, Some((date, time)), paymentMethod, userEmail, userId, timestamp).collectionDate)
         == Some(date)
  {
    ParseFormatDate(date);
  }

  /** Outcome of `orderViewModel.saveOrder`. */
  datatype SaveOutcome = Saved | SaveFailed(message: string)

  /** `paymentViewModel.paymentResult` */
  class PaymentViewModel {
    var paymentResult: Option<PaymentResult>

    constructor ()
      ensures paymentResult == None
    {
      paymentResult := None;
    }
  }

  class PaymentOptionsPage {
    var cardHolderName: string
    var cardHolderNameError: Option<string>
    var cardNumber: string
    var cardNumberError: Option<string>
    var expiryDate: string
    var expiryDateError: Option<string>
    var cvv: string
    var cvvError: Option<string>

    constructor ()
      ensures cardHolderName == "" && cardNumber == "" && expiryDate == "" && cvv == ""
      ensures cardHolderNameError == None && cardNumberError == None && expiryDateError == None && cvvError == None
      ensures Valid()
    {
      cardHolderName := "";
      cardHolderNameError := None;
      cardNumber := "";
      cardNumberError := None;
      expiryDate := "";
      expiryDateError := None;
      cvv := "";
      cvvError := None;
    }

    /** What the input filters let into the fields. */
    predicate Valid()
      reads this
    {
      && AllDigits(cardNumber) && |cardNumber| <= 16
      && ExpiryShaped(expiryDate)
      && AllDigits(cvv) && |cvv| <= 3
    }

    method OnCardHolderNameChange(input: string)
      modifies this
      ensures cardHolderName == input
      ensures cardHolderNameError == None <==> !IsBlank(input)
      ensures cardHolderNameError.Some? ==> cardHolderNameError.value == HOLDER_NAME_ERROR
      ensures cardNumber == old(cardNumber) && cardNumberError == old(cardNumberError)
      ensures expiryDate == old(expiryDate) && expiryDateError == old(expiryDateError)
      ensures cvv == old(cvv) && cvvError == old(cvvError)
      ensures old(Valid()) ==> Valid()
    {
      cardHolderName := input;
      cardHolderNameError := if IsBlank(input) then Some(HOLDER_NAME_ERROR) else None;
    }

    /** An edit longer than 16 or with a non-digit is ignored, error included. */
    method OnCardNumberChange(input: string)
      modifies this
      ensures |input| <= 16 && AllDigits(input) ==>
        cardNumber == input && (cardNumberError == None <==> |input| == 16)
        && (cardNumberError.Some? ==> cardNumberError.value == CARD_NUMBER_ERROR)
      ensures !(|input| <= 16 && AllDigits(input)) ==>
        cardNumber == old(cardNumber) && cardNumberError == old(cardNumberError)
      ensures cardHolderName == old(cardHolderName) && cardHolderNameError == old(cardHolderNameError)
      ensures expiryDate == old(expiryDate) && expiryDateError == old(expiryDateError)
      ensures cvv == old(cvv) && cvvError == old(cvvError)
      ensures old(Valid()) ==> Valid()
    {
      if |input| <= 16 && AllDigits(input) {
        cardNumber := input;
        cardNumberError := if |input| < 16 then Some(CARD_NUMBER_ERROR) else None;
      }
    }

    method OnExpiryChange(input: string)
      modifies this
      ensures expiryDate == ExpiryText(input)
      ensures expiryDateError == None <==> |expiryDate| == 5
      ensures expiryDateError.Some? ==> expiryDateError.value == EXPIRY_ERROR
      ensures cardHolderName == old(cardHolderName) && cardHolderNameError == old(cardHolderNameError)
      ensures cardNumber == old(cardNumber) && cardNumberError == old(cardNumberError)
      ensures cvv == old(cvv) && cvvError == old(cvvError)
      ensures old(Valid()) ==> Valid()
    {
      expiryDate := ExpiryText(input);
      expiryDateError := if |expiryDate| < 5 then Some(EXPIRY_ERROR) else None;
    }

    /**
     * An edit of at most three digits is taken; any other non-empty edit,
     * four digits included, leaves the CVV as it was and says it must be numeric.
     */
    method OnCvvChange(input: string)
      modifies this
      ensures |input| <= 3 && AllDigits(input) ==>
        cvv == input && (cvvError == None <==> |input| == 3)
        && (cvvError.Some? ==> cvvError.value == CVV_LENGTH_ERROR)
      ensures !(|input| <= 3 && AllDigits(input)) ==>
        cvv == old(cvv) && cvvError == Some(CVV_NUMERIC_ERROR)
      ensures cardHolderName == old(cardHolderName) && cardHolderNameError == old(cardHolderNameError)
      ensures cardNumber == old(cardNumber) && cardNumberError == old(cardNumberError)
      ensures expiryDate == old(expiryDate) && expiryDateError == old(expiryDateError)
      ensures old(Valid()) ==> Valid()
    {
      if |input| <= 3 && AllDigits(input) {
        cvv := input;
        cvvError := if |input| < 3 then Some(CVV_LENGTH_ERROR) else None;
      } else if input != "" {
        cvvError := Some(CVV_NUMERIC_ERROR);
      }
    }

    /** `isFormValid` */
    predicate IsFormValid()
      reads this
    {
      && cardHolderNameError == None && cardNumberError == None && expiryDateError == None && cvvError == None
      && !IsBlank(cardHolderName)
      && |cardNumber| == 16 && |expiryDate| == 5 && |cvv| == 3
    }

    /** The "Pay" button: a valid form pays by card; otherwise a toast, and the result stays as it was. */
    method OnPayByCard(vm: PaymentViewModel) returns (toast: Option<string>)
      modifies vm
      ensures IsFormValid() ==> vm.paymentResult == Some(Success("Card")) && toast == None
      ensures !IsFormValid() ==> vm.paymentResult == old(vm.paymentResult) && toast == Some(FORM_ERROR_TOAST)
    {
      if IsFormValid() {
        vm.paymentResult := Some(Success("Card"));
        toast := None;
      } else {
        toast := Some(FORM_ERROR_TOAST);
      }
    }

    /** "Pay At Shop" needs no form. */
    method OnPayAtShop(vm: PaymentViewModel)
      modifies vm
      ensures vm.paymentResult == Some(Success("Pay At Shop"))
    {
      vm.paymentResult := Some(Success("Pay At Shop"));
    }

    /** The wallet activity returned. */
    method OnWalletResult(vm: PaymentViewModel, resultCode: int, statusMessage: Option<string>)
      modifies vm
      ensures vm.paymentResult == Some(WalletResult(resultCode, statusMessage))
    {
      vm.paymentResult := Some(WalletResult(resultCode, statusMessage));
    }

    /**
     * The effect run on each new payment result. A result is always consumed.
     * A success with no collection slot saves nothing; otherwise the order is
     * built from the cart and saved, and the cart is cleared only once the
     * save succeeds. An error is shown in a snackbar.
     */
    method HandlePaymentResult(vm: PaymentViewModel, cart: CartViewModel, totalAmount: int,
                               userEmail: Option<string>, userId: Option<string>, timestamp: int,
                               save: SaveOutcome)
      returns (saved: Option<Order>, message: Option<string>, confirmed: bool)
      modifies vm, cart
      ensures vm.paymentResult == None
      ensures cart.collectionDateTime == old(cart.collectionDateTime)
      ensures old(vm.paymentResult).None? ==>
        saved == None && message == None && !confirmed && cart.cartItems == old(cart.cartItems)
      ensures old(vm.paymentResult).Some? && old(vm.paymentResult).value.Error? ==>
        saved == None && message == Some(FailureText(old(vm.paymentResult).value)) && !confirmed
        && cart.cartItems == old(cart.cartItems)
      ensures old(vm.paymentResult).Some? && old(vm.paymentResult).value.Success? && cart.collectionDateTime.None? ==>
        saved == None && message == Some(NO_SLOT_TOAST) && !confirmed && cart.cartItems == old(cart.cartItems)
      ensures old(vm.paymentResult).Some? && old(vm.paymentResult).value.Success? && cart.collectionDateTime.Some? ==>
        saved == Some(BuildOrder(old(cart.cartItems), totalAmount, cart.collectionDateTime,
                                 old(vm.paymentResult).value.paidWith, userEmail, userId, timestamp))
      ensures confirmed <==> saved.Some? && save.Saved?
      ensures confirmed ==> cart.cartItems == [] && message == None
      ensures saved.Some? && save.SaveFailed? ==>
        cart.cartItems == old(cart.cartItems) && message == Some("Failed to save order: " + save.message)
    {
      saved, message, confirmed := None, None, false;
      match vm.paymentResult {
        case None =>
        case Some(Success(paidWith)) =>
          vm.paymentResult := None;
          if cart.collectionDateTime.None? {
            message := Some(NO_SLOT_TOAST);
          } else {
            var order := BuildOrder(cart.cartItems, totalAmount, cart.collectionDateTime, paidWith, userEmail, userId, timestamp);
            saved := Some(order);
            if save.Saved? {
              cart.ClearCart();
              confirmed := true;
            } else {
              message := Some("Failed to save order: " + save.message);
            }
          }
        case Some(Error(_)) =>
          message := Some(FailureText(vm.paymentResult.value));
          vm.paymentResult := None;
      }
    }
  }

  /** A valid form, within what the filters let in, has a 16-digit number, an "MM/YY" expiry and a 3-digit CVV. */
  lemma ValidFormIsComplete(page: PaymentOptionsPage)
    requires page.Valid() && page.IsFormValid()
    ensures |page.cardNumber| == 16 && AllDigits(page.cardNumber)
    ensures |page.cvv| == 3 && AllDigits(page.cvv)
    ensures page.expiryDate[2] == '/' && AllDigits(page.expiryDate[..2]) && AllDigits(page.expiryDate[3..])
    ensures !IsBlank(page.cardHolderName)
  {
  }
}

=== FILE: product_management_page.dfy ===
/**
 * The admin's product list (`pages/ProductManagementPage.kt`): the catalogue
 * narrowed to the selected category and to names containing the search
 * query, best sellers first.
 */
module ProductManagement {
  import opened Cakes
  import opened Text
  import opened Seqs
  import opened Sorting

  /** The first entry of the category menu, which restricts nothing. */
  const ALL_CATEGORIES: string := "All Categories"

  predicate InCategory(cake: Cake, selectedCategory: string)
  {
    selectedCategory == ALL_CATEGORIES || cake.category == selectedCategory
  }

  predicate MatchesQuery(cake: Cake, searchQuery: string)
  {
    IsBlank(searchQuery) || ContainsIgnoreCase(cake.name, searchQuery)
  }

  /** The condition of the `filter`. */
  predicate Shown(cake: Cake, searchQuery: string, selectedCategory: string)
  {
    InCategory(cake, selectedCategory) && MatchesQuery(cake, searchQuery)
  }

  /** `sortedByDescending { it.orders }` */
  function OrdersKey(cake: Cake): SortKey
  {
    IntKey(cake.orders)
  }

  /** `filteredCakes` */
  function FilteredCakes(cakeList: seq<Cake>, searchQuery: string, selectedCategory: string): (r: seq<Cake>)
    ensures |r| <= |cakeList|
  {
    SortBy(Filter(cakeList, (c: Cake) => Shown(c, searchQuery, selectedCategory)), OrdersKey, false)
  }

  /**
   * A cake is listed exactly when it is in the selected category (any, for
   * "All Categories") and its name contains the query (any name, for a blank
   * query), and as often as it occurs in the catalogue.
   */
  lemma FilteredCakesMembership(cakeList: seq<Cake>, searchQuery: string, selectedCategory: string, cake: Cake)
    ensures multiset(FilteredCakes(cakeList, searchQuery, selectedCategory))[cake]
         == if Shown(cake, searchQuery, selectedCategory) then multiset(cakeList)[cake] else 0
    ensures cake in FilteredCakes(cakeList, searchQuery, selectedCategory) <==>
      (cake in cakeList
       && (selectedCategory == ALL_CATEGORIES || cake.category == selectedCategory)
       && (IsBlank(searchQuery) || ContainsIgnoreCase(cake.name, searchQuery)))
  {
    var p := (c: Cake) => Shown(c, searchQuery, selectedCategory);
    var kept := Filter(cakeList, p);
    SortByPermutes(kept, OrdersKey, false);
    FilterCounts(cakeList, p, cake);
    var r := FilteredCakes(cakeList, searchQuery, selectedCategory);
    assert cake in r <==> multiset(r)[cake] > 0;
    assert cake in cakeList <==> multiset(cakeList)[cake] > 0;
  }

  /** The list runs from the most ordered cake to the least. */
  lemma FilteredCakesByOrders(cakeList: seq<Cake>, searchQuery: string, selectedCategory: string)
    ensures var r := FilteredCakes(cakeList, searchQuery, selectedCategory);
      forall i, j :: 0 <= i < j < |r| ==> r[i].orders >= r[j].orders
  {
    var kept := Filter(cakeList, (c: Cake) => Shown(c, searchQuery, selectedCategory));
    SortBySorted(kept, OrdersKey, false);
    var r := FilteredCakes(cakeList, searchQuery, selectedCategory);
    forall i, j | 0 <= i < j < |r| ensures r[i].orders >= r[j].orders {
      assert InOrder(OrdersKey(r[i]), OrdersKey(r[j]), false);
    }
  }

  /** Cakes ordered equally often keep their catalogue order. */
  lemma FilteredCakesStable(cakeList: seq<Cake>, searchQuery: string, selectedCategory: string, orders: int)
    ensures var kept := Filter(cakeList, (c: Cake) => Shown(c, searchQuery, selectedCategory));
      WithKey(FilteredCakes(cakeList, searchQuery, selectedCategory), OrdersKey, IntKey(orders))
        == WithKey(kept, OrdersKey, IntKey(orders))
  {
    var kept := Filter(cakeList, (c: Cake) => Shown(c, searchQuery, selectedCategory));
    SortByStable(kept, OrdersKey, false, IntKey(orders));
  }

  /** With "All Categories" and a blank query the whole catalogue is listed, only reordered. */
  lemma NoRestrictionListsAll(cakeList: seq<Cake>, searchQuery: string)
    requires IsBlank(searchQuery)
    ensures multiset(FilteredCakes(cakeList, searchQuery, ALL_CATEGORIES)) == multiset(cakeList)
  {
    var p := (c: Cake) => Shown(c, searchQuery, ALL_CATEGORIES);
    FilterKeepsAll(cakeList, p);
    SortByPermutes(cakeList, OrdersKey, false);
  }

  /** "No cakes available" is shown exactly when no catalogue cake passes both conditions. */
  lemma NoCakesMessage(cakeList: seq<Cake>, searchQuery: string, selectedCategory: string)
    ensures FilteredCakes(cakeList, searchQuery, selectedCategory) == [] <==>
      forall i :: 0 <= i < |cakeList| ==> !Shown(cakeList[i], searchQuery, selectedCategory)
  {
    var r := FilteredCakes(cakeList, searchQuery, selectedCategory);
    if r != [] {
      FilteredCakesMembership(cakeList, searchQuery, selectedCategory, r[0]);
    }
    forall i | 0 <= i < |cakeList| && Shown(cakeList[i], searchQuery, selectedCategory)
      ensures r != []
    {
      FilteredCakesMembership(cakeList, searchQuery, selectedCategory, cakeList[i]);
    }
  }
}

=== FILE: register_page.dfy ===
/**
 * The sign-up screen (`pages/RegisterPage.kt`): the chain of checks on the
 * form, the email pattern it uses, and the hand-over to `register`.
 */
module Register {
  import opened Wrappers
  import opened Text
  import opened Auth

  const FULL_NAME_EMPTY: string := "Full Name cannot be empty."
  const PHONE_INVALID: string := "Please enter a valid 10-digit phone number."
  const EMAIL_INVALID: string := "Please enter a valid email address."
  const PASSWORD_EMPTY: string := "Password cannot be empty."
  const PASSWORDS_DIFFER: string := "Passwords do not match."
  const REGISTRATION_TOAST: string := "Registration successful! Please log in."
  const LOGIN_ROUTE: string := "login"

  /** The class `[A-Za-z0-9+_.-]` of the pattern's part before the '@'. */
  predicate IsLocalChar(c: char)
  {
    ('A' <= c <= 'Z') || ('a' <= c <= 'z') || ('0' <= c <= '9') || c == '+' || c == '_' || c == '.' || c == '-'
  }

  /** The characters a java.util.regex `.` does not match (no DOTALL flag). */
  predicate IsLineTerminator(c: char)
  {
    c == '\n' || c == '\r' || c == '\U{0085}' || c == '\U{2028}' || c == '\U{2029}'
  }

  /** How many characters at the start of `s` belong to the local-part class. */
  function LocalPartLength(s: string): (n: nat)
    ensures n <= |s|
    ensures forall j :: 0 <= j < n ==> IsLocalChar(s[j])
    ensures n < |s| ==> !IsLocalChar(s[n])
  {
    if s == [] || !IsLocalChar(s[0]) then 0 else 1 + LocalPartLength(s[1..])
  }

  /**
   * `Pattern.compile("^[A-Za-z0-9+_.-]+@(.+)$").matcher(s).matches()`: the
   * class cannot match '@', so the '@' is the first one.
   */
  predicate EmailMatches(s: string)
  {
    var n := LocalPartLength(s);
    0 < n && n + 1 < |s| && s[n] == '@' && forall j :: n < j < |s| ==> !IsLineTerminator(s[j])
  }

  /** The pattern matches `s` with its '@' at position `i`. */
  ghost predicate EmailMatchesAt(s: string, i: int)
  {
    && 0 < i < |s| - 1
    && (forall j :: 0 <= j < i ==> IsLocalChar(s[j]))
    && s[i] == '@'
    && (forall j :: i < j < |s| ==> !IsLineTerminator(s[j]))
  }

  /** The scan agrees with the pattern's meaning: a match at some '@'. */
  lemma EmailMatchesIff(s: string)
    ensures EmailMatches(s) <==> exists i :: EmailMatchesAt(s, i)
  {
    var n := LocalPartLength(s);
    if EmailMatches(s) {
      assert EmailMatchesAt(s, n);
    }
    if i :| EmailMatchesAt(s, i) {
      assert !IsLocalChar(s[i]);
      assert n == i;
    }
  }

  /** A matching address is never blank, so the `isBlank()` test before the pattern never decides. */
  lemma EmailMatchNotBlank(s: string)
    requires EmailMatches(s)
    ensures !IsBlank(s)
  {
    assert !IsWhitespace(s[0]);
  }

  /** The `when` chain: the first failing check's message, or None when the form may be sent. */
  function RegistrationError(fullName: string, phoneNumber: string, email: string, password: string,
                             confirmPassword: string): (r: Option<string>)
    ensures r.None? <==> (!IsBlank(fullName) && !IsBlank(phoneNumber) && Utf16Length(phoneNumber) == 10
                          && EmailMatches(email) && !IsBlank(password) && password == confirmPassword)
    ensures r == Some(FULL_NAME_EMPTY) <==> IsBlank(fullName)
    ensures r == Some(PHONE_INVALID) <==> (!IsBlank(fullName) && (IsBlank(phoneNumber) || Utf16Length(phoneNumber) != 10))
    ensures r == Some(EMAIL_INVALID) <==> (!IsBlank(fullName) && !IsBlank(phoneNumber) && Utf16Length(phoneNumber) == 10
                                           && (IsBlank(email) || !EmailMatches(email)))
    ensures r == Some(PASSWORD_EMPTY) <==> (!IsBlank(fullName) && !IsBlank(phoneNumber) && Utf16Length(phoneNumber) == 10
                                            && EmailMatches(email) && IsBlank(password))
    ensures r == Some(PASSWORDS_DIFFER) <==> (!IsBlank(fullName) && !IsBlank(phoneNumber) && Utf16Length(phoneNumber) == 10
                                              && EmailMatches(email) && !IsBlank(password) && password != confirmPassword)
  {
    if IsBlank(fullName) then Some(FULL_NAME_EMPTY)
    else if IsBlank(phoneNumber) || Utf16Length(phoneNumber) != 10 then Some(PHONE_INVALID)
    else if IsBlank(email) || !EmailMatches(email) then Some(EMAIL_INVALID)
    else if IsBlank(password) then Some(PASSWORD_EMPTY)
    else if password != confirmPassword then Some(PASSWORDS_DIFFER)
    else None
  }

  /** A form the screen sends always passes `register`'s own guard. */
  lemma AcceptedFormPassesRegister(fullName: string, phoneNumber: string, email: string, password: string,
                                   confirmPassword: string)
    requires RegistrationError(fullName, phoneNumber, email, password, confirmPassword).None?
    ensures !RegisterRejected(email, password, fullName, phoneNumber)
  {
    EmailMatchNotBlank(email);
  }

  /** "a@b.c" is an address the pattern accepts. */
  lemma ShortAddressMatches()
    ensures EmailMatches("a@b.c")
  {
    var s := "a@b.c";
    assert s[1..][0] == '@';
    assert LocalPartLength(s[1..]) == 0;
  }

  /** The phone check is on length only: ten letters pass it. */
  lemma PhoneNotCheckedForDigits(fullName: string, email: string, password: string)
    requires !IsBlank(fullName) && EmailMatches(email) && !IsBlank(password)
    ensures RegistrationError(fullName, "abcdefghij", email, password, password).None?
  {
    assert !IsWhitespace("abcdefghij"[0]);
    Utf16LengthBasic("abcdefghij");
  }

  /**
   * The length is counted in UTF-16 units: five characters above U+FFFF
   * make a "10-digit" phone number, and ten of them are refused.
   */
  lemma PhoneLengthInUtf16Units(fullName: string, email: string, password: string)
    requires !IsBlank(fullName) && EmailMatches(email) && !IsBlank(password)
    ensures RegistrationError(fullName, "\U{1F600}\U{1F600}\U{1F600}\U{1F600}\U{1F600}", email, password, password).None?
    ensures RegistrationError(fullName, "\U{1F600}\U{1F600}\U{1F600}\U{1F600}\U{1F600}\U{1F600}\U{1F600}\U{1F600}\U{1F600}\U{1F600}",
                              email, password, password) == Some(PHONE_INVALID)
  {
    var five := "\U{1F600}\U{1F600}\U{1F600}\U{1F600}\U{1F600}";
    var ten := five + five;
    assert !IsWhitespace(five[0]) && !IsWhitespace(ten[0]);
    Utf16LengthSupplementary(five);
    Utf16LengthSupplementary(ten);
  }

  /** A string whose first character is not whitespace is not blank. */
  lemma NotBlankAtFirst(s: string)
    requires s != [] && !IsWhitespace(s[0])
    ensures !IsBlank(s)
  {
  }

  /** A complete form: name "Ann", phone "0123456789", address "a@b.c" and matching passwords. */
  lemma SampleFormAccepted()
    ensures RegistrationError("Ann", "0123456789", "a@b.c", "pw", "pw").None?
  {
    var name, phone, address, pw := "Ann", "0123456789", "a@b.c", "pw";
    NotBlankAtFirst(name);
    NotBlankAtFirst(phone);
    NotBlankAtFirst(pw);
    Utf16LengthBasic(phone);
    ShortAddressMatches();
    assert !IsBlank(name) && !IsBlank(phone) && Utf16Length(phone) == 10 && EmailMatches(address) && !IsBlank(pw);
  }

  class RegisterPage {
    var email: string
    var password: string
    var confirmPassword: string
    var fullName: string
    var phoneNumber: string
    var errorMessage: Option<string>

    constructor ()
      ensures email == "" && password == "" && confirmPassword == "" && fullName == "" && phoneNumber == ""
      ensures errorMessage == None
    {
      email := "";
      password := "";
      confirmPassword := "";
      fullName := "";
      phoneNumber := "";
      errorMessage := None;
    }

    /**
     * "Sign Up": the first failing check's message, or `register` followed at
     * once by the success toast and the way to the login screen, which do
     * not wait for the outcome (`create`, `save`).
     */
    method OnSignUpClicked(authViewModel: AuthViewModel, create: SignInOutcome, save: TaskOutcome)
      returns (toast: Option<string>, navigateTo: Option<string>)
      modifies this, authViewModel
      ensures var err := RegistrationError(fullName, phoneNumber, email, password, confirmPassword);
        err.Some? ==> errorMessage == err && toast == None && navigateTo == None && unchanged(authViewModel)
      ensures RegistrationError(fullName, phoneNumber, email, password, confirmPassword).None? ==>
        toast == Some(REGISTRATION_TOAST) && navigateTo == Some(LOGIN_ROUTE) && errorMessage == old(errorMessage)
      ensures RegistrationError(fullName, phoneNumber, email, password, confirmPassword).None? && create.SignedIn? ==>
        authViewModel.currentUser == Some(create.user)
        && authViewModel.authState == Some(if save.TaskOk? then Authenticated(Some(USER_ROLE))
                                           else Error(save.message.GetOr(SAVE_USER_FAILED)))
      ensures RegistrationError(fullName, phoneNumber, email, password, confirmPassword).None? && create.SignInFailed? ==>
        authViewModel.authState == Some(Error(create.message.GetOr(REGISTRATION_FAILED)))
      ensures email == old(email) && password == old(password) && confirmPassword == old(confirmPassword)
      ensures fullName == old(fullName) && phoneNumber == old(phoneNumber)
    {
      var err := RegistrationError(fullName, phoneNumber, email, password, confirmPassword);
      toast := None;
      navigateTo := None;
      if err.Some? {
        errorMessage := err;
      } else {
        AcceptedFormPassesRegister(fullName, phoneNumber, email, password, confirmPassword);
        var states, written := authViewModel.Register(email, password, fullName, phoneNumber, create, save);
        toast := Some(REGISTRATION_TOAST);
        navigateTo := Some(LOGIN_ROUTE);
      }
    }
  }

  /** For every form the screen accepts, the success toast is shown even when the account could not be created. */
  method ToastDespiteFailedCreation(fullName: string, phoneNumber: string, email: string, password: string,
                                    confirmPassword: string, message: Option<string>)
    returns (toast: Option<string>, state: Option<AuthState>)
    requires RegistrationError(fullName, phoneNumber, email, password, confirmPassword).None?
    ensures toast == Some(REGISTRATION_TOAST)
    ensures state == Some(Error(message.GetOr(REGISTRATION_FAILED)))
  {
    var vm := new AuthViewModel(None);
    var page := new RegisterPage();
    page.fullName, page.phoneNumber, page.email, page.password, page.confirmPassword :=
      fullName, phoneNumber, email, password, confirmPassword;
    var navigateTo;
    toast, navigateTo := page.OnSignUpClicked(vm, SignInFailed(message), TaskOk);
    state := vm.authState;
  }
}

=== FILE: reset_password_page.dfy ===
/**
 * The change-password screen (`pages/ResetPasswordPage.kt`): the check on
 * the two fields and `updatePassword`'s update-then-reload sequence.
 */
module ResetPassword {
  import opened Wrappers
  import opened Text
  import opened Auth

  const FIELDS_EMPTY: string := "Password fields cannot be empty"
  const PASSWORDS_DIFFER: string := "Passwords do not match"
  const CHANGED: string := "Password changed successfully"
  const UNKNOWN_ERROR: string := "Unknown error occurred"
  const NO_USER: string := "No authenticated user"
  const CHANGE_FAILED: string := "Failed to change password"
  const RELOAD_FAILED: string := "Failed to reload user data"
  const USER_PROFILE: string := "userProfile"

  /** The button's checks on the two fields, in order. */
  function PasswordPairError(password: string, confirmPassword: string): (r: Option<string>)
    ensures r.None? <==> !IsBlank(password) && password == confirmPassword
    ensures r == Some(FIELDS_EMPTY) <==> IsBlank(password) || IsBlank(confirmPassword)
    ensures r == Some(PASSWORDS_DIFFER) <==> !IsBlank(password) && !IsBlank(confirmPassword) && password != confirmPassword
  {
    if IsBlank(password) || IsBlank(confirmPassword) then Some(FIELDS_EMPTY)
    else if password != confirmPassword then Some(PASSWORDS_DIFFER)
    else None
  }

  /**
   * The `(success, error)` pair `updatePassword` reports, given whether a
   * user is signed in and how the update and the reload end.
   */
  function PasswordResult(signedIn: bool, update: TaskOutcome, reload: TaskOutcome): (r: (bool, Option<string>))
    ensures r.0 <==> signedIn && update.TaskOk? && reload.TaskOk?
    ensures r.0 <==> r.1.None?
    ensures !signedIn ==> r.1 == Some(NO_USER)
    ensures signedIn && update.TaskFailed? ==> r.1 == Some(update.message.GetOr(CHANGE_FAILED))
    ensures signedIn && update.TaskOk? && reload.TaskFailed? ==> r.1 == Some(RELOAD_FAILED)
  {
    if !signedIn then (false, Some(NO_USER))
    else if update.TaskFailed? then (false, Some(update.message.GetOr(CHANGE_FAILED)))
    else if reload.TaskFailed? then (false, Some(RELOAD_FAILED))
    else (true, None)
  }

  /**
   * `updatePassword`: asks Firebase to change the signed-in user's password
   * (`requested` is the user and password sent), then reloads the user and
   * refreshes the view model's email.
   */
  method UpdatePassword(newPassword: string, authViewModel: AuthViewModel, update: TaskOutcome, reload: TaskOutcome)
    returns (success: bool, error: Option<string>, requested: Option<(string, string)>)
    modifies authViewModel
    ensures (success, error) == PasswordResult(authViewModel.currentUser.Some?, update, reload)
    ensures requested == (if authViewModel.currentUser.Some? then Some((authViewModel.currentUser.value.uid, newPassword)) else None)
    ensures success ==> authViewModel.userEmail == authViewModel.currentUser.value.email
    ensures !success ==> authViewModel.userEmail == old(authViewModel.userEmail)
    ensures authViewModel.currentUser == old(authViewModel.currentUser) && authViewModel.authState == old(authViewModel.authState)
    ensures authViewModel.fullName == old(authViewModel.fullName) && authViewModel.phoneNumber == old(authViewModel.phoneNumber)
  {
    requested := None;
    var user := authViewModel.currentUser;
    if user.Some? {
      requested := Some((user.value.uid, newPassword));
      if update.TaskOk? {
        if reload.TaskOk? {
          authViewModel.RefreshUserEmail();
          success, error := true, None;
        } else {
          success, error := false, Some(RELOAD_FAILED);
        }
      } else {
        success, error := false, Some(update.message.GetOr(CHANGE_FAILED));
      }
    } else {
      success, error := false, Some(NO_USER);
    }
  }

  class ResetPasswordPage {
    var password: string
    var confirmPassword: string
    var errorMessage: Option<string>

    constructor ()
      ensures password == "" && confirmPassword == "" && errorMessage == None
    {
      password := "";
      confirmPassword := "";
      errorMessage := None;
    }

    /**
     * "Change Password": the field checks, then `updatePassword`; success
     * shows a toast and returns to the profile, failure shows the error
     * under the form and in a toast.
     */
    method OnChangePasswordClicked(authViewModel: AuthViewModel, update: TaskOutcome, reload: TaskOutcome)
      returns (toast: Option<string>, navigateTo: Option<string>)
      modifies this, authViewModel
      ensures PasswordPairError(password, confirmPassword).Some? ==>
        errorMessage == PasswordPairError(password, confirmPassword) && toast == None && navigateTo == None
        && unchanged(authViewModel)
      ensures PasswordPairError(password, confirmPassword).None? && PasswordResult(authViewModel.currentUser.Some?, update, reload).0 ==>
        errorMessage == None && toast == Some(CHANGED) && navigateTo == Some(USER_PROFILE)
      ensures PasswordPairError(password, confirmPassword).None? && !PasswordResult(authViewModel.currentUser.Some?, update, reload).0 ==>
        errorMessage == PasswordResult(authViewModel.currentUser.Some?, update, reload).1
        && toast == errorMessage && navigateTo == None
      ensures password == old(password) && confirmPassword == old(confirmPassword)
      ensures authViewModel.currentUser == old(authViewModel.currentUser) && authViewModel.authState == old(authViewModel.authState)
    {
      toast := None;
      navigateTo := None;
      var err := PasswordPairError(password, confirmPassword);
      if err.Some? {
        errorMessage := err;
      } else {
        errorMessage := None;
        var success, error, requested := UpdatePassword(password, authViewModel, update, reload);
        if success {
          toast := Some(CHANGED);
          navigateTo := Some(USER_PROFILE);
        } else {
          errorMessage := Some(error.GetOr(UNKNOWN_ERROR));
          toast := errorMessage;
        }
      }
    }
  }

  /** `updatePassword` never fails without a message, so "Unknown error occurred" is never shown for its own failures. */
  lemma FailureAlwaysExplained(signedIn: bool, update: TaskOutcome, reload: TaskOutcome)
    requires !PasswordResult(signedIn, update, reload).0
    ensures PasswordResult(signedIn, update, reload).1.GetOr(UNKNOWN_ERROR) != UNKNOWN_ERROR
      || (update.TaskFailed? && update.message == Some(UNKNOWN_ERROR))
  {
  }
}

=== FILE: sales_analytics.dfy ===
/**
 * Sales analytics (`SalesAnalyticsViewModel.kt`): quantity sold per cake
 * name, and revenue per day, month or year, each accumulated over the
 * fetched orders in a `mutableMapOf` and then listed and sorted. Amounts are
 * in cents. A step that throws abandons the whole fetch and leaves the shown
 * list as it was.
 */
module SalesAnalytics {
  import opened Wrappers
  import opened Numerals
  import opened Seqs
  import opened Sorting
  import opened Grouping
  import opened Calendar
  import opened Orders

  datatype CakeSalesData = CakeSalesData(cakeName: string, totalQuantity: int)

  /** A bar of the revenue chart: its label and the revenue in cents. */
  datatype RevenueData = RevenueData(labelText: string, revenue: int)

  // ---------------------------------------------------------------------------
  // Hot-selling cakes
  // ---------------------------------------------------------------------------

  /** (cake name, quantity) of each item of an order, in order. */
  function ItemAmounts(items: seq<OrderItem>): (r: seq<(string, int)>)
    ensures |r| == |items|
    ensures forall i :: 0 <= i < |items| ==> r[i] == (items[i].cakeName, items[i].quantity)
  {
    if items == [] then [] else ItemAmounts(items[..|items| - 1]) + [(items[|items| - 1].cakeName, items[|items| - 1].quantity)]
  }

  lemma ItemAmountsStep(before: seq<(string, int)>, items: seq<OrderItem>, j: nat)
    requires j < |items|
    ensures before + ItemAmounts(items[..j + 1])
         == (before + ItemAmounts(items[..j])) + [(items[j].cakeName, items[j].quantity)]
  {
    assert items[..j + 1][..j] == items[..j];
  }

  /** (cake name, quantity) of every item of every order, in the order the loops visit them. */
  function SoldAmounts(orders: seq<Order>): seq<(string, int)>
  {
    if orders == [] then [] else SoldAmounts(orders[..|orders| - 1]) + ItemAmounts(orders[|orders| - 1].items)
  }

  lemma SoldAmountsStep(orders: seq<Order>, i: nat)
    requires i < |orders|
    ensures SoldAmounts(orders[..i + 1]) == SoldAmounts(orders[..i]) + ItemAmounts(orders[i].items)
  {
    assert orders[..i + 1][..i] == orders[..i];
  }

  function MakeSales(name: string, total: int): CakeSalesData
  {
    CakeSalesData(name, total)
  }

  function QuantityKey(e: CakeSalesData): SortKey
  {
    IntKey(e.totalQuantity)
  }

  function Quantity(e: CakeSalesData): int
  {
    e.totalQuantity
  }

  /** The hot-selling list: one entry per name, best sellers first. */
  function HotSelling(orders: seq<Order>): (r: seq<CakeSalesData>)
    ensures |r| == |Accumulate(SoldAmounts(orders)).keys|
  {
    SortBy(GroupEntries(SoldAmounts(orders), MakeSales), QuantityKey, false)
  }

  /** Every name sold gets one entry carrying the sum of its quantities, and there is no other entry. */
  lemma HotSellingEntries(orders: seq<Order>)
    ensures var pairs := SoldAmounts(orders); var r := HotSelling(orders);
      && (forall i :: 0 <= i < |r| ==> r[i].cakeName in Firsts(pairs) && r[i].totalQuantity == KeySum(pairs, r[i].cakeName))
      && (forall name :: name in Firsts(pairs) ==> CakeSalesData(name, KeySum(pairs, name)) in r)
  {
    var pairs := SoldAmounts(orders);
    var entries := GroupEntries(pairs, MakeSales);
    var r := HotSelling(orders);
    SortByPermutes(entries, QuantityKey, false);
    GroupEntriesComplete(pairs, MakeSales, r);
    forall i | 0 <= i < |r| ensures r[i].cakeName in Firsts(pairs) && r[i].totalQuantity == KeySum(pairs, r[i].cakeName) {
      var k := GroupEntryKey(pairs, MakeSales, r, i);
    }
  }

  /** No name is listed twice. */
  lemma HotSellingUnique(orders: seq<Order>)
    ensures var r := HotSelling(orders);
      forall i, j :: 0 <= i < j < |r| ==> r[i].cakeName != r[j].cakeName
  {
    var pairs := SoldAmounts(orders);
    var entries := GroupEntries(pairs, MakeSales);
    var r := HotSelling(orders);
    SortByPermutes(entries, QuantityKey, false);
    forall i, j | 0 <= i < j < |r| ensures r[i].cakeName != r[j].cakeName {
      GroupEntriesUnique(pairs, MakeSales, (e: CakeSalesData) => e.cakeName, r);
      var ki := GroupEntryKey(pairs, MakeSales, r, i);
      var kj := GroupEntryKey(pairs, MakeSales, r, j);
    }
  }

  /** The entries add up to every quantity sold, and the list runs from the highest total down. */
  lemma HotSellingTotals(orders: seq<Order>)
    ensures var r := HotSelling(orders);
      SumBy(r, Quantity) == TotalSum(SoldAmounts(orders)) && Sorted(r, QuantityKey, false)
  {
    var pairs := SoldAmounts(orders);
    var entries := GroupEntries(pairs, MakeSales);
    var r := HotSelling(orders);
    SortByPermutes(entries, QuantityKey, false);
    SortBySorted(entries, QuantityKey, false);
    GroupEntriesConserve(pairs, MakeSales, Quantity, r);
  }

  // ---------------------------------------------------------------------------
  // Revenue
  // ---------------------------------------------------------------------------

  /**
   * (key, totalPrice) of each order, where `keyOf` reads the key off the
   * order; `None` once some order's key cannot be read (the loop throws).
   */
  function KeyedAmounts(orders: seq<Order>, keyOf: Order -> Option<int>): (r: Option<seq<(int, int)>>)
    ensures r.Some? <==> forall i :: 0 <= i < |orders| ==> keyOf(orders[i]).Some?
    ensures r.Some? ==> |r.value| == |orders|
    ensures r.Some? ==> forall i :: 0 <= i < |orders| ==> r.value[i] == (keyOf(orders[i]).value, orders[i].totalPrice)
  {
    if orders == [] then Some([])
    else
      var n := |orders| - 1;
      match KeyedAmounts(orders[..n], keyOf)
      case None => None
      case Some(init) =>
        match keyOf(orders[n])
        case None => None
        case Some(k) => Some(init + [(k, orders[n].totalPrice)])
  }

  function TotalPrice(o: Order): int
  {
    o.totalPrice
  }

  function Revenue(e: RevenueData): int
  {
    e.revenue
  }

  /** The amounts paired with keys add up to the orders' total revenue. */
  lemma {:induction false} KeyedAmountsTotal(orders: seq<Order>, keyOf: Order -> Option<int>)
    requires KeyedAmounts(orders, keyOf).Some?
    ensures TotalSum(KeyedAmounts(orders, keyOf).value) == SumBy(orders, TotalPrice)
  {
    if orders != [] {
      var n := |orders| - 1;
      KeyedAmountsTotal(orders[..n], keyOf);
      var p := KeyedAmounts(orders, keyOf).value;
      assert p[..n] == KeyedAmounts(orders[..n], keyOf).value;
    }
  }

  /** A key that appears comes from some order. */
  lemma KeyFromOrder(orders: seq<Order>, keyOf: Order -> Option<int>, k: int)
    requires KeyedAmounts(orders, keyOf).Some? && k in Firsts(KeyedAmounts(orders, keyOf).value)
    ensures exists i :: 0 <= i < |orders| && keyOf(orders[i]) == Some(k)
  {
    var p := KeyedAmounts(orders, keyOf).value;
    var i :| 0 <= i < |Firsts(p)| && Firsts(p)[i] == k;
    assert keyOf(orders[i]) == Some(k);
  }

  /** The facts every revenue list shares: each bar is made from a key `k` and the sum of that key's amounts ... */
  lemma RevenueListKey<K>(pairs: seq<(K, int)>, mk: (K, int) -> RevenueData, sortKey: RevenueData -> SortKey, i: int)
    returns (k: K)
    requires 0 <= i < |SortBy(GroupEntries(pairs, mk), sortKey, true)|
    ensures k in Firsts(pairs) && SortBy(GroupEntries(pairs, mk), sortKey, true)[i] == mk(k, KeySum(pairs, k))
  {
    var entries := GroupEntries(pairs, mk);
    SortByPermutes(entries, sortKey, true);
    k := GroupEntryKey(pairs, mk, SortBy(entries, sortKey, true), i);
  }

  /** ... every key has its bar ... */
  lemma RevenueListComplete<K>(pairs: seq<(K, int)>, mk: (K, int) -> RevenueData, sortKey: RevenueData -> SortKey)
    ensures forall k :: k in Firsts(pairs) ==> mk(k, KeySum(pairs, k)) in SortBy(GroupEntries(pairs, mk), sortKey, true)
  {
    var entries := GroupEntries(pairs, mk);
    SortByPermutes(entries, sortKey, true);
    GroupEntriesComplete(pairs, mk, SortBy(entries, sortKey, true));
  }

  /** ... and nothing listed twice. */
  lemma RevenueListUnique<K>(pairs: seq<(K, int)>, mk: (K, int) -> RevenueData,
                          keyBack: RevenueData -> K, sortKey: RevenueData -> SortKey)
    requires forall k, v :: k in Firsts(pairs) ==> keyBack(mk(k, v)) == k
    ensures NoDuplicates(SortBy(GroupEntries(pairs, mk), sortKey, true))
  {
    var entries := GroupEntries(pairs, mk);
    SortByPermutes(entries, sortKey, true);
    GroupEntriesUnique(pairs, mk, keyBack, SortBy(entries, sortKey, true));
  }

  /** The bars add up to the revenue of all orders, and run in ascending order of `sortKey`. */
  lemma RevenueListTotals(orders: seq<Order>, keyOf: Order -> Option<int>, mk: (int, int) -> RevenueData,
                          sortKey: RevenueData -> SortKey)
    requires KeyedAmounts(orders, keyOf).Some?
    requires forall k, v :: mk(k, v).revenue == v
    ensures var r := SortBy(GroupEntries(KeyedAmounts(orders, keyOf).value, mk), sortKey, true);
      SumBy(r, Revenue) == SumBy(orders, TotalPrice) && Sorted(r, sortKey, true)
  {
    var pairs := KeyedAmounts(orders, keyOf).value;
    var entries := GroupEntries(pairs, mk);
    var r := SortBy(entries, sortKey, true);
    SortByPermutes(entries, sortKey, true);
    SortBySorted(entries, sortKey, true);
    forall k, v ensures Revenue(mk(k, v)) == v {
    }
    GroupEntriesConserve(pairs, mk, Revenue, r);
    KeyedAmountsTotal(orders, keyOf);
  }

  // Daily: keyed on the day of month of the parsed collection date.

  /** `LocalDate.parse(collectionDate, "yyyy-MM-dd").dayOfMonth` */
  function DayOf(o: Order): (r: Option<int>)
    ensures r.Some? ==> 1 <= r.value <= 31
  {
    match ParseDate(o.collectionDate)
    case None => None
    case Some(d) => Some(d.day)
  }

  function DayEntry(day: int, total: int): RevenueData
  {
    RevenueData(IntToString(day), total)
  }

  /** `label.toInt()`; the labels sorted here are all `Int.toString()` output. */
  function LabelNumber(text: string): int
  {
    ToIntOrNull(text).GetOr(0)
  }

  function DayKey(e: RevenueData): SortKey
  {
    IntKey(LabelNumber(e.labelText))
  }

  function DailyRevenue(orders: seq<Order>): (r: Option<seq<RevenueData>>)
    ensures r.Some? <==> forall i :: 0 <= i < |orders| ==> ParseDate(orders[i].collectionDate).Some?
  {
    match KeyedAmounts(orders, DayOf)
    case None => None
    case Some(pairs) => Some(SortBy(GroupEntries(pairs, DayEntry), DayKey, true))
  }

  /** A day's bar is labelled with the day's number and sorts by it. */
  lemma DayLabel(day: int, total: int)
    requires 1 <= day <= 31
    ensures LabelNumber(DayEntry(day, total).labelText) == day
    ensures DayKey(DayEntry(day, total)) == IntKey(day)
  {
    IntToStringRoundTrip(day);
  }

  /** `e` is the bar of the day its label names, a day that has orders, with that day's revenue. */
  predicate IsDayBar(pairs: seq<(int, int)>, e: RevenueData)
  {
    var day := LabelNumber(e.labelText);
    day in Firsts(pairs) && e == DayEntry(day, KeySum(pairs, day))
  }

  /** One bar per day that has orders, with that day's revenue, and no other bar. */
  lemma DailyRevenueEntries(orders: seq<Order>)
    requires DailyRevenue(orders).Some?
    ensures var pairs := KeyedAmounts(orders, DayOf).value; var r := DailyRevenue(orders).value;
      && (forall i :: 0 <= i < |r| ==> IsDayBar(pairs, r[i]))
      && (forall day :: day in Firsts(pairs) ==> DayEntry(day, KeySum(pairs, day)) in r)
  {
    var pairs := KeyedAmounts(orders, DayOf).value;
    var r := DailyRevenue(orders).value;
    assert r == SortBy(GroupEntries(pairs, DayEntry), DayKey, true);
    RevenueListComplete(pairs, DayEntry, DayKey);
    forall i | 0 <= i < |r| ensures IsDayBar(pairs, r[i]) {
      var day := RevenueListKey(pairs, DayEntry, DayKey, i);
      KeyFromOrder(orders, DayOf, day);
      DayLabel(day, KeySum(pairs, day));
    }
  }

  /** No day has two bars. */
  lemma DailyRevenueUnique(orders: seq<Order>)
    requires DailyRevenue(orders).Some?
    ensures NoDuplicates(DailyRevenue(orders).value)
  {
    var pairs := KeyedAmounts(orders, DayOf).value;
    forall k, v | k in Firsts(pairs) ensures LabelNumber(DayEntry(k, v).labelText) == k {
      KeyFromOrder(orders, DayOf, k);
      DayLabel(k, v);
    }
    RevenueListUnique(pairs, DayEntry, (e: RevenueData) => LabelNumber(e.labelText), DayKey);
  }

  /** The daily bars add up to the revenue of all orders, and run in day order. */
  lemma DailyRevenueTotals(orders: seq<Order>)
    requires DailyRevenue(orders).Some?
    ensures var r := DailyRevenue(orders).value;
      SumBy(r, Revenue) == SumBy(orders, TotalPrice) && Sorted(r, DayKey, true)
  {
    RevenueListTotals(orders, DayOf, DayEntry, DayKey);
  }

  // Monthly: keyed on the number at positions 5..7 of the collection date.

  const MONTH_NAMES: seq<string> := ["January", "February", "March", "April", "May", "June",
    "July", "August", "September", "October", "November", "December"]

  /** `collectionDate.substring(5, 7).toInt()` */
  function MonthOf(o: Order): Option<int>
  {
    if |o.collectionDate| < 7 then None else ToIntOrNull(o.collectionDate[5..7])
  }

  /**
   * `monthNames[month - 1]`. Outside 1..12 the source throws (see `MonthOutOfRangeThrows`);
   * the "" there is a placeholder that no bar receives.
   */
  function MonthName(month: int): string
  {
    if 1 <= month <= 12 then MONTH_NAMES[month - 1] else ""
  }

  function MonthEntry(month: int, total: int): RevenueData
  {
    RevenueData(MonthName(month), total)
  }

  /** `list.indexOf(x)`: the first position of `x`, or -1. */
  function IndexOf<T(==)>(list: seq<T>, x: T): (r: int)
    ensures r == -1 <==> x !in list
    ensures r >= 0 ==> r < |list| && list[r] == x
  {
    if x in list then FirstIndex(list, x) else -1
  }

  function MonthKey(e: RevenueData): SortKey
  {
    IntKey(IndexOf(MONTH_NAMES, e.labelText))
  }

  lemma MonthNamesDistinct()
    ensures NoDuplicates(MONTH_NAMES)
  {
  }

  /** A month's bar carries its name, and sorts by its place in the calendar. */
  lemma MonthLabel(month: int, total: int)
    requires 1 <= month <= 12
    ensures IndexOf(MONTH_NAMES, MonthEntry(month, total).labelText) == month - 1
    ensures MonthKey(MonthEntry(month, total)) == IntKey(month - 1)
  {
    MonthNamesDistinct();
    var i := IndexOf(MONTH_NAMES, MONTH_NAMES[month - 1]);
    assert MONTH_NAMES[i] == MONTH_NAMES[month - 1];
  }

  /** Every month read is 1..12; otherwise listing the months throws. */
  predicate MonthsInRange(pairs: seq<(int, int)>)
  {
    forall i :: 0 <= i < |pairs| ==> 1 <= pairs[i].0 <= 12
  }

  /** The months are all in range exactly when the map's keys are. */
  lemma MonthKeysInRange(pairs: seq<(int, int)>)
    ensures MonthsInRange(pairs) <==> forall j :: 0 <= j < |Accumulate(pairs).keys| ==> 1 <= Accumulate(pairs).keys[j] <= 12
  {
    var keys := Accumulate(pairs).keys;
    AccumulateKeys(pairs);
    DistinctElements(Firsts(pairs));
    if MonthsInRange(pairs) {
      forall j | 0 <= j < |keys| ensures 1 <= keys[j] <= 12 {
        AccumulateTotals(pairs, keys[j]);
        var i :| 0 <= i < |Firsts(pairs)| && Firsts(pairs)[i] == keys[j];
      }
    } else {
      var i :| 0 <= i < |pairs| && !(1 <= pairs[i].0 <= 12);
      assert Firsts(pairs)[i] in Distinct(Firsts(pairs));
    }
  }

  function MonthlyRevenue(orders: seq<Order>): (r: Option<seq<RevenueData>>)
    ensures r.Some? ==> forall i :: 0 <= i < |orders| ==> MonthOf(orders[i]).Some? && 1 <= MonthOf(orders[i]).value <= 12
  {
    match KeyedAmounts(orders, MonthOf)
    case None => None
    case Some(pairs) =>
      if MonthsInRange(pairs) then Some(SortBy(GroupEntries(pairs, MonthEntry), MonthKey, true)) else None
  }

  /** The month (1..12) a bar's label names, or 0 for a label that is no month name. */
  function MonthNumber(e: RevenueData): int
  {
    IndexOf(MONTH_NAMES, e.labelText) + 1
  }

  /** `e` is the bar of the month its label names, a month that has orders, with that month's revenue. */
  predicate IsMonthBar(pairs: seq<(int, int)>, e: RevenueData)
  {
    var m := MonthNumber(e);
    1 <= m <= 12 && m in Firsts(pairs) && e == MonthEntry(m, KeySum(pairs, m))
  }

  lemma MonthBar(pairs: seq<(int, int)>, m: int)
    requires 1 <= m <= 12 && m in Firsts(pairs)
    ensures IsMonthBar(pairs, MonthEntry(m, KeySum(pairs, m)))
  {
    MonthLabel(m, KeySum(pairs, m));
  }

  /** One bar per month that has orders, named after it, with its revenue, and no other bar. */
  lemma MonthlyRevenueEntries(orders: seq<Order>)
    requires MonthlyRevenue(orders).Some?
    ensures var pairs := KeyedAmounts(orders, MonthOf).value; var r := MonthlyRevenue(orders).value;
      && (forall i :: 0 <= i < |r| ==> IsMonthBar(pairs, r[i]))
      && (forall m :: m in Firsts(pairs) ==> MonthEntry(m, KeySum(pairs, m)) in r)
  {
    var pairs := KeyedAmounts(orders, MonthOf).value;
    var r := MonthlyRevenue(orders).value;
    assert MonthsInRange(pairs);
    assert r == SortBy(GroupEntries(pairs, MonthEntry), MonthKey, true);
    RevenueListComplete(pairs, MonthEntry, MonthKey);
    forall i | 0 <= i < |r| ensures IsMonthBar(pairs, r[i]) {
      var m := RevenueListKey(pairs, MonthEntry, MonthKey, i);
      var j :| 0 <= j < |Firsts(pairs)| && Firsts(pairs)[j] == m;
      assert 1 <= pairs[j].0 <= 12;
      MonthBar(pairs, m);
    }
  }

  /** No month has two bars. */
  lemma MonthlyRevenueUnique(orders: seq<Order>)
    requires MonthlyRevenue(orders).Some?
    ensures NoDuplicates(MonthlyRevenue(orders).value)
  {
    var pairs := KeyedAmounts(orders, MonthOf).value;
    MonthNumbersBack(pairs);
    RevenueListUnique(pairs, MonthEntry, MonthNumber, MonthKey);
  }

  /** With every month in 1..12, each month's bar names that month. */
  lemma MonthNumbersBack(pairs: seq<(int, int)>)
    requires MonthsInRange(pairs)
    ensures forall k, v :: k in Firsts(pairs) ==> MonthNumber(MonthEntry(k, v)) == k
  {
    forall k, v | k in Firsts(pairs) ensures MonthNumber(MonthEntry(k, v)) == k {
      var i :| 0 <= i < |Firsts(pairs)| && Firsts(pairs)[i] == k;
      MonthLabel(k, v);
    }
  }

  /** The monthly bars add up to the revenue of all orders, and run in calendar order. */
  lemma MonthlyRevenueTotals(orders: seq<Order>)
    requires MonthlyRevenue(orders).Some?
    ensures var r := MonthlyRevenue(orders).value;
      SumBy(r, Revenue) == SumBy(orders, TotalPrice) && Sorted(r, MonthKey, true)
  {
    RevenueListTotals(orders, MonthOf, MonthEntry, MonthKey);
  }

  /** A month outside 1..12 makes the whole fetch throw. */
  lemma MonthOutOfRangeThrows(orders: seq<Order>, i: nat)
    requires i < |orders| && MonthOf(orders[i]).Some? && !(1 <= MonthOf(orders[i]).value <= 12)
    ensures MonthlyRevenue(orders).None?
  {
  }

  // Yearly: keyed on the number at positions 0..4 of the collection date.

  /** `collectionDate.substring(0, 4).toInt()` */
  function YearOf(o: Order): Option<int>
  {
    if |o.collectionDate| < 4 then None else ToIntOrNull(o.collectionDate[..4])
  }

  function YearEntry(year: int, total: int): RevenueData
  {
    RevenueData(IntToString(year), total)
  }

  /** `sortedBy { it.label }`: by the label's text, not its number. */
  function YearKey(e: RevenueData): SortKey
  {
    StrKey(e.labelText)
  }

  function YearlyRevenue(orders: seq<Order>): (r: Option<seq<RevenueData>>)
    ensures r.Some? <==> forall i :: 0 <= i < |orders| ==> YearOf(orders[i]).Some?
  {
    match KeyedAmounts(orders, YearOf)
    case None => None
    case Some(pairs) => Some(SortBy(GroupEntries(pairs, YearEntry), YearKey, true))
  }

  /** A year's bar is labelled with the year as it was read. */
  lemma YearLabels(orders: seq<Order>)
    requires KeyedAmounts(orders, YearOf).Some?
    ensures var pairs := KeyedAmounts(orders, YearOf).value;
      forall k, v :: k in Firsts(pairs) ==> LabelNumber(YearEntry(k, v).labelText) == k
  {
    var pairs := KeyedAmounts(orders, YearOf).value;
    forall k, v | k in Firsts(pairs) ensures LabelNumber(YearEntry(k, v).labelText) == k {
      KeyFromOrder(orders, YearOf, k);
      var i :| 0 <= i < |orders| && YearOf(orders[i]) == Some(k);
      IntToStringRoundTrip(k);
    }
  }

  /** `e` is the bar of the year its label names, a year that has orders, with that year's revenue. */
  predicate IsYearBar(pairs: seq<(int, int)>, e: RevenueData)
  {
    var year := LabelNumber(e.labelText);
    year in Firsts(pairs) && e == YearEntry(year, KeySum(pairs, year))
  }

  /** One bar per year that has orders, labelled with the year, with its revenue, and no other bar. */
  lemma YearlyRevenueEntries(orders: seq<Order>)
    requires YearlyRevenue(orders).Some?
    ensures var pairs := KeyedAmounts(orders, YearOf).value; var r := YearlyRevenue(orders).value;
      && (forall i :: 0 <= i < |r| ==> IsYearBar(pairs, r[i]))
      && (forall y :: y in Firsts(pairs) ==> YearEntry(y, KeySum(pairs, y)) in r)
  {
    var pairs := KeyedAmounts(orders, YearOf).value;
    var r := YearlyRevenue(orders).value;
    assert r == SortBy(GroupEntries(pairs, YearEntry), YearKey, true);
    RevenueListComplete(pairs, YearEntry, YearKey);
    YearLabels(orders);
    forall i | 0 <= i < |r| ensures IsYearBar(pairs, r[i]) {
      var y := RevenueListKey(pairs, YearEntry, YearKey, i);
      assert LabelNumber(YearEntry(y, KeySum(pairs, y)).labelText) == y;
    }
  }

  /** No year has two bars. */
  lemma YearlyRevenueUnique(orders: seq<Order>)
    requires YearlyRevenue(orders).Some?
    ensures NoDuplicates(YearlyRevenue(orders).value)
  {
    var pairs := KeyedAmounts(orders, YearOf).value;
    YearLabels(orders);
    RevenueListUnique(pairs, YearEntry, (e: RevenueData) => LabelNumber(e.labelText), YearKey);
  }

  /** The yearly bars add up to the revenue of all orders, and run in label order. */
  lemma YearlyRevenueTotals(orders: seq<Order>)
    requires YearlyRevenue(orders).Some?
    ensures var r := YearlyRevenue(orders).value;
      SumBy(r, Revenue) == SumBy(orders, TotalPrice) && Sorted(r, YearKey, true)
  {
    RevenueListTotals(orders, YearOf, YearEntry, YearKey);
  }

  // ---------------------------------------------------------------------------
  // The query ranges
  // ---------------------------------------------------------------------------

  /** Which Firestore query a revenue fetch runs: a range of `collectionDate` strings, or every order. */
  datatype RevenueQuery = DateRange(low: string, high: string) | AllOrders | NoQuery

  /** `fetchDailyRevenue`'s range: the first and last day of the month, formatted. */
  function DailyRange(year: int, month: int): (q: RevenueQuery)
    requires 1 <= month <= 12
    ensures q.DateRange?
  {
    DateRange(FormatDate(Date(year, month, 1)), FormatDate(Date(year, month, MonthLength(year, month))))
  }

  /** The daily range reads back as the month's first and last day. */
  lemma DailyRangeDays(year: int, month: int)
    requires 1 <= month <= 12 && 1 <= year <= 9999
    ensures ParseDate(DailyRange(year, month).low) == Some(Date(year, month, 1))
    ensures ParseDate(DailyRange(year, month).high) == Some(Date(year, month, MonthLength(year, month)))
  {
    ParseFormatDate(Date(year, month, 1));
    ParseFormatDate(Date(year, month, MonthLength(year, month)));
  }

  /** `fetchMonthlyRevenue`'s range: "$year-01-01" to "$year-12-31", the year as `Int.toString()` prints it. */
  function MonthlyRange(year: int): (q: RevenueQuery)
    ensures q.DateRange? && q.low == IntToString(year) + "-01-01" && q.high == IntToString(year) + "-12-31"
  {
    DateRange(IntToString(year) + "-01-01", IntToString(year) + "-12-31")
  }

  // ---------------------------------------------------------------------------
  // The view model
  // ---------------------------------------------------------------------------

  class SalesAnalyticsViewModel {
    var hotSellingCakes: seq<CakeSalesData>
    var revenueData: seq<RevenueData>

    constructor ()
      ensures hotSellingCakes == [] && revenueData == []
    {
      hotSellingCakes := [];
      revenueData := [];
    }

    /** `fetchHotSellingCakes`, given the fetched orders. */
    method FetchHotSellingCakes(snapshot: seq<Order>)
      modifies this
      ensures hotSellingCakes == HotSelling(snapshot)
      ensures revenueData == old(revenueData)
    {
      var cakeSalesMap: Groups<string> := NoGroups();
      var i := 0;
      while i < |snapshot|
        invariant 0 <= i <= |snapshot|
        invariant cakeSalesMap == Accumulate(SoldAmounts(snapshot[..i]))
        invariant revenueData == old(revenueData)
      {
        cakeSalesMap := AddItems(cakeSalesMap, SoldAmounts(snapshot[..i]), snapshot[i].items);
        SoldAmountsStep(snapshot, i);
        i := i + 1;
      }
      assert snapshot[..i] == snapshot;
      var cakeSalesList := Listed(cakeSalesMap.keys, cakeSalesMap.totals, MakeSales);
      hotSellingCakes := SortBy(cakeSalesList, QuantityKey, false);
    }

    /** The inner loop of `fetchHotSellingCakes`: one order's items added to the totals so far. */
    static method AddItems(cakeSalesMap: Groups<string>, ghost before: seq<(string, int)>, items: seq<OrderItem>)
      returns (r: Groups<string>)
      requires cakeSalesMap == Accumulate(before)
      ensures r == Accumulate(before + ItemAmounts(items))
    {
      r := cakeSalesMap;
      var j := 0;
      assert before + ItemAmounts(items[..0]) == before;
      while j < |items|
        invariant 0 <= j <= |items|
        invariant r == Accumulate(before + ItemAmounts(items[..j]))
      {
        ItemAmountsStep(before, items, j);
        AccumulateStep(before + ItemAmounts(items[..j]), items[j].cakeName, items[j].quantity);
        r := AddTo(r, items[j].cakeName, items[j].quantity);
        j := j + 1;
      }
      assert items[..j] == items;
    }

    /** The loop shared by the revenue fetches: `None` where reading a key throws. */
    static method GroupRevenue(snapshot: seq<Order>, keyOf: Order -> Option<int>) returns (r: Option<Groups<int>>)
      ensures r.Some? <==> KeyedAmounts(snapshot, keyOf).Some?
      ensures r.Some? ==> r.value == Accumulate(KeyedAmounts(snapshot, keyOf).value)
    {
      var revenueMap: Groups<int> := NoGroups();
      var i := 0;
      while i < |snapshot|
        invariant 0 <= i <= |snapshot|
        invariant KeyedAmounts(snapshot[..i], keyOf).Some?
        invariant revenueMap == Accumulate(KeyedAmounts(snapshot[..i], keyOf).value)
      {
        var key := keyOf(snapshot[i]);
        if key.None? {
          assert snapshot[i] == snapshot[..i + 1][i];
          return None;
        }
        ghost var done := KeyedAmounts(snapshot[..i], keyOf).value;
        assert snapshot[..i + 1][..i] == snapshot[..i];
        assert KeyedAmounts(snapshot[..i + 1], keyOf).value == done + [(key.value, snapshot[i].totalPrice)];
        AccumulateStep(done, key.value, snapshot[i].totalPrice);
        revenueMap := AddTo(revenueMap, key.value, snapshot[i].totalPrice);
        i := i + 1;
      }
      assert snapshot[..i] == snapshot;
      return Some(revenueMap);
    }

    method FetchDailyRevenue(snapshot: seq<Order>)
      modifies this
      ensures revenueData == DailyRevenue(snapshot).GetOr(old(revenueData))
      ensures hotSellingCakes == old(hotSellingCakes)
    {
      var dailyRevenueMap := GroupRevenue(snapshot, DayOf);
      if dailyRevenueMap.Some? {
        var g := dailyRevenueMap.value;
        revenueData := SortBy(Listed(g.keys, g.totals, DayEntry), DayKey, true);
      }
    }

    method FetchMonthlyRevenue(snapshot: seq<Order>)
      modifies this
      ensures revenueData == MonthlyRevenue(snapshot).GetOr(old(revenueData))
      ensures hotSellingCakes == old(hotSellingCakes)
    {
      var monthlyRevenueMap := GroupRevenue(snapshot, MonthOf);
      if monthlyRevenueMap.Some? {
        var g := monthlyRevenueMap.value;
        MonthKeysInRange(KeyedAmounts(snapshot, MonthOf).value);
        // Listing throws at the first key outside 1..12.
        if forall j :: 0 <= j < |g.keys| ==> 1 <= g.keys[j] <= 12 {
          revenueData := SortBy(Listed(g.keys, g.totals, MonthEntry), MonthKey, true);
        }
      }
    }

    method FetchYearlyRevenue(snapshot: seq<Order>)
      modifies this
      ensures revenueData == YearlyRevenue(snapshot).GetOr(old(revenueData))
      ensures hotSellingCakes == old(hotSellingCakes)
    {
      var yearlyRevenueMap := GroupRevenue(snapshot, YearOf);
      if yearlyRevenueMap.Some? {
        var g := yearlyRevenueMap.value;
        revenueData := SortBy(Listed(g.keys, g.totals, YearEntry), YearKey, true);
      }
    }

    /**
     * `fetchRevenueData`: "Daily" needs a year and a month, "Monthly" a year;
     * any other time frame does nothing. `snapshot` is what the query
     * returned, and `query` says which query is sent.
     */
    method FetchRevenueData(selectedYear: Option<int>, selectedMonth: Option<int>, timeFrame: string, snapshot: seq<Order>)
      returns (query: RevenueQuery)
      requires selectedMonth.Some? ==> 1 <= selectedMonth.value <= 12
      modifies this
      ensures timeFrame == "Daily" && selectedYear.Some? && selectedMonth.Some? ==>
        query == DailyRange(selectedYear.value, selectedMonth.value) && revenueData == DailyRevenue(snapshot).GetOr(old(revenueData))
      ensures timeFrame == "Monthly" && selectedYear.Some? ==>
        query == MonthlyRange(selectedYear.value) && revenueData == MonthlyRevenue(snapshot).GetOr(old(revenueData))
      ensures timeFrame == "Yearly" ==> query == AllOrders && revenueData == YearlyRevenue(snapshot).GetOr(old(revenueData))
      ensures query == NoQuery ==> revenueData == old(revenueData)
      ensures query == NoQuery <==> (!(timeFrame == "Daily" && selectedYear.Some? && selectedMonth.Some?)
        && !(timeFrame == "Monthly" && selectedYear.Some?) && timeFrame != "Yearly")
      ensures hotSellingCakes == old(hotSellingCakes)
    {
      query := NoQuery;
      if timeFrame == "Daily" {
        if selectedYear.Some? && selectedMonth.Some? {
          query := DailyRange(selectedYear.value, selectedMonth.value);
          FetchDailyRevenue(snapshot);
        }
      } else if timeFrame == "Monthly" {
        if selectedYear.Some? {
          query := MonthlyRange(selectedYear.value);
          FetchMonthlyRevenue(snapshot);
        }
      } else if timeFrame == "Yearly" {
        query := AllOrders;
        FetchYearlyRevenue(snapshot);
      }
    }
  }
}

=== FILE: seqs.dfy ===
/**
 * List operations of the Kotlin standard library used by the list screens:
 * `filter`, `take` and `distinct`, with the order-keeping properties they promise.
 */
module Seqs {

  /** `s.filter(p)`: the elements that satisfy `p`, in their order in `s`. */
  function Filter<T>(s: seq<T>, p: T -> bool): (r: seq<T>)
    ensures |r| <= |s|
    ensures forall i :: 0 <= i < |r| ==> r[i] in s && p(r[i])
    ensures forall i :: 0 <= i < |s| && p(s[i]) ==> s[i] in r
  {
    if s == [] then []
    else (if p(s[0]) then [s[0]] else []) + Filter(s[1..], p)
  }

  /** `a` is `b` with some elements left out, the rest kept in order. */
  predicate IsSubsequence<T(==)>(a: seq<T>, b: seq<T>)
  {
    if a == [] then true
    else if b == [] then false
    else if a[0] == b[0] then IsSubsequence(a[1..], b[1..])
    else IsSubsequence(a, b[1..])
  }

  lemma {:induction false} EmptySubsequence<T>(b: seq<T>)
    ensures IsSubsequence([], b)
  {
  }

  /** `filter` keeps relative order and adds nothing. */
  lemma {:induction false} FilterIsSubsequence<T>(s: seq<T>, p: T -> bool)
    ensures IsSubsequence(Filter(s, p), s)
  {
    if s != [] {
      FilterIsSubsequence(s[1..], p);
      var r := Filter(s, p);
      if p(s[0]) {
        assert r[0] == s[0] && r[1..] == Filter(s[1..], p);
      } else {
        assert r == Filter(s[1..], p);
        SubsequenceOfTail(r, s);
      }
    }
  }

  lemma {:induction false} SubsequenceOfTail<T>(a: seq<T>, b: seq<T>)
    requires b != [] && IsSubsequence(a, b[1..])
    ensures IsSubsequence(a, b)
  {
    if a != [] && a[0] == b[0] {
      // a[1..] is a subsequence of b[1..], because a is.
      SubsequenceDropHead(a, b[1..]);
    }
  }

  lemma {:induction false} SubsequenceDropHead<T>(a: seq<T>, b: seq<T>)
    requires a != [] && IsSubsequence(a, b)
    ensures IsSubsequence(a[1..], b)
  {
    if b != [] {
      if a[0] == b[0] {
        SubsequenceOfTail(a[1..], b);
      } else {
        SubsequenceDropHead(a, b[1..]);
        SubsequenceOfTail(a[1..], b);
      }
    }
  }

  /** Each element occurs in `filter`'s result as often as in the input, when it is kept at all. */
  lemma {:induction false} FilterCounts<T>(s: seq<T>, p: T -> bool, x: T)
    ensures multiset(Filter(s, p))[x] == if p(x) then multiset(s)[x] else 0
  {
    if s != [] {
      FilterCounts(s[1..], p, x);
      assert s == [s[0]] + s[1..];
    }
  }

  /** A filter whose condition every element meets returns the list unchanged. */
  lemma {:induction false} FilterKeepsAll<T>(s: seq<T>, p: T -> bool)
    requires forall i :: 0 <= i < |s| ==> p(s[i])
    ensures Filter(s, p) == s
  {
    if s != [] {
      FilterKeepsAll(s[1..], p);
    }
  }

  /** `s.take(n)` */
  function Take<T>(s: seq<T>, n: nat): (r: seq<T>)
    ensures |r| == if n < |s| then n else |s|
    ensures forall i :: 0 <= i < |r| ==> r[i] == s[i]
  {
    if n < |s| then s[..n] else s
  }

  /** No element occurs twice. */
  predicate NoDuplicates<T(==)>(s: seq<T>)
  {
    forall i, j :: 0 <= i < j < |s| ==> s[i] != s[j]
  }

  /** Position of the first occurrence of `x` in `s`. */
  function FirstIndex<T(==)>(s: seq<T>, x: T): (i: nat)
    requires x in s
    ensures i < |s| && s[i] == x
    ensures forall j :: 0 <= j < i ==> s[j] != x
  {
    if s[0] == x then 0 else 1 + FirstIndex(s[1..], x)
  }

  /** `s.distinct()`: the first occurrence of each element, in order of first appearance. */
  function Distinct<T(==)>(s: seq<T>): (r: seq<T>)
  {
    if s == [] then []
    else
      var d := Distinct(s[..|s| - 1]);
      if s[|s| - 1] in d then d else d + [s[|s| - 1]]
  }

  /** `distinct` keeps exactly the elements of the list, each once. */
  lemma {:induction false} DistinctElements<T>(s: seq<T>)
    ensures NoDuplicates(Distinct(s))
    ensures forall x :: x in Distinct(s) <==> x in s
  {
    if s != [] {
      var init := s[..|s| - 1];
      DistinctElements(init);
      assert s == init + [s[|s| - 1]];
    }
  }

  lemma FirstIndexOfPrefix<T>(s: seq<T>, n: nat, x: T)
    requires n <= |s| && x in s[..n]
    ensures FirstIndex(s, x) == FirstIndex(s[..n], x)
  {
    var i := FirstIndex(s[..n], x);
    var j := FirstIndex(s, x);
    assert s[i] == x;
    assert j <= i;
    assert s[..n][j] == s[j];
  }

  /** `x` and `y` both occur in `s`, and `x` occurs first. */
  predicate FirstAppearsBefore<T(==)>(s: seq<T>, x: T, y: T)
  {
    x in s && y in s && FirstIndex(s, x) < FirstIndex(s, y)
  }

  /** `distinct` lists the elements in the order in which they first appear. */
  lemma {:induction false} DistinctFirstAppearanceOrder<T>(s: seq<T>)
    ensures forall i, j :: 0 <= i < j < |Distinct(s)| ==> FirstAppearsBefore(s, Distinct(s)[i], Distinct(s)[j])
  {
    if s != [] {
      var n := |s| - 1;
      var init := s[..n];
      var d := Distinct(init);
      DistinctFirstAppearanceOrder(init);
      DistinctElements(init);
      var r := Distinct(s);
      assert r == if s[n] in d then d else d + [s[n]];
      forall i, j | 0 <= i < j < |r| ensures FirstAppearsBefore(s, r[i], r[j]) {
        assert r[i] == d[i] && d[i] in d;
        var a := FirstIndex(init, r[i]);
        assert s[a] == init[a];
        FirstIndexOfPrefix(s, n, r[i]);
        if j < |d| {
          assert r[j] == d[j] && d[j] in d;
          var b := FirstIndex(init, r[j]);
          assert s[b] == init[b];
          FirstIndexOfPrefix(s, n, r[j]);
        } else {
          // r[j] is the last element, seen for the first time at position n.
          assert r[j] == s[n] && s[n] !in init;
          assert FirstIndex(s, r[j]) == n;
        }
      }
    }
  }

  /** A list with no repeated element still has none after a rearrangement. */
  lemma {:induction false} NoDuplicatesCount<T>(s: seq<T>, x: T)
    requires NoDuplicates(s)
    ensures multiset(s)[x] <= 1
  {
    if s != [] {
      assert s == [s[0]] + s[1..];
      NoDuplicatesCount(s[1..], x);
      if s[0] == x {
        assert x !in s[1..];
      }
    }
  }

  lemma NoDuplicatesPermutation<T>(a: seq<T>, b: seq<T>)
    requires multiset(a) == multiset(b) && NoDuplicates(a)
    ensures NoDuplicates(b)
  {
    forall i, j | 0 <= i < j < |b| ensures b[i] != b[j] {
      if b[i] == b[j] {
        assert b == b[..j] + [b[j]] + b[j + 1..];
        assert b[..j][i] == b[i];
        assert multiset(b)[b[i]] >= 2;
        NoDuplicatesCount(a, b[i]);
        assert false;
      }
    }
  }

  /** `s.sumOf(f)` */
  function SumBy<T>(s: seq<T>, f: T -> int): int
  {
    if s == [] then 0 else SumBy(s[..|s| - 1], f) + f(s[|s| - 1])
  }

  lemma {:induction false} SumByAppend<T>(a: seq<T>, b: seq<T>, f: T -> int)
    ensures SumBy(a + b, f) == SumBy(a, f) + SumBy(b, f)
  {
    if b != [] {
      SumByAppend(a, b[..|b| - 1], f);
      assert (a + b)[..|a + b| - 1] == a + b[..|b| - 1];
    } else {
      assert a + b == a;
    }
  }

  /** Cutting out position `k` takes away one copy of that element and nothing else. */
  lemma RemoveAtMultiset<T>(s: seq<T>, k: nat)
    requires k < |s|
    ensures multiset(s[..k] + s[k + 1..]) == multiset(s) - multiset{s[k]}
  {
    assert s == s[..k] + [s[k]] + s[k + 1..];
  }

  /** The sum is the sum without position `k` plus the term at `k`. */
  lemma SumBySplitAt<T>(s: seq<T>, k: nat, f: T -> int)
    requires k < |s|
    ensures SumBy(s, f) == SumBy(s[..k] + s[k + 1..], f) + f(s[k])
  {
    var left, upTo, right := s[..k], s[..k + 1], s[k + 1..];
    assert SumBy(s, f) == SumBy(upTo, f) + SumBy(right, f) by {
      assert upTo + right == s;
      SumByAppend(upTo, right, f);
    }
    assert SumBy(upTo, f) == SumBy(left, f) + f(s[k]) by {
      assert upTo[..k] == left;
    }
    SumByAppend(left, right, f);
  }

  /** A sum does not depend on the order of its terms. */
  lemma {:induction false} SumByPermutation<T>(a: seq<T>, b: seq<T>, f: T -> int)
    requires multiset(a) == multiset(b)
    ensures SumBy(a, f) == SumBy(b, f)
  {
    if a != [] {
      var n := |a| - 1;
      var x := a[n];
      assert x in multiset(b);
      var k := FirstIndex(b, x);
      var rest := b[..k] + b[k + 1..];
      RemoveAtMultiset(a, n);
      assert a[..n] + a[n + 1..] == a[..n];
      assert multiset(a[..n]) == multiset(a) - multiset{x};
      RemoveAtMultiset(b, k);
      assert multiset(rest) == multiset(b) - multiset{x};
      SumByPermutation(a[..n], rest, f);
      SumBySplitAt(b, k, f);
    } else {
      assert |multiset(b)| == 0;
    }
  }
}

=== FILE: sorting.dfy ===
/**
 * Kotlin's `sortedBy { … }` and `sortedByDescending { … }`: a stable sort of a
 * list by a selected comparable key. The keys the app sorts by are whole
 * numbers (timestamps, quantities, prices in cents, order counts) and strings
 * (ids, statuses, labels), compared with `compareTo`.
 */
module Sorting {

  /** A comparable sort key: an `Int`/`Long`/price, or a `String`. */
  datatype SortKey = IntKey(n: int) | StrKey(s: string)

  /** `String.compareTo(other) <= 0`: lexicographic on characters, a proper prefix first. */
  predicate StrLe(a: string, b: string)
  {
    if a == [] then true
    else if b == [] then false
    else if a[0] != b[0] then a[0] < b[0]
    else StrLe(a[1..], b[1..])
  }

  lemma {:induction false} StrLeTotal(a: string, b: string)
    ensures StrLe(a, b) || StrLe(b, a)
  {
    if a != [] && b != [] && a[0] == b[0] {
      StrLeTotal(a[1..], b[1..]);
    }
  }

  lemma {:induction false} StrLeAntisymmetric(a: string, b: string)
    requires StrLe(a, b) && StrLe(b, a)
    ensures a == b
  {
    if a != [] && b != [] {
      StrLeAntisymmetric(a[1..], b[1..]);
      assert a == [a[0]] + a[1..] && b == [b[0]] + b[1..];
    }
  }

  lemma {:induction false} StrLeTransitive(a: string, b: string, c: string)
    requires StrLe(a, b) && StrLe(b, c)
    ensures StrLe(a, c)
  {
    if a != [] && b != [] && c != [] && a[0] == b[0] && b[0] == c[0] {
      StrLeTransitive(a[1..], b[1..], c[1..]);
    }
  }

  /** The order on keys; the app never mixes the two kinds in one sort, but the order is total. */
  predicate KeyLe(x: SortKey, y: SortKey)
  {
    match (x, y)
    case (IntKey(a), IntKey(b)) => a <= b
    case (StrKey(a), StrKey(b)) => StrLe(a, b)
    case (IntKey(_), StrKey(_)) => true
    case (StrKey(_), IntKey(_)) => false
  }

  lemma KeyLeTotal(x: SortKey, y: SortKey)
    ensures KeyLe(x, y) || KeyLe(y, x)
  {
    if x.StrKey? && y.StrKey? { StrLeTotal(x.s, y.s); }
  }

  lemma KeyLeAntisymmetric(x: SortKey, y: SortKey)
    requires KeyLe(x, y) && KeyLe(y, x)
    ensures x == y
  {
    if x.StrKey? && y.StrKey? { StrLeAntisymmetric(x.s, y.s); }
  }

  lemma KeyLeTransitive(x: SortKey, y: SortKey, z: SortKey)
    requires KeyLe(x, y) && KeyLe(y, z)
    ensures KeyLe(x, z)
  {
    if x.StrKey? && y.StrKey? && z.StrKey? { StrLeTransitive(x.s, y.s, z.s); }
  }

  /** `x` may come before `y`: ascending (`sortedBy`) or descending (`sortedByDescending`). */
  predicate InOrder(x: SortKey, y: SortKey, ascending: bool)
  {
    if ascending then KeyLe(x, y) else KeyLe(y, x)
  }

  lemma InOrderTotal(x: SortKey, y: SortKey, ascending: bool)
    ensures InOrder(x, y, ascending) || InOrder(y, x, ascending)
  {
    KeyLeTotal(x, y);
  }

  lemma InOrderTransitive(x: SortKey, y: SortKey, z: SortKey, ascending: bool)
    requires InOrder(x, y, ascending) && InOrder(y, z, ascending)
    ensures InOrder(x, z, ascending)
  {
    if ascending { KeyLeTransitive(x, y, z); } else { KeyLeTransitive(z, y, x); }
  }

  /** Every earlier element may come before every later one. */
  predicate Sorted<T>(s: seq<T>, key: T -> SortKey, ascending: bool)
  {
    forall i, j :: 0 <= i < j < |s| ==> InOrder(key(s[i]), key(s[j]), ascending)
  }

  /** The elements of `s` whose key is `k`, in their order in `s`. */
  function WithKey<T>(s: seq<T>, key: T -> SortKey, k: SortKey): seq<T>
  {
    if s == [] then []
    else (if key(s[0]) == k then [s[0]] else []) + WithKey(s[1..], key, k)
  }

  /** Insert `x` in front of the first element it may precede. */
  function Insert<T>(x: T, s: seq<T>, key: T -> SortKey, ascending: bool): (r: seq<T>)
    ensures |r| == |s| + 1
  {
    if s == [] || InOrder(key(x), key(s[0]), ascending) then [x] + s
    else [s[0]] + Insert(x, s[1..], key, ascending)
  }

  /** The stable sort: each element is inserted ahead of those with an equal key. */
  function SortBy<T>(s: seq<T>, key: T -> SortKey, ascending: bool): (r: seq<T>)
    ensures |r| == |s|
  {
    if s == [] then [] else Insert(s[0], SortBy(s[1..], key, ascending), key, ascending)
  }

  lemma {:induction false} InsertPermutes<T>(x: T, s: seq<T>, key: T -> SortKey, ascending: bool)
    ensures multiset(Insert(x, s, key, ascending)) == multiset(s) + multiset{x}
  {
    if s != [] && !InOrder(key(x), key(s[0]), ascending) {
      InsertPermutes(x, s[1..], key, ascending);
      assert s == [s[0]] + s[1..];
    }
  }

  /** The sorted list holds exactly the elements of the input, with their multiplicities. */
  lemma {:induction false} SortByPermutes<T>(s: seq<T>, key: T -> SortKey, ascending: bool)
    ensures multiset(SortBy(s, key, ascending)) == multiset(s)
  {
    if s != [] {
      SortByPermutes(s[1..], key, ascending);
      InsertPermutes(s[0], SortBy(s[1..], key, ascending), key, ascending);
      assert s == [s[0]] + s[1..];
    }
  }

  lemma {:induction false} InsertSorted<T>(x: T, s: seq<T>, key: T -> SortKey, ascending: bool)
    requires Sorted(s, key, ascending)
    ensures Sorted(Insert(x, s, key, ascending), key, ascending)
  {
    var r := Insert(x, s, key, ascending);
    if s == [] {
    } else if InOrder(key(x), key(s[0]), ascending) {
      forall i, j | 0 <= i < j < |r| ensures InOrder(key(r[i]), key(r[j]), ascending) {
        if i == 0 && j > 1 {
          InOrderTransitive(key(x), key(s[0]), key(s[j - 1]), ascending);
        }
      }
    } else {
      InOrderTotal(key(x), key(s[0]), ascending);
      var rest := Insert(x, s[1..], key, ascending);
      InsertSorted(x, s[1..], key, ascending);
      InsertPermutes(x, s[1..], key, ascending);
      forall j | 0 <= j < |rest| ensures InOrder(key(s[0]), key(rest[j]), ascending) {
        assert rest[j] in multiset(rest);
        if rest[j] != x {
          assert rest[j] in multiset(s[1..]);
          var k :| 0 <= k < |s[1..]| && s[1..][k] == rest[j];
          assert s[k + 1] == rest[j];
        }
      }
      assert r == [s[0]] + rest;
    }
  }

  /** Every earlier element of the result may come before every later one. */
  lemma {:induction false} SortBySorted<T>(s: seq<T>, key: T -> SortKey, ascending: bool)
    ensures Sorted(SortBy(s, key, ascending), key, ascending)
  {
    if s != [] {
      SortBySorted(s[1..], key, ascending);
      InsertSorted(s[0], SortBy(s[1..], key, ascending), key, ascending);
    }
  }

  lemma {:induction false} WithKeyNone<T>(s: seq<T>, key: T -> SortKey, k: SortKey)
    requires forall i :: 0 <= i < |s| ==> key(s[i]) != k
    ensures WithKey(s, key, k) == []
  {
    if s != [] { WithKeyNone(s[1..], key, k); }
  }

  lemma {:induction false} InsertWithKey<T>(x: T, s: seq<T>, key: T -> SortKey, ascending: bool, k: SortKey)
    requires Sorted(s, key, ascending)
    ensures WithKey(Insert(x, s, key, ascending), key, k)
         == (if key(x) == k then [x] else []) + WithKey(s, key, k)
  {
    var r := Insert(x, s, key, ascending);
    if s == [] {
      assert r[1..] == [];
    } else if InOrder(key(x), key(s[0]), ascending) {
      assert r[1..] == s;
    } else {
      // x goes after s[0], which therefore has a different key.
      InOrderTotal(key(x), key(s[0]), ascending);
      assert key(s[0]) != key(x);
      InsertWithKey(x, s[1..], key, ascending, k);
      WithKeyBehind(x, s, key, k, Insert(x, s[1..], key, ascending));
    }
  }

  /** Putting an element of another key in front of `rest` adds it to the selection of its own key only. */
  lemma WithKeyBehind<T>(x: T, s: seq<T>, key: T -> SortKey, k: SortKey, rest: seq<T>)
    requires s != [] && key(s[0]) != key(x)
    requires WithKey(rest, key, k) == (if key(x) == k then [x] else []) + WithKey(s[1..], key, k)
    ensures WithKey([s[0]] + rest, key, k) == (if key(x) == k then [x] else []) + WithKey(s, key, k)
  {
    var r := [s[0]] + rest;
    assert r[0] == s[0] && r[1..] == rest;
    var head := if key(s[0]) == k then [s[0]] else [];
    assert WithKey(r, key, k) == head + WithKey(rest, key, k);
    if key(x) == k {
      assert head == [];
      assert WithKey(r, key, k) == WithKey(rest, key, k);
    } else {
      assert WithKey(rest, key, k) == WithKey(s[1..], key, k);
    }
  }

  /** Stability: among elements with equal keys the input order is kept. */
  lemma {:induction false} SortByStable<T>(s: seq<T>, key: T -> SortKey, ascending: bool, k: SortKey)
    ensures WithKey(SortBy(s, key, ascending), key, k) == WithKey(s, key, k)
  {
    if s != [] {
      SortByStable(s[1..], key, ascending, k);
      SortBySorted(s[1..], key, ascending);
      InsertWithKey(s[0], SortBy(s[1..], key, ascending), key, ascending, k);
    }
  }
}

=== FILE: text.dfy ===
/**
 * Character and string predicates of the Kotlin standard library that the
 * screens use: `isBlank`, `isDigit`, `contains(…, ignoreCase = true)`.
 */
module Text {

  /**
   * Kotlin/JVM `Char.isWhitespace()`: `Character.isWhitespace(c) ||
   * Character.isSpaceChar(c)`, written out as the characters it accepts.
   */
  predicate IsWhitespace(c: char)
  {
    || c == ' ' || c == '\t' || c == '\n' || c == '\r'
    || c == '\U{000B}' || c == '\U{000C}'
    || ('\U{001C}' <= c <= '\U{001F}')
    || c == '\U{00A0}' || c == '\U{1680}'
    || ('\U{2000}' <= c <= '\U{200A}')
    || c == '\U{2028}' || c == '\U{2029}' || c == '\U{202F}' || c == '\U{205F}' || c == '\U{3000}'
  }

  /** `isBlank()`: empty or whitespace only. */
  predicate IsBlank(s: string)
  {
    forall i :: 0 <= i < |s| ==> IsWhitespace(s[i])
  }

  /** How many UTF-16 code units a character takes: two above U+FFFF, one otherwise. */
  function Utf16Units(c: char): (n: nat)
    ensures n == 1 || n == 2
    ensures n == 2 <==> c as int > 0xFFFF
  {
    if c as int > 0xFFFF then 2 else 1
  }

  /** `String.length`, which counts UTF-16 code units, not characters. */
  function Utf16Length(s: string): (n: nat)
    ensures |s| <= n <= 2 * |s|
  {
    if s == [] then 0 else Utf16Units(s[0]) + Utf16Length(s[1..])
  }

  /** A string of characters up to U+FFFF is as long in UTF-16 units as in characters. */
  lemma {:induction false} Utf16LengthBasic(s: string)
    requires forall i :: 0 <= i < |s| ==> s[i] as int <= 0xFFFF
    ensures Utf16Length(s) == |s|
  {
    if s != [] {
      assert forall i :: 0 <= i < |s[1..]| ==> s[1..][i] == s[i + 1];
      Utf16LengthBasic(s[1..]);
    }
  }

  /** Each character above U+FFFF adds one unit more: a string of them only is twice as long. */
  lemma {:induction false} Utf16LengthSupplementary(s: string)
    requires forall i :: 0 <= i < |s| ==> s[i] as int > 0xFFFF
    ensures Utf16Length(s) == 2 * |s|
  {
    if s != [] {
      assert forall i :: 0 <= i < |s[1..]| ==> s[1..][i] == s[i + 1];
      Utf16LengthSupplementary(s[1..]);
    }
  }

  /** `isDigit()`, restricted to the ASCII digits. */
  predicate IsDigit(c: char)
  {
    '0' <= c <= '9'
  }

  /** `s.all { it.isDigit() }` */
  predicate AllDigits(s: string)
  {
    forall i :: 0 <= i < |s| ==> IsDigit(s[i])
  }

  /** `s.filter { it.isDigit() }` */
  function DigitsOf(s: string): (r: string)
    ensures AllDigits(r)
    ensures |r| <= |s|
    ensures AllDigits(s) ==> r == s
  {
    if s == [] then []
    else (if IsDigit(s[0]) then [s[0]] else []) + DigitsOf(s[1..])
  }

  /** Lower-case mapping, ASCII letters only. */
  function Lower(c: char): (r: char)
    ensures 'A' <= c <= 'Z' ==> 'a' <= r <= 'z'
    ensures !('A' <= c <= 'Z') ==> r == c
  {
    if 'A' <= c <= 'Z' then (c as int + 32) as char else c
  }

  /** `Char.equals(other, ignoreCase = true)` */
  predicate CharEqualsIgnoreCase(a: char, b: char)
  {
    Lower(a) == Lower(b)
  }

  /** `regionMatches(offset, needle, 0, needle.length, ignoreCase = true)` */
  predicate RegionMatchesIgnoreCase(haystack: string, offset: nat, needle: string)
    requires offset + |needle| <= |haystack|
  {
    forall k :: 0 <= k < |needle| ==> CharEqualsIgnoreCase(haystack[offset + k], needle[k])
  }

  /** Some window of the haystack matches the needle, ignoring case. */
  ghost predicate Occurs(haystack: string, needle: string)
  {
    exists offset: nat :: offset + |needle| <= |haystack| && RegionMatchesIgnoreCase(haystack, offset, needle)
  }

  /** The search that `indexOf(needle, from, ignoreCase = true)` runs. */
  function IndexOfIgnoreCase(haystack: string, needle: string, from: nat): (r: int)
    requires from + |needle| <= |haystack| + 1
    ensures r == -1 || (from <= r && r + |needle| <= |haystack|)
    ensures r >= 0 ==> RegionMatchesIgnoreCase(haystack, r, needle)
    ensures r == -1 <==> forall offset: nat :: from <= offset && offset + |needle| <= |haystack| ==> !RegionMatchesIgnoreCase(haystack, offset, needle)
    decreases |haystack| - from
  {
    if from + |needle| > |haystack| then -1
    else if RegionMatchesIgnoreCase(haystack, from, needle) then from
    else IndexOfIgnoreCase(haystack, needle, from + 1)
  }

  /** `haystack.contains(needle, ignoreCase = true)`, which is `indexOf(…) >= 0`. */
  predicate ContainsIgnoreCase(haystack: string, needle: string)
    ensures ContainsIgnoreCase(haystack, needle) <==> Occurs(haystack, needle)
  {
    |needle| <= |haystack| && IndexOfIgnoreCase(haystack, needle, 0) >= 0
  }

  /** The empty needle is contained in every string. */
  lemma EmptyNeedleContained(haystack: string)
    ensures ContainsIgnoreCase(haystack, "")
  {
    assert RegionMatchesIgnoreCase(haystack, 0, "");
  }

  /** A blank but non-empty query is not contained in a string that has no whitespace. */
  lemma WhitespaceNotContained(haystack: string, needle: string)
    requires needle != [] && IsBlank(needle)
    requires forall i :: 0 <= i < |haystack| ==> !IsWhitespace(haystack[i])
    ensures !ContainsIgnoreCase(haystack, needle)
  {
    forall offset: nat | offset + |needle| <= |haystack|
      ensures !RegionMatchesIgnoreCase(haystack, offset, needle)
    {
      assert IsWhitespace(needle[0]);
      assert !CharEqualsIgnoreCase(haystack[offset], needle[0]);
    }
  }
}

=== FILE: theme_view_model.dfy ===
/** The app-wide light/dark switch (`ThemeViewModel.kt`). */
module Theme {

  class ThemeViewModel {
    /** `isDarkTheme`; the app starts dark. */
    var isDarkTheme: bool

    constructor ()
      ensures isDarkTheme
    {
      isDarkTheme := true;
    }

    /** `toggleTheme`: flips the flag, the only state there is. */
    method ToggleTheme()
      modifies this
      ensures isDarkTheme == !old(isDarkTheme)
    {
      isDarkTheme := !isDarkTheme;
    }
  }

  /** Two toggles give back the theme the user had. */
  method ToggleTwice(themeViewModel: ThemeViewModel)
    modifies themeViewModel
    ensures themeViewModel.isDarkTheme == old(themeViewModel.isDarkTheme)
  {
    themeViewModel.ToggleTheme();
    themeViewModel.ToggleTheme();
  }

  /** From a fresh start one toggle gives the light theme and a second the dark one again. */
  method FreshToggles() returns (afterOne: bool, afterTwo: bool)
    ensures !afterOne && afterTwo
  {
    var themeViewModel := new ThemeViewModel();
    themeViewModel.ToggleTheme();
    afterOne := themeViewModel.isDarkTheme;
    themeViewModel.ToggleTheme();
    afterTwo := themeViewModel.isDarkTheme;
  }
}

=== FILE: user_home_page.dfy ===
/**
 * The customer's home screen (`pages/UserHomePage.kt`): the three newest
 * cakes, the category list, and one section per category.
 */
module UserHome {
  import opened Cakes
  import opened Seqs
  import opened Sorting

  /** `sortedByDescending { it.id }`: ids are compared as strings. */
  function IdKey(cake: Cake): SortKey
  {
    StrKey(cake.id)
  }

  /** `latestCakes`: the first three after sorting by id, greatest first. */
  function LatestCakes(cakeList: seq<Cake>): (r: seq<Cake>)
    ensures |r| == if |cakeList| < 3 then |cakeList| else 3
  {
    Take(SortBy(cakeList, IdKey, false), 3)
  }

  /**
   * The newest cakes come from the catalogue, run in descending id order, and
   * every catalogue cake left out has an id no greater than any shown one.
   */
  lemma LatestCakesAreGreatest(cakeList: seq<Cake>)
    ensures var r := LatestCakes(cakeList);
      && multiset(r) <= multiset(cakeList)
      && (forall i, j :: 0 <= i < j < |r| ==> StrLe(r[j].id, r[i].id))
      && (forall c :: c in cakeList ==> c in r || forall i :: 0 <= i < |r| ==> StrLe(c.id, r[i].id))
  {
    var s := SortBy(cakeList, IdKey, false);
    var r := LatestCakes(cakeList);
    SortByPermutes(cakeList, IdKey, false);
    SortBySorted(cakeList, IdKey, false);
    assert s == r + s[|r|..];
    assert multiset(s) == multiset(r) + multiset(s[|r|..]);
    forall i, j | 0 <= i < j < |r| ensures StrLe(r[j].id, r[i].id) {
      assert InOrder(IdKey(s[i]), IdKey(s[j]), false);
    }
    forall c | c in cakeList ensures c in r || forall i :: 0 <= i < |r| ==> StrLe(c.id, r[i].id) {
      assert c in multiset(s);
      var k :| 0 <= k < |s| && s[k] == c;
      if k >= |r| {
        forall i | 0 <= i < |r| ensures StrLe(c.id, r[i].id) {
          assert InOrder(IdKey(s[i]), IdKey(s[k]), false);
        }
      }
    }
  }

  /** `cakeList.map { it.category }` */
  function CategoryColumn(cakeList: seq<Cake>): (r: seq<string>)
    ensures |r| == |cakeList| && forall i :: 0 <= i < |r| ==> r[i] == cakeList[i].category
  {
    seq(|cakeList|, i requires 0 <= i < |cakeList| => cakeList[i].category)
  }

  /** `categories` */
  function Categories(cakeList: seq<Cake>): (r: seq<string>)
  {
    Distinct(CategoryColumn(cakeList))
  }

  /**
   * Each category of the catalogue is listed once, a listed category belongs
   * to some cake, and categories come in the order their first cake does.
   */
  lemma CategoriesFacts(cakeList: seq<Cake>)
    ensures var r := Categories(cakeList);
      && NoDuplicates(r)
      && (forall i :: 0 <= i < |cakeList| ==> cakeList[i].category in r)
      && (forall x :: x in r ==> exists i :: 0 <= i < |cakeList| && cakeList[i].category == x)
      && (forall i, j :: 0 <= i < j < |r| ==> FirstAppearsBefore(CategoryColumn(cakeList), r[i], r[j]))
  {
    var column := CategoryColumn(cakeList);
    DistinctElements(column);
    DistinctFirstAppearanceOrder(column);
    forall i | 0 <= i < |cakeList| ensures cakeList[i].category in Categories(cakeList) {
      assert column[i] in column;
    }
  }

  /** `cakesInCategory`: the cakes of one category section. */
  function CakesInCategory(cakeList: seq<Cake>, category: string): (r: seq<Cake>)
    ensures forall i :: 0 <= i < |r| ==> r[i].category == category
  {
    Filter(cakeList, (c: Cake) => c.category == category)
  }

  /**
   * A section holds exactly the catalogue's cakes of its category, in
   * catalogue order, and no listed category has an empty section.
   */
  lemma CategorySectionFacts(cakeList: seq<Cake>, category: string, cake: Cake)
    ensures var r := CakesInCategory(cakeList, category);
      && IsSubsequence(r, cakeList)
      && multiset(r)[cake] == (if cake.category == category then multiset(cakeList)[cake] else 0)
      && (category in Categories(cakeList) ==> r != [])
  {
    var p := (c: Cake) => c.category == category;
    FilterIsSubsequence(cakeList, p);
    FilterCounts(cakeList, p, cake);
    if category in Categories(cakeList) {
      CategoriesFacts(cakeList);
      var i :| 0 <= i < |cakeList| && cakeList[i].category == category;
      assert cakeList[i] in CakesInCategory(cakeList, category);
    }
  }
}

=== FILE: wrappers.dfy ===
/** Kotlin's nullable values (`T?`) and the `?:` elvis default. */
module Wrappers {

  datatype Option<+T> = None | Some(value: T) {

    /** `x ?: default` */
    function GetOr(default: T): (r: T)
      ensures Some? ==> r == value
      ensures None? ==> r == default
    {
      match this
      case Some(v) => v
      case None => default
    }
  }
}
